=== FILE: README.md ===
# ScamShield scenario engine in Dafny

ScamShield teaches people to spot scams through short branching conversations, called
scenarios. A scenario is a list of steps. Each step either offers choices, each leading to
another step, continues linearly through `next`, or is a terminal leaf that routes to the
debrief. Every choice carries a pressure delta and a trust hint. These move two gauges, trust
and pressure, both running from 0 to 100.

This project models the scenario engine and its tooling as pure Dafny functions, and proves
properties of them:

- **Unified types** (`UnifiedTypes`): choices, steps, scenarios, debriefs, conversation state,
  traces and path summaries. JavaScript's optional fields become `Option`, or an empty
  sequence where the source treats "absent" and "empty" alike. Step lookup follows the source's
  `Map` built in scenario order, so the last step with a given id wins.
- **Trust and pressure** (`TrustPressure`): the per-choice gauge update, the zones, the
  feedback buckets, the haptic trigger, the trace, and the two end-of-game analyses.
- **Path validation** (`Dfs`, `DfsProofs`, `DfsExamples`): the depth-first walk from the entry
  step with its 20-ancestor depth limit. Exceptions are values: a thrown error unwinds to the
  nearest enclosing `try`. The module also has the three structural checks and the fail-fast
  `validateScenario`. The proofs relate a successful walk to the graph: the reachable steps
  are exactly the ends of walks from the entry, and the terminal list holds exactly the leaves
  such walks reach.
- **Game-master simulation** (`GameMaster`, `GameMasterProofs`, `GameMasterExamples`): path
  enumeration with its depth bound and visited set, replay of a path with gauge updates and
  traces, and the scenario summary over at most 50 paths. The enumerator is modelled twice,
  selected by `Mode`: `AsWritten` stops at every step without choices, as the source does;
  `FollowingNext` also follows `next`. The proofs show that the enumerated paths are exactly
  the bounded plays of the scenario, that each replays without error, and that replayed traces
  chain from the starting gauges to the final ones.
- **File validation** (`ScenarioValidator`): the checks applied after schema validation, and
  the directory reliability score.
- **Legacy conversion** (`ConvertLegacy`): the pressure, trust-hint, scam-type and difficulty
  heuristics, and the three passes that number steps `s1`, `s2`, … and resolve legacy
  references. The debrief defaults are included. Every converted scenario has distinct step
  ids, well-shaped steps, in-range deltas and a well-formed debrief.

Shared helpers: `Common` has `Option`, `Result`, `Clamp` and `Last`. `Text` has ASCII lower-casing, substring search, and decimal rendering of
naturals.

## Model

| member | source | states |
|---|---|---|
| Common.Percent | app/engine/trustPressure.ts:183 | the share of a part in its whole, as a percentage: it lies in 0..100, is 100 exactly for the whole and 0 exactly for nothing, and multiplied by the whole gives the part times 100 |
| Common.Mean | tools/run-gamemaster.ts:50-51 | the mean of `n` values that sum to `total`: multiplied by `n` it gives `total`, and it is 0 when there are no values |
| Common.MeanBetween | tools/run-gamemaster.ts:50-51 | when the sum of `n` values lies between `n * lo` and `n * hi`, their mean lies between `lo` and `hi` |
| UnifiedTypes.Successors | tools/dfs.ts:44-61 | a step with choices continues to its choice targets in order, a linear step to its `next`, and a step has no successor exactly when it is a leaf |
| UnifiedTypes.TotalChoices | tools/validate-scenarios.ts:102-103 | the summed choice count is zero exactly when no step has choices |
| UnifiedTypes.Lookup | tools/dfs.ts:8-13 | lookup succeeds exactly for ids some step carries, and returns the last step in scenario order with that id |
| UnifiedTypes.LookupUnique | tools/dfs.ts:8-13 | with distinct ids, looking up a step's id returns that very step |
| TrustPressure.ClampPressure | app/engine/trustPressure.ts:8-10 | the result lies in -15..15, equals the delta when it is already in range, and is the nearer bound otherwise |
| TrustPressure.NextPressure | app/engine/trustPressure.ts:30-31 | new pressure stays within 0..100 and is the old pressure plus the clamped delta whenever that sum is in range |
| TrustPressure.ApplyChoice | app/engine/trustPressure.ts:22-81 | pressure stays in the gauge and trust stays in it when it started there; zones and feedback are computed from the new values; the haptic fires exactly when pressure rose by at least 5 |
| TrustPressure.TrustMovesWithHint | app/engine/trustPressure.ts:36-41 | too-trusting raises trust by 12 up to 100, and too-skeptical lowers it by 8 down to 0 |
| TrustPressure.AppropriateNudgesTowardTarget | app/engine/trustPressure.ts:42-52 | an appropriate choice leaves trust inside 40..60 unchanged, moves it at most 3 toward the range otherwise without overshooting, and cuts the distance to the range by 3 or to 0 |
| TrustPressure.PressureZoneMonotone | app/engine/trustPressure.ts:60-62 | more pressure never gives a safer zone |
| TrustPressure.HapticIffRealRise | app/engine/trustPressure.ts:69-70 | for in-range pressure, the haptic fires exactly when the delta is at least 5 and pressure is at most 95, so a rise absorbed by the ceiling does not fire it |
| TrustPressure.ClampedRiseExample | app/engine/trustPressure.ts:102-121 | at pressure 98 a +15 choice reaches 100 without a haptic, yet the feedback still reports a spike because it reads the delta, not the rise |
| TrustPressure.FirstChoiceExample | app/engine/trustPressure.ts:22-81 | from the starting gauges (50, 0), a too-trusting +5 choice gives trust 62 in the high zone, pressure 5 in the safe zone, a haptic, and both warning feedbacks |
| TrustPressure.SelectTrustFeedback | app/engine/trustPressure.ts:83-100 | the feedback belongs to the new trust zone, and it names the choice's hint exactly when that hint is the one the zone points to |
| TrustPressure.SelectPressureFeedback | app/engine/trustPressure.ts:102-121 | a delta of +5 or more reports a spike, -5 or less a reduction, and anything between reports the zone |
| TrustPressure.AnalyzeTrustPerformance | app/engine/trustPressure.ts:140-166 | final trust above 60 is too trusting, below 40 too skeptical, and within 40..60 well calibrated |
| TrustPressure.Timeline | app/engine/trustPressure.ts:173-177 | one timeline entry per trace, in order, each classifying its own trace |
| TrustPressure.ActionsPartition | app/engine/trustPressure.ts:179-181 | every timeline entry is either an escalation or a resistance, so the two counts sum to the number of traces |
| TrustPressure.EscalationsAreRises | app/engine/trustPressure.ts:175-179 | the escalations are exactly the traces whose pressure rose |
| TrustPressure.AnalyzePressureResistance | app/engine/trustPressure.ts:168-194 | the timeline has one entry per trace, carrying its step id and its pressure change, marked escalated exactly when pressure rose (an unchanged pressure counts as resisted); the score is the percentage of traces where pressure did not rise, 50 with no traces, within 0..100; the excellent message appears exactly from 70 and the warning exactly below 40 |
| Dfs.TargetErrorsComplete | tools/dfs.ts:100-112 | every choice target and every truthy `next` that names no step is reported, with its step and choice |
| Dfs.TargetErrorsSound | tools/dfs.ts:100-112 | every reported error is a reference of some step that names no step: that step's `next`, or one of its choices with the reported id and target |
| Dfs.ValidateChoiceTargets | tools/dfs.ts:97-117 | no error exactly when every choice target and every `next` names a step; otherwise every dangling reference is reported, and only dangling ones |
| Dfs.ValidateDifficultyConstraints | tools/dfs.ts:119-139 | no error exactly when no step has more choices than its difficulty allows (3 for easy, 5 for medium, 7 for hard); otherwise every offending step is reported with its count, and only those |
| Dfs.ValidatePressureDeltas | tools/dfs.ts:141-157 | no error exactly when every delta lies in -15..15; otherwise every out-of-range delta is reported, and only those |
| Dfs.WalkPath | tools/dfs.ts:27-37 | the walk only grows its records; below the depth limit a call always returns; a too-deep call records its path key and then throws to its caller |
| Dfs.Visit | tools/dfs.ts:39-64 | visiting a step only grows the walk and keeps its records consistent with the scenario |
| Dfs.WalkChoices | tools/dfs.ts:44-51 | walking a step's choices only grows the walk and keeps its records consistent |
| Dfs.Orphans | tools/dfs.ts:74-77 | an id is orphaned exactly when some step has it and the walk never reached it |
| Dfs.UnreachedIndices | tools/dfs.ts:74-77 | the listed positions are strictly ascending and each names a step the walk never reached |
| Dfs.UnreachedIndicesCover | tools/dfs.ts:74-77 | every position whose step the walk never reached is listed |
| Dfs.OrphansInOrder | tools/dfs.ts:74-77 | the orphans follow scenario order, one per unreached step: the `m`-th orphan is the id of the `m`-th unreached step |
| Dfs.DfsAllPathsToDebrief | tools/dfs.ts:6-95 | failure carries at least one error; success reaches the entry, reports only existing steps, has a debrief and only reachable terminal-marked leaves as terminals, and lists as orphans exactly the `Orphans` of the reached set, in scenario order; a missing entry fails with the error caught at the entry |
| Dfs.EntryFrame | tools/dfs.ts:67-72 | the top-level walk always returns, because its own frame catches everything, so the "DFS failed from entry" error is never recorded |
| Dfs.ValidateScenario | tools/dfs.ts:160-168 | the checks run in order and the first failure is reported: dangling targets, then difficulty, then deltas, then the path walk; success returns the walk's summary |
| DfsProofs.WalkPathClean | tools/dfs.ts:27-65 | a call that returns without adding errors has finished every path key it added: the step exists and is reached, a leaf is listed as terminal, and every successor's key was visited |
| DfsProofs.WalkPathSound | tools/dfs.ts:27-65 | every visited path key is a walk of the scenario graph from the entry, and every reached step ends one |
| DfsProofs.WalksVisited | tools/dfs.ts:27-65 | after a successful validation every walk from the entry was visited as a path key |
| DfsProofs.ReachableAreWalkEnds | tools/dfs.ts:15-41 | after a successful validation, the reachable steps are exactly the last steps of walks from the entry, and every such walk has at most 21 steps |
| DfsProofs.WalkEndsClosed | tools/dfs.ts:44-61 | any set holding the end of every walk holds each choice target of a branching end and the `next` of a linear end |
| DfsProofs.ReachableClosed | tools/dfs.ts:44-54 | after a successful validation, every successor of a reachable step is reachable |
| DfsProofs.TerminalsAreWalkLeaves | tools/dfs.ts:55-61 | after a successful validation, every leaf a walk reaches is listed as terminal, and every listed terminal is a reachable leaf marked terminal |
| DfsProofs.DanglingWalkFails | tools/dfs.ts:20-25 | if a walk from the entry reaches a missing step, validation fails |
| DfsProofs.UnmarkedLeafFails | tools/dfs.ts:55-59 | if a walk from the entry reaches a leaf not marked terminal, validation fails |
| DfsProofs.ReachableOrphansPartition | tools/dfs.ts:74-77 | after a successful validation the reachable and orphaned ids are disjoint and together make up all step ids |
| DfsProofs.DeepWalkFails | tools/dfs.ts:35-37 | if some walk from the entry is longer than 21 steps, as any cycle allows, validation fails |
| DfsExamples.DiamondListsLeafTwice | tools/dfs.ts:60 | in a diamond whose two branches meet at one terminal step, that step is listed as terminal twice, once per path |
| GameMaster.NextIds | tools/run-gamemaster.ts:110-118 | from a step where enumeration continues, the next ids are the step's successors |
| GameMaster.Explore | tools/run-gamemaster.ts:86-119 | enumeration only grows; each new path extends the current key, has at most 21 steps, and was not visited before, so new paths are distinct |
| GameMaster.GeneratePaths | tools/run-gamemaster.ts:77-123 | every path starts at the entry, has 1 to 21 steps, and no path is listed twice |
| GameMaster.FindChoice | tools/run-gamemaster.ts:158 | the first choice leading to the target, and none exactly when no choice leads there |
| GameMaster.Advance | tools/run-gamemaster.ts:152-200 | one move of the replay keeps both gauges in 0..100; it fails exactly when the two steps are not joined by a choice or by `next`, and a failure leaves the replay unchanged apart from the error; a branching step adds exactly one choice and one trace |
| GameMaster.ReplayFrom | tools/run-gamemaster.ts:147-201 | the replay keeps both gauges in 0..100; it has no error exactly when each consecutive pair is joined by a choice or by `next`; it records one choice and one trace per branching step |
| GameMaster.SimulatePath | tools/run-gamemaster.ts:125-231 | a path completes exactly when every transition is valid and its last step exists and is terminal; final gauges stay in range |
| GameMaster.CountCompleted | tools/run-gamemaster.ts:49 | the count is the number of positions holding a completed replay; so it is at most the number of replays, and it is zero exactly when none completed |
| GameMaster.SimulateScenario | tools/run-gamemaster.ts:35-75 | all generated paths are counted, the first 50 are simulated in order, `completedPaths` is the number of simulated replays that completed, the scenario succeeds exactly when one of them completes, and `averageSteps` is the mean (`Common.Mean`) of the replays' step counts, 0 for no replays |
| GameMaster.TotalStepsBounds | tools/run-gamemaster.ts:50-51 | when every replay has between `lo` and `hi` steps, the summed step count lies between `lo` and `hi` times the number of replays |
| GameMasterProofs.ExploreSound | tools/run-gamemaster.ts:86-119 | every enumerated path is a play: it starts at the entry, each step continues to the next one, and it stops at a step that ends a path |
| GameMasterProofs.ExploreComplete | tools/run-gamemaster.ts:86-119 | every key the enumeration visits is either finished or too deep, so no continuation within the depth bound is skipped |
| GameMasterProofs.GeneratedArePlays | tools/run-gamemaster.ts:77-123 | the generated paths are exactly the plays of at most 21 steps, each listed once |
| GameMasterProofs.GeneratedPathsReplay | tools/run-gamemaster.ts:125-218 | every generated path replays without error, and completes exactly when it ends at a terminal step |
| GameMasterProofs.SimulationSucceedsIff | tools/run-gamemaster.ts:42-55 | a scenario succeeds exactly when one of its first 50 generated paths ends at a terminal step |
| GameMasterProofs.AverageStepsInRange | tools/run-gamemaster.ts:44-51 | every replayed path has 1 to 21 steps, so the average step count of a non-empty run lies between 1 and 21 |
| GameMasterProofs.AdvanceChains | tools/run-gamemaster.ts:164-187 | one move extends the chain of traces: a new trace starts at the gauges where the previous one ended and ends at the new gauges |
| GameMasterProofs.SimulatedTracesChain | tools/run-gamemaster.ts:164-187 | the traces of a replay chain from the starting gauges (50, 0) to the final ones, each starting where the previous one ended |
| GameMasterExamples.AsWrittenMissesLinearRoute | tools/run-gamemaster.ts:104-118 | as written, a two-step linear scenario ending in a terminal step yields only the one-step path, and the simulation reports failure |
| GameMasterExamples.FollowingNextCompletesLinearRoute | tools/run-gamemaster.ts:104-118 | following `next`, the same scenario yields its full route and succeeds |
| GameMasterExamples.TerminalWalksComplete | tools/run-gamemaster.ts:77-231 | following `next`, every walk of at most 21 steps that reaches a terminal step, passing only non-terminal steps, is generated and completes |
| ScenarioValidator.DebriefErrors | tools/validate-scenarios.ts:59-70 | each debrief error is reported exactly when its condition fails: empty primary red flag, fewer than two teaching points, or a trust range that is not a pair |
| ScenarioValidator.PathChecks | tools/validate-scenarios.ts:72-92 | a thrown validation becomes one error and no path info; a returned one gives path info and an orphan warning exactly when there are orphans |
| ScenarioValidator.EntryErrors | tools/validate-scenarios.ts:94-98 | the missing-entry error is reported exactly when no step has the entry id |
| ScenarioValidator.BudgetWarnings | tools/validate-scenarios.ts:100-107 | an easy scenario with more than 6 choices in total is warned about, and nothing else is |
| ScenarioValidator.FileReportErrors | tools/validate-scenarios.ts:59-98 | each error appears exactly under its condition, and the "no terminal steps" error never appears, because a returned validation always has a debrief |
| ScenarioValidator.FileReportWarnings | tools/validate-scenarios.ts:86-107 | the orphan warning appears exactly when a returned validation lists orphans, and the budget warning exactly for easy scenarios with more than 6 choices |
| ScenarioValidator.ValidateFile | tools/validate-scenarios.ts:59-110 | a file is valid exactly when its debrief passes, path validation returns, and the entry step exists |
| ScenarioValidator.MissingEntryReportedTwice | tools/validate-scenarios.ts:73-98 | a missing entry step is reported both through the path validation failure and as its own error |
| ScenarioValidator.WellFormedDebriefPasses | tools/validate-scenarios.ts:59-70 | a debrief with a primary red flag, 2 to 4 teaching points and a two-element trust range raises no debrief error |
| ScenarioValidator.CountValid | tools/validate-scenarios.ts:135-141 | the count is the number of positions holding a valid result; so it is at most the total, equals it exactly when all pass and is zero exactly when none pass |
| ScenarioValidator.ReliabilityScore | tools/validate-scenarios.ts:147-148 | for a non-empty directory the score is the percentage of passing files; it lies in 0..100, is 100 exactly when there are files and all pass, and 0 exactly when none pass (including the empty directory) |
| ScenarioValidator.Summarize | tools/validate-scenarios.ts:138-150 | `passed` is the number of valid results, the score is `Percent(passed, total)` for a non-empty directory and 0 for an empty one, and it is 100 exactly when there are results and all are valid |
| ScenarioValidator.ValidateDirectory | tools/validate-scenarios.ts:119-151 | one result per scenario, in order, each that scenario's `ValidateFile`; `passed` counts the valid ones; the score is their percentage (0 for no scenarios) and is 100 exactly when there is at least one scenario and every one is valid |
| ConvertLegacy.JsRound | tools/convert-legacy.ts:11 | the rounded value lies within half a unit of its argument, with halves rounded up |
| ConvertLegacy.MapPressure | tools/convert-legacy.ts:9-18 | every mapped pressure lies in -15..15; a number is a fifth of it, rounded and clamped; anything that is neither number nor string maps to 0 |
| ConvertLegacy.MapPressureKeywords | tools/convert-legacy.ts:12-17 | the keywords map as low 5, med and medium 10, high 15, soothe -5, calm -10; matching is case-sensitive, so every other string, `"Low"` included, maps to 0 |
| ConvertLegacy.MapPressureUnclamped | tools/convert-legacy.ts:11 | between -77.5 and 77.5 the clamp never applies |
| ConvertLegacy.MapPressureMonotone | tools/convert-legacy.ts:11 | a larger legacy number never maps to a smaller delta |
| ConvertLegacy.MapTrustHint | tools/convert-legacy.ts:20-25 | scores of 15 or more are too trusting, -15 or less too skeptical, and between them appropriate; a non-number counts as 50 |
| ConvertLegacy.MapTrustHintMonotone | tools/convert-legacy.ts:20-25 | a higher legacy score never maps to a less trusting hint |
| ConvertLegacy.MapScamType | tools/convert-legacy.ts:27-38 | the first category, in the source's order, with a keyword in the lower-cased text wins, and phishing is the default |
| ConvertLegacy.DatingIsRomance | tools/convert-legacy.ts:29 | any mention of dating classifies the scenario as romance |
| ConvertLegacy.MapScamTypeIgnoresCase | tools/convert-legacy.ts:28 | lower-casing the inputs first does not change the scam type |
| ConvertLegacy.InferDifficulty | tools/convert-legacy.ts:40-44 | easy exactly with at most 4 messages and 6 choices, hard exactly with more than 8 messages or 12 choices |
| ConvertLegacy.InferDifficultyMonotone | tools/convert-legacy.ts:40-44 | more messages or choices never give an easier difficulty |
| ConvertLegacy.TrustHintAsWritten | tools/convert-legacy.ts:74 | a truthy trust score decides the hint; a falsy one (undefined, null, 0, "" or false) falls through to the legacy hint |
| ConvertLegacy.ZeroTrustScoreMisread | tools/convert-legacy.ts:74 | a choice with trust score 0 and no hint gets too trusting, although 0 alone maps to appropriate |
| ConvertLegacy.TrustHintOf | tools/convert-legacy.ts:74 | with a nullish fallback, a numeric trust score decides the hint on its own, 0 included |
| ConvertLegacy.TrustHintReadingsAgree | tools/convert-legacy.ts:74 | the two readings differ only for a falsy trust score that is neither undefined nor null |
| ConvertLegacy.ConvertChoice | tools/convert-legacy.ts:70-77 | the id defaults to its 1-based position, the caption is never empty, the delta is in range, the target falls back from `nextMessageId` to `nextStepId`, and the hint comes from a truthy trust score, otherwise from the legacy hint (`\|\|`, so a score of 0 falls through) |
| ConvertLegacy.ActorOf | tools/convert-legacy.ts:83-84 | ally exactly when the message is explicitly not from the scammer; otherwise system exactly for a `System`/`system` sender |
| ConvertLegacy.ConvertMessage | tools/convert-legacy.ts:81-89 | the step is branching, linear or a terminal leaf (a branching step may also keep the message's `next`, as the converter copies it regardless of choices), is terminal exactly when it is a leaf, keeps the message's choice count, and has in-range deltas |
| ConvertLegacy.AddMessage | tools/convert-legacy.ts:59-92 | one message appends the next numbered step and maps its legacy id to it, keeping the pass's invariant |
| ConvertLegacy.FirstPass | tools/convert-legacy.ts:55-92 | the first pass yields one numbered, well-shaped step per object message; its choice count equals the steps' total; the id map points only at step ids (its keys are stated by `ConvertLegacy.FirstPassIdMap`) |
| ConvertLegacy.LastWinsSnoc | tools/convert-legacy.ts:63-64 | setting the next legacy id in the map keeps it holding exactly the listed ids, each sent to the step of its last position |
| ConvertLegacy.FirstPassIdMap | tools/convert-legacy.ts:59-64 | the id map's keys are exactly the legacy ids of the object messages (`id`, else `messageId`, else `s${n}`); each is sent to the step of the last message known by it |
| ConvertLegacy.FirstPassConverts | tools/convert-legacy.ts:59-92 | the t-th step converts the t-th object message, whatever non-objects surround it |
| ConvertLegacy.Resolve | tools/convert-legacy.ts:96-101 | a known legacy id is replaced by its step id, and anything else is kept |
| ConvertLegacy.SecondPassStep | tools/convert-legacy.ts:94-104 | only `next` and the choice targets change, each resolved through the id map |
| ConvertLegacy.SecondPassKeeps | tools/convert-legacy.ts:94-104 | resolving references keeps numbering, shapes, deltas and the choice count |
| ConvertLegacy.ThirdPass | tools/convert-legacy.ts:106-121 | a leaf that nothing refers to becomes terminal, and every other step is unchanged |
| ConvertLegacy.ThirdPassKeepsShaped | tools/convert-legacy.ts:106-121 | the third pass changes nothing, because the first pass already marks every leaf terminal |
| ConvertLegacy.DefaultDebrief | tools/convert-legacy.ts:134-145 | the debrief is well formed, uses the first red flag or else the explanation as its primary flag, and has three teaching points and the range [40, 60] |
| ConvertLegacy.ConvertLegacyScenario | tools/convert-legacy.ts:46-149 | the converted scenario enters at `s1`, numbers its steps `s1`, `s2`, … with distinct ids, has only branching, linear or terminal-leaf steps (branching ones possibly also carrying a `next`) and in-range deltas, has a well-formed debrief, and its difficulty follows from the message and choice counts |
| ConvertLegacy.KnownReferencesResolve | tools/convert-legacy.ts:94-104 | when every `next` and choice target the legacy messages carry is the legacy id of some object message, the converted scenario has no dangling reference |
| Text.ParseNatToString | tools/convert-legacy.ts:62 | the decimal rendering of a step number parses back to that number |
| Text.NatToStringInjective | tools/convert-legacy.ts:62 | different step numbers render differently, so generated step ids never collide |
| Text.ContainsIffOccurs | tools/convert-legacy.ts:28-36 | the substring test holds exactly when the pattern occurs at some position |

## Left out

- File and directory I/O, JSON parsing, command-line entry points (`main`), console output and
  report formatting (`formatValidationReport`) are not modelled. Scenarios are given as values.
- The JSON-schema step of the validator is not modelled, and `unified.schema.json` is not part of this model. The validator's checks are modelled on a scenario that already has the unified shape.
- Error and feedback strings are modelled as datatype constructors carrying the values they
  interpolate. Wording is not modelled.
- Timestamps (`createTrustPressureTrace`'s `timestamp`) and `executionTime` are clock readings
  and are left out.
- TrustPressure.AnalyzeTrustPerformance: models the category only, not the message and recommendation strings.
- TrustPressure.AnalyzePressureResistance: the message is modelled by its three buckets, not its interpolated text.
- Path keys are modelled as sequences of step ids. The source joins them with `->` (in `dfs.ts`) or `-` (in `run-gamemaster.ts`), so ids that contain the separator could collide. That case is not modelled.
- GameMaster.SimulatePath: `pathId`, the joined string, is not modelled. The final `isCompleted` and `debriefReady` flags are not modelled either, because they are set but never returned.
- ConvertLegacy.ConvertChoice: choice entries are assumed to be objects. A `null` or `undefined` entry in `message.choices` makes the source throw a `TypeError` at tools/convert-legacy.ts:71, which aborts the whole conversion; the model has no such entry to represent.
- GameMaster.SimulateScenario: the `catch` branch is not modelled. Path generation and replay throw nothing the model can reach; replay errors are caught inside `simulatePath`.
- The `averageSteps` division is modelled on reals. IEEE floating point and NaN are not modelled. The legacy converter's numbers are reals without NaN or infinities.
- Dfs.DfsAllPathsToDebrief: `reachableSteps` is a set, because `Array.from` of a JavaScript `Set` keeps insertion order and the model does not track it.
- The validator's "No terminal steps found" error (`tools/validate-scenarios.ts:82-84`) and the "DFS failed from entry" error (`tools/dfs.ts:70-72`) are unreachable. They appear only in the lemmas that prove this: `ScenarioValidator.FileReportErrors` and `Dfs.EntryFrame`.
- ScenarioValidator.DebriefErrors: the teaching-points check enforces only the lower bound of 2, as the source does; the upper bound of 4 in its message is never checked.
- Directory listing order (`.sort()` on file names) is left out. `ValidateDirectory` takes the scenarios in the order given.
- ConvertLegacy: `convertLegacyBundle`, `convertIndividualFiles` and the "already unified" file detection are file-level drivers around `convertLegacyScenario` and are not modelled.
- ConvertLegacy.MessagesOf: the order of `Object.values` is taken as given. Legacy ids and `nextMessageId` are modelled as strings, so numeric legacy ids converted by `String(...)` are not modelled, and neither is an array `messages` field that also carries a `start` key.
- ConvertLegacy.MapScamType: lower-casing covers ASCII letters only, not the full Unicode case mapping of `toLowerCase`.
- ConvertLegacy.MapTrustHint: a legacy hint given as a string, such as `"too_skeptical"`, counts as 50 and so becomes too trusting, as in the source.

## Findings

| source | as written | input that shows it | evidently intended | confidence | as-written member | corrected member |
|---|---|---|---|---|---|---|
| tools/run-gamemaster.ts:104-118 | `if (step.terminal \|\| !step.choices?.length)` ends the path at every step without choices, so the `else if (step.next)` branch is dead and linear steps are never followed | steps s1 (`next: "s2"`) and s2 (terminal), entry s1: the only path is `[s1]`, it is not terminal, and `success` is false | a path ends only at terminal steps or leaves, and linear steps continue through `next` | high, not executed | GameMasterExamples.AsWrittenMissesLinearRoute | GameMasterExamples.TerminalWalksComplete |
| tools/convert-legacy.ts:74 | `mapTrustHint(choice.trustScore \|\| choice.trustHint)` passes over a trust score of 0, because 0 is falsy | a legacy choice with `trustScore: 0` and no `trustHint` gets `too_trusting` (the default 50), while `mapTrustHint(0)` is `appropriate` | `choice.trustScore ?? choice.trustHint`, so a numeric score decides the hint | medium, not executed | ConvertLegacy.ZeroTrustScoreMisread | ConvertLegacy.TrustHintOf |

The game-master model takes the enumeration rule as a `Mode` parameter. `AsWritten` models the
source line for line. `FollowingNext` is the corrected rule, and the completeness results in
`GameMasterProofs` hold for both. The converter keeps the trust-score reading as written
(`ConvertLegacy.TrustHintAsWritten`, used by `ConvertLegacy.ConvertChoice`); the corrected
reading is `ConvertLegacy.TrustHintOf`, and `ConvertLegacy.TrustHintReadingsAgree` shows the
two agree on every score except the falsy ones that are neither undefined nor null.

=== FILE: common.dfy ===
/** Small shared vocabulary: optional values, success-or-error results and
    integer clamping. */
module Common {

  /** An optional value; `None` stands for JavaScript's `undefined`. */
  datatype Option<+T> = None | Some(value: T)

  /** The outcome of an operation that may fail with an error of type `E`. */
  datatype Result<+T, +E> = Success(value: T) | Failure(error: E)

  /** The final element of a non-empty sequence. */
  function Last<T>(s: seq<T>): T
    requires |s| > 0
  {
    s[|s| - 1]
  }

  function Min(a: int, b: int): int { if a <= b then a else b }

  function Max(a: int, b: int): int { if a >= b then a else b }

  /** `Math.max(lo, Math.min(hi, x))`: the point of [lo, hi] nearest to `x`. */
  function Clamp(x: int, lo: int, hi: int): (r: int)
    requires lo <= hi
    ensures lo <= r <= hi
    ensures lo <= x <= hi ==> r == x
    ensures x < lo ==> r == lo
    ensures x > hi ==> r == hi
  {
    Max(lo, Min(hi, x))
  }

  /** `(part / whole) * 100`: the share of `part` in `whole`, in percent. */
  function Percent(part: nat, whole: nat): (r: real)
    requires part <= whole && whole > 0
    ensures 0.0 <= r <= 100.0
    ensures r == 100.0 <==> part == whole
    ensures r == 0.0 <==> part == 0
    ensures r * (whole as real) == (part as real) * 100.0
  {
    var p, t := part as real, whole as real;
    assert (p / t) * t == p;
    assert part == whole <==> p == t;
    (p / t) * 100.0
  }

  /** `total / n`: the mean of `n` values that sum to `total`, or 0 when there are none. */
  function Mean(total: nat, n: nat): (r: real)
    ensures n == 0 ==> r == 0.0
    ensures n > 0 ==> r * (n as real) == total as real
  {
    if n == 0 then 0.0 else total as real / n as real
  }

  /** When `n` values each lie between `lo` and `hi`, so that their sum lies
      between `n * lo` and `n * hi`, their mean lies between `lo` and `hi`. */
  lemma MeanBetween(total: nat, n: nat, lo: nat, hi: nat)
    requires n > 0 && n * lo <= total <= n * hi
    ensures lo as real <= Mean(total, n) <= hi as real
  {
    assert (n * lo) as real == n as real * lo as real;
    assert (n * hi) as real == n as real * hi as real;
  }
}

=== FILE: convert_legacy.dfy ===
/** The legacy-to-unified converter: the heuristic mappings of pressure,
    trust, scam type and difficulty, and the passes that turn a legacy
    scenario (a list of messages that refer to each other by legacy ids)
    into a unified scenario with step ids `s1`, `s2`, ... and a default
    debrief. */
module ConvertLegacy {
  import opened Common
  import opened Text
  import opened UnifiedTypes
  import Dfs

  // ---------------------------------------------------------------------
  // Loosely typed legacy values

  /** A legacy field that may hold a number, a string or nothing. Objects
      and arrays in such a field are `Other`. */
  datatype Js = Undefined | Null | Bool(b: bool) | Num(n: real) | Str(s: string) | Other

  /** JavaScript truthiness (NaN is not modelled). */
  predicate Truthy(x: Js) {
    match x
    case Undefined => false
    case Null => false
    case Bool(b) => b
    case Num(n) => n != 0.0
    case Str(s) => s != ""
    case Other => true
  }

  /** `a || b`. */
  function Or(a: Js, b: Js): (r: Js)
    ensures Truthy(a) ==> r == a
    ensures !Truthy(a) ==> r == b
  {
    if Truthy(a) then a else b
  }

  /** `a || b` on string fields, where an absent field is the empty string. */
  function OrElse(a: string, b: string): (r: string)
    ensures a != "" ==> r == a
    ensures a == "" ==> r == b
  {
    if a != "" then a else b
  }

  /** `Math.round`: the nearest integer, halves rounded up. */
  function JsRound(x: real): (r: int)
    ensures x - 0.5 < r as real <= x + 0.5
  {
    (x + 0.5).Floor
  }

  // ---------------------------------------------------------------------
  // Heuristic mappings

  const PressureScale: real := 5.0

  /** `mapPressure`: a number is scaled down by 5, rounded and clamped to
      the authored range; a few keywords have fixed values; anything else
      is 0. */
  function MapPressure(x: Js): (r: int)
    ensures DeltaInRange(r)
    ensures x.Num? ==> r == Clamp(JsRound(x.n / PressureScale), -MaxPressureDelta, MaxPressureDelta)
    ensures !x.Num? && !x.Str? ==> r == 0
  {
    match x
    case Num(n) => Clamp(JsRound(n / PressureScale), -MaxPressureDelta, MaxPressureDelta)
    case Str(s) =>
      if s == "low" then 5
      else if s == "med" || s == "medium" then 10
      else if s == "high" then 15
      else if s == "soothe" then -5
      else if s == "calm" then -10
      else 0
    case _ => 0
  }

  /** The keyword table: low 5, med or medium 10, high 15, soothe -5,
      calm -10; the comparison is case-sensitive, so any other string,
      `"Low"` included, maps to 0. */
  lemma MapPressureKeywords(s: string)
    ensures MapPressure(Str("low")) == 5
    ensures MapPressure(Str("med")) == 10 && MapPressure(Str("medium")) == 10
    ensures MapPressure(Str("high")) == 15
    ensures MapPressure(Str("soothe")) == -5
    ensures MapPressure(Str("calm")) == -10
    ensures s !in ["low", "med", "medium", "high", "soothe", "calm"] ==> MapPressure(Str(s)) == 0
    ensures MapPressure(Str("Low")) == 0
  {
  }

  /** Between -77.5 and 77.5 the numeric mapping is plain rounding of a fifth. */
  lemma MapPressureUnclamped(n: real)
    requires -77.5 <= n < 77.5
    ensures MapPressure(Num(n)) == JsRound(n / PressureScale)
  {
  }

  /** A larger legacy number never maps to a smaller delta. */
  lemma MapPressureMonotone(m: real, n: real)
    requires m <= n
    ensures MapPressure(Num(m)) <= MapPressure(Num(n))
  {
    assert m / PressureScale <= n / PressureScale;
    assert (m / PressureScale + 0.5).Floor <= (n / PressureScale + 0.5).Floor;
  }

  /** The legacy score that means "neutral" when no number is given. */
  const NeutralTrustScore: real := 50.0
  const TrustHintThreshold: real := 15.0

  /** `mapTrustHint`: a score of 15 or more is too trusting, -15 or less too
      skeptical, anything between appropriate; a non-number counts as 50. */
  function MapTrustHint(x: Js): (r: TrustHint)
    ensures var n := if x.Num? then x.n else NeutralTrustScore;
      && (r == TooTrusting <==> n >= TrustHintThreshold)
      && (r == TooSkeptical <==> n <= -TrustHintThreshold)
      && (r == Appropriate <==> -TrustHintThreshold < n < TrustHintThreshold)
  {
    var n := if x.Num? then x.n else NeutralTrustScore;
    if n >= TrustHintThreshold then TooTrusting
    else if n <= -TrustHintThreshold then TooSkeptical
    else Appropriate
  }

  function HintRank(h: TrustHint): nat {
    match h
    case TooSkeptical => 0
    case Appropriate => 1
    case TooTrusting => 2
  }

  /** A higher legacy score never maps to a less trusting hint. */
  lemma MapTrustHintMonotone(m: real, n: real)
    requires m <= n
    ensures HintRank(MapTrustHint(Num(m))) <= HintRank(MapTrustHint(Num(n)))
  {
  }

  /** The scam categories in the order they are tried, each with its keywords. */
  const ScamKeywords: seq<(string, seq<string>)> := [
    ("romance", ["romance", "dating"]),
    ("tech_support", ["tech", "support", "microsoft"]),
    ("prize", ["prize", "lottery", "winner"]),
    ("phishing", ["phish", "email", "link"]),
    ("job", ["job", "employment"]),
    ("crypto", ["crypto", "bitcoin"]),
    ("marketplace", ["marketplace", "buy", "sell"]),
    ("authority", ["ceo", "authority", "official"])
  ]

  const DefaultScamType := "phishing"

  /** Some keyword of `keys` occurs in `text`. */
  predicate MentionsAny(text: string, keys: seq<string>) {
    exists j :: 0 <= j < |keys| && Contains(text, keys[j])
  }

  /** The index of the first category from `i` on whose keywords occur in `text`,
      or the number of categories when none does. */
  function FirstCategory(text: string, i: nat): (r: nat)
    requires i <= |ScamKeywords|
    ensures i <= r <= |ScamKeywords|
    ensures r < |ScamKeywords| ==> MentionsAny(text, ScamKeywords[r].1)
    ensures forall k :: i <= k < r ==> !MentionsAny(text, ScamKeywords[k].1)
    decreases |ScamKeywords| - i
  {
    if i == |ScamKeywords| then i
    else if MentionsAny(text, ScamKeywords[i].1) then i
    else FirstCategory(text, i + 1)
  }

  /** The text the scam type is read from: description and context, lower-cased. */
  function ScamText(description: string, context: string): string {
    LowerAscii(description + " " + context)
  }

  /** The category read from an already lower-cased text. */
  function ScamTypeOf(text: string): string {
    var k := FirstCategory(text, 0);
    if k < |ScamKeywords| then ScamKeywords[k].0 else DefaultScamType
  }

  /** `mapScamType`: the first category with a keyword in the lower-cased
      description and context, or phishing. */
  function MapScamType(description: string, context: string): (r: string)
    ensures var text := ScamText(description, context);
      forall k :: 0 <= k < |ScamKeywords| && MentionsAny(text, ScamKeywords[k].1)
                  && (forall q :: 0 <= q < k ==> !MentionsAny(text, ScamKeywords[q].1))
                  ==> r == ScamKeywords[k].0
    ensures var text := ScamText(description, context);
      (forall k :: 0 <= k < |ScamKeywords| ==> !MentionsAny(text, ScamKeywords[k].1)) ==> r == DefaultScamType
  {
    ScamTypeOf(ScamText(description, context))
  }

  /** Any mention of dating classifies the scenario as romance, whatever
      else the text says. */
  lemma DatingIsRomance(description: string, context: string)
    requires Contains(ScamText(description, context), "dating")
    ensures MapScamType(description, context) == "romance"
  {
    assert ScamKeywords[0].1[1] == "dating";
    assert MentionsAny(ScamText(description, context), ScamKeywords[0].1);
  }

  lemma LowerCharIdempotent(c: char)
    ensures LowerChar(LowerChar(c)) == LowerChar(c)
  {
  }

  /** The characters of `x + " " + y`. */
  lemma JoinAt(x: string, y: string, i: int)
    requires 0 <= i < |x| + 1 + |y|
    ensures (x + " " + y)[i] == if i < |x| then x[i] else if i == |x| then ' ' else y[i - |x| - 1]
  {
  }

  /** Lower-casing the parts first gives the same scam text. */
  lemma ScamTextIgnoresCase(description: string, context: string)
    ensures ScamText(LowerAscii(description), LowerAscii(context)) == ScamText(description, context)
  {
    var ld, lc := LowerAscii(description), LowerAscii(context);
    var l := ScamText(ld, lc);
    var r := ScamText(description, context);
    assert |l| == |r|;
    forall i | 0 <= i < |l|
      ensures l[i] == r[i]
    {
      JoinAt(ld, lc, i);
      JoinAt(description, context, i);
      if i < |description| {
        LowerCharIdempotent(description[i]);
      } else if i > |description| {
        LowerCharIdempotent(context[i - |description| - 1]);
      }
    }
  }

  /** The scam type ignores the case of ASCII letters. */
  lemma MapScamTypeIgnoresCase(description: string, context: string)
    ensures MapScamType(LowerAscii(description), LowerAscii(context)) == MapScamType(description, context)
  {
    ScamTextIgnoresCase(description, context);
  }

  const EasyMessages := 4
  const EasyChoices := 6
  const MediumMessages := 8
  const MediumChoices := 12

  /** `inferDifficulty` from the number of messages and of choices. */
  function InferDifficulty(messageCount: nat, choiceCount: nat): (r: Difficulty)
    ensures r == Easy <==> messageCount <= EasyMessages && choiceCount <= EasyChoices
    ensures r == Hard <==> messageCount > MediumMessages || choiceCount > MediumChoices
  {
    if messageCount <= EasyMessages && choiceCount <= EasyChoices then Easy
    else if messageCount <= MediumMessages && choiceCount <= MediumChoices then Medium
    else Hard
  }

  function DifficultyRank(d: Difficulty): nat {
    match d
    case Easy => 0
    case Medium => 1
    case Hard => 2
  }

  /** More messages or more choices never make the inferred difficulty easier. */
  lemma InferDifficultyMonotone(m: nat, c: nat, m': nat, c': nat)
    requires m <= m' && c <= c'
    ensures DifficultyRank(InferDifficulty(m, c)) <= DifficultyRank(InferDifficulty(m', c'))
  {
  }

  // ---------------------------------------------------------------------
  // Legacy scenarios

  /** A legacy choice. String fields hold "" when absent. */
  datatype LegacyChoice = LegacyChoice(
    id: string,
    text: string,
    labelText: string,
    suspicionIncrease: Js,
    resistanceIncrease: Js,
    pressureDelta: Js,
    trustScore: Js,
    trustHint: Js,
    nextMessageId: string,
    nextStepId: string,
    flags: Option<seq<string>>)

  /** A legacy message. `choices` is `None` when the field is not an array;
      `isFromScammer` is `None` unless it holds a boolean. */
  datatype LegacyMessage = LegacyMessage(
    id: string,
    messageId: string,
    choices: Option<seq<LegacyChoice>>,
    isFromScammer: Option<bool>,
    from: string,
    text: string,
    content: string,
    nextMessageId: string)

  /** An element of the messages collection; anything but an object is skipped. */
  datatype LegacyEntry = Message(m: LegacyMessage) | NotAnObject

  /** The `messages` field: an object keyed by message id (listed in its
      values' order, with whether its `start` entry is truthy), an array, or
      anything else. */
  datatype LegacyMessages =
    | Keyed(values: seq<LegacyEntry>, hasStart: bool)
    | Listed(entries: seq<LegacyEntry>)
    | NoMessages

  datatype LegacyScenario = LegacyScenario(
    id: string,
    title: string,
    description: string,
    context: string,
    messages: LegacyMessages,
    redFlags: Option<seq<string>>,
    explanation: string)

  /** The messages the converter iterates over. */
  function MessagesOf(l: LegacyScenario): seq<LegacyEntry> {
    match l.messages
    case Keyed(values, hasStart) => if hasStart then values else []
    case Listed(entries) => entries
    case NoMessages => []
  }

  /** The step id of the `n`-th converted message, `s${n}`. */
  function StepName(n: nat): StepId {
    "s" + NatToString(n)
  }

  lemma StepNameInjective(m: nat, n: nat)
    requires m != n
    ensures StepName(m) != StepName(n)
  {
    NatToStringInjective(m, n);
    assert StepName(m)[1..] == NatToString(m);
    assert StepName(n)[1..] == NatToString(n);
  }

  /** `a ?? b`: only undefined and null fall through. */
  function Nullish(a: Js, b: Js): (r: Js)
    ensures !a.Undefined? && !a.Null? ==> r == a
    ensures a.Undefined? || a.Null? ==> r == b
  {
    if a.Undefined? || a.Null? then b else a
  }

  /** The choice's hint as the converter computes it, `trustScore || trustHint`:
      a trust score of 0 is falsy and is passed over. */
  function TrustHintAsWritten(c: LegacyChoice): (r: TrustHint)
    ensures Truthy(c.trustScore) ==> r == MapTrustHint(c.trustScore)
    ensures !Truthy(c.trustScore) ==> r == MapTrustHint(c.trustHint)
  {
    MapTrustHint(Or(c.trustScore, c.trustHint))
  }

  /** A neutral legacy trust score of 0 with no legacy hint becomes too
      trusting, although the score on its own maps to appropriate. */
  lemma ZeroTrustScoreMisread()
    ensures var c := LegacyChoice("", "", "", Undefined, Undefined, Undefined, Num(0.0), Undefined, "", "", None);
      && TrustHintAsWritten(c) == TooTrusting
      && MapTrustHint(c.trustScore) == Appropriate
  {
  }

  /** The choice's hint with a nullish fallback: a numeric trust score,
      0 included, decides the hint on its own. */
  function TrustHintOf(c: LegacyChoice): (r: TrustHint)
    ensures c.trustScore.Num? ==> r == MapTrustHint(c.trustScore)
    ensures c.trustScore.Undefined? || c.trustScore.Null? ==> r == MapTrustHint(c.trustHint)
  {
    MapTrustHint(Nullish(c.trustScore, c.trustHint))
  }

  /** The two readings differ only when the trust score is falsy without being
      undefined or null. */
  lemma TrustHintReadingsAgree(c: LegacyChoice)
    requires Truthy(c.trustScore) || c.trustScore.Undefined? || c.trustScore.Null?
    ensures TrustHintAsWritten(c) == TrustHintOf(c)
  {
  }

  /** The choice at position `j` of its message, before references are resolved. */
  function ConvertChoice(c: LegacyChoice, j: nat): (r: Choice)
    ensures r.id != "" && r.caption != ""
    ensures r.id == OrElse(c.id, "c" + NatToString(j + 1))
    ensures DeltaInRange(r.pressureDelta)
    ensures Truthy(c.trustScore) ==> r.trustHint == MapTrustHint(c.trustScore)
    ensures !Truthy(c.trustScore) ==> r.trustHint == MapTrustHint(c.trustHint)
    ensures r.nextStepId == OrElse(c.nextMessageId, c.nextStepId)
  {
    Choice(
      OrElse(c.id, "c" + NatToString(j + 1)),
      OrElse(c.text, OrElse(c.labelText, "Continue")),
      MapPressure(Or(Or(c.suspicionIncrease, c.resistanceIncrease), c.pressureDelta)),
      TrustHintAsWritten(c),
      OrElse(c.nextMessageId, c.nextStepId),
      if c.flags.Some? then c.flags.value else [])
  }

  function ConvertChoices(cs: seq<LegacyChoice>): (r: seq<Choice>)
    ensures |r| == |cs|
    ensures forall j :: 0 <= j < |cs| ==> r[j] == ConvertChoice(cs[j], j)
  {
    seq(|cs|, j requires 0 <= j < |cs| => ConvertChoice(cs[j], j))
  }

  function ActorOf(m: LegacyMessage): (r: Actor)
    ensures r == Ally <==> m.isFromScammer == Some(false)
    ensures r == System <==> m.isFromScammer != Some(false) && (m.from == "System" || m.from == "system")
  {
    if m.isFromScammer == Some(false) then Ally
    else if m.from == "System" || m.from == "system" then System
    else Scammer
  }

  /** The step for message `m` under id `stepId`: choices when it has any,
      `next` when it names a following message, and terminal when neither. */
  function ConvertMessage(m: LegacyMessage, stepId: StepId): (r: Step)
    ensures r.id == stepId
    ensures WellShaped(r) && (r.terminal <==> IsLeaf(r))
    ensures |r.choices| == (if m.choices.Some? then |m.choices.value| else 0)
    ensures forall j :: 0 <= j < |r.choices| ==> DeltaInRange(r.choices[j].pressureDelta)
  {
    var choices := if m.choices.Some? then ConvertChoices(m.choices.value) else [];
    Step(
      stepId,
      ActorOf(m),
      OrElse(m.text, m.content),
      choices,
      if m.nextMessageId != "" then Some(m.nextMessageId) else None,
      |choices| == 0 && m.nextMessageId == "")
  }

  /** The legacy id a message is known by. */
  function LegacyIdOf(m: LegacyMessage, stepId: StepId): string {
    OrElse(m.id, OrElse(m.messageId, stepId))
  }

  /** What the first pass accumulates. */
  datatype FirstPassState = FirstPassState(steps: seq<Step>, idMap: map<string, StepId>, totalChoices: nat)

  /** The steps are `s1`, `s2`, ... in order. */
  predicate Numbered(steps: seq<Step>) {
    forall k :: 0 <= k < |steps| ==> steps[k].id == StepName(k + 1)
  }

  /** Every step has one of the documented shapes and is terminal exactly when it is a leaf. */
  predicate Shaped(steps: seq<Step>) {
    forall k :: 0 <= k < |steps| ==> WellShaped(steps[k]) && (steps[k].terminal <==> IsLeaf(steps[k]))
  }

  /** What the first pass keeps true of its state: numbered, shaped steps with
      authored deltas, a choice count that matches, and an id map into the
      steps' ids. */
  predicate FirstPassInvariant(st: FirstPassState) {
    && Numbered(st.steps)
    && Shaped(st.steps)
    && Dfs.DeltasInRange(st.steps)
    && st.totalChoices == TotalChoices(st.steps)
    && (forall x :: x in st.idMap ==> st.idMap[x] in StepIdList(st.steps))
  }

  /** One object message of the first pass. */
  function AddMessage(prev: FirstPassState, m: LegacyMessage): (r: FirstPassState)
    requires FirstPassInvariant(prev)
    ensures FirstPassInvariant(r)
    ensures r.steps == prev.steps + [ConvertMessage(m, StepName(|prev.steps| + 1))]
    ensures r.idMap == prev.idMap[LegacyIdOf(m, StepName(|prev.steps| + 1)) := StepName(|prev.steps| + 1)]
  {
    var stepId := StepName(|prev.steps| + 1);
    var step := ConvertMessage(m, stepId);
    var r := FirstPassState(prev.steps + [step], prev.idMap[LegacyIdOf(m, stepId) := stepId], prev.totalChoices + |step.choices|);
    AppendKeepsInvariant(prev, step, LegacyIdOf(m, stepId), r);
    r
  }

  /** Appending a numbered, well-shaped step with in-range deltas, and mapping
      one more legacy id to it, keeps the first pass's invariant. */
  lemma AppendKeepsInvariant(prev: FirstPassState, step: Step, key: string, r: FirstPassState)
    requires FirstPassInvariant(prev)
    requires step.id == StepName(|prev.steps| + 1)
    requires WellShaped(step) && (step.terminal <==> IsLeaf(step))
    requires forall j :: 0 <= j < |step.choices| ==> DeltaInRange(step.choices[j].pressureDelta)
    requires r == FirstPassState(prev.steps + [step], prev.idMap[key := step.id], prev.totalChoices + |step.choices|)
    ensures FirstPassInvariant(r)
  {
    TotalChoicesAppend(prev.steps, step);
    DeltasAppend(prev.steps, step);
    NumberedAppend(prev.steps, step);
    ShapedAppend(prev.steps, step);
    IdMapAppend(prev.idMap, prev.steps, key, step);
  }

  lemma NumberedAppend(steps: seq<Step>, step: Step)
    requires Numbered(steps) && step.id == StepName(|steps| + 1)
    ensures Numbered(steps + [step])
  {
    var r := steps + [step];
    forall k | 0 <= k < |r|
      ensures r[k].id == StepName(k + 1)
    {
      if k < |steps| {
        assert r[k] == steps[k];
      }
    }
  }

  lemma ShapedAppend(steps: seq<Step>, step: Step)
    requires Shaped(steps) && WellShaped(step) && (step.terminal <==> IsLeaf(step))
    ensures Shaped(steps + [step])
  {
    var r := steps + [step];
    forall k | 0 <= k < |r|
      ensures WellShaped(r[k]) && (r[k].terminal <==> IsLeaf(r[k]))
    {
      if k < |steps| {
        assert r[k] == steps[k];
      }
    }
  }

  lemma IdMapAppend(idMap: map<string, StepId>, steps: seq<Step>, key: string, step: Step)
    requires forall x :: x in idMap ==> idMap[x] in StepIdList(steps)
    ensures var m := idMap[key := step.id];
      forall x :: x in m ==> m[x] in StepIdList(steps + [step])
  {
    var ids := StepIdList(steps + [step]);
    assert ids == StepIdList(steps) + [step.id];
  }

  /** The first pass over the messages, defined on prefixes: each object
      message becomes the next step `s${n}`, and the id map sends its legacy
      id to that step, a later message with the same legacy id replacing an
      earlier one; anything else is skipped. */
  function FirstPass(msgs: seq<LegacyEntry>): (r: FirstPassState)
    ensures FirstPassInvariant(r)
    ensures |r.steps| == |MessageIndices(msgs)|
    decreases |msgs|
  {
    if msgs == [] then FirstPassState([], map[], 0)
    else
      var prev := FirstPass(msgs[..|msgs| - 1]);
      match Last(msgs)
      case NotAnObject => prev
      case Message(m) => AddMessage(prev, m)
  }

  /** The positions of the object messages, in order. */
  function MessageIndices(msgs: seq<LegacyEntry>): (r: seq<nat>)
    ensures forall t :: 0 <= t < |r| ==> r[t] < |msgs| && msgs[r[t]].Message?
    decreases |msgs|
  {
    if msgs == [] then []
    else
      var prev := MessageIndices(msgs[..|msgs| - 1]);
      if Last(msgs).Message? then prev + [|msgs| - 1] else prev
  }

  /** The legacy ids of the object messages, in order: the `t`-th is the id the
      `t`-th object message is known by, `s${t+1}` when it has none. */
  function LegacyIds(msgs: seq<LegacyEntry>): seq<string> {
    var ix := MessageIndices(msgs);
    seq(|ix|, t requires 0 <= t < |ix| => LegacyIdOf(msgs[ix[t]].m, StepName(t + 1)))
  }

  lemma LegacyIdsSnoc(msgs: seq<LegacyEntry>)
    requires msgs != []
    ensures var prev := LegacyIds(msgs[..|msgs| - 1]);
      LegacyIds(msgs) == if Last(msgs).Message? then prev + [LegacyIdOf(Last(msgs).m, StepName(|prev| + 1))] else prev
  {
    var init := msgs[..|msgs| - 1];
    var ix, ixi := MessageIndices(msgs), MessageIndices(init);
    assert forall t :: 0 <= t < |ixi| ==> ix[t] == ixi[t] && msgs[ix[t]] == init[ixi[t]];
  }

  /** `m` holds exactly the ids listed in `ids`, and sends each to the step
      named after its last position, as a `Map` filled in list order does. */
  predicate LastWins(m: map<string, StepId>, ids: seq<string>) {
    && (forall x :: x in m ==> x in ids)
    && (forall t :: 0 <= t < |ids| ==> ids[t] in m)
    && (forall t :: 0 <= t < |ids| && (forall u :: t < u < |ids| ==> ids[u] != ids[t]) ==>
          ids[t] in m && m[ids[t]] == StepName(t + 1))
  }

  /** Setting the next id keeps `LastWins`. */
  lemma LastWinsSnoc(m: map<string, StepId>, ids: seq<string>, key: string)
    requires LastWins(m, ids)
    ensures LastWins(m[key := StepName(|ids| + 1)], ids + [key])
  {
    var m', ids' := m[key := StepName(|ids| + 1)], ids + [key];
    assert forall x :: x in ids' <==> x in ids || x == key;
    LastWinsSnocValues(m, ids, key);
  }

  lemma LastWinsSnocValues(m: map<string, StepId>, ids: seq<string>, key: string)
    requires LastWins(m, ids)
    ensures var m', ids' := m[key := StepName(|ids| + 1)], ids + [key];
      forall t :: 0 <= t < |ids'| && (forall u :: t < u < |ids'| ==> ids'[u] != ids'[t]) ==>
        ids'[t] in m' && m'[ids'[t]] == StepName(t + 1)
  {
    var m', ids' := m[key := StepName(|ids| + 1)], ids + [key];
    var n := |ids|;
    forall t | 0 <= t < |ids'| && (forall u :: t < u < |ids'| ==> ids'[u] != ids'[t])
      ensures ids'[t] in m' && m'[ids'[t]] == StepName(t + 1)
    {
      if t < n {
        assert ids'[t] == ids[t] && ids'[n] == key;
        assert forall u :: t < u < n ==> ids'[u] == ids[u];
      }
    }
  }

  /** The first pass's id map holds exactly the legacy ids of the object
      messages, and sends each to the step of the last message known by it. */
  lemma {:induction false} FirstPassIdMap(msgs: seq<LegacyEntry>)
    ensures LastWins(FirstPass(msgs).idMap, LegacyIds(msgs))
    decreases |msgs|
  {
    if msgs != [] {
      var init := msgs[..|msgs| - 1];
      FirstPassIdMap(init);
      LegacyIdsSnoc(msgs);
      if Last(msgs).Message? {
        var prev, pids := FirstPass(init), LegacyIds(init);
        var key := LegacyIdOf(Last(msgs).m, StepName(|pids| + 1));
        assert FirstPass(msgs).idMap == prev.idMap[key := StepName(|pids| + 1)];
        LastWinsSnoc(prev.idMap, pids, key);
      }
    }
  }

  /** The `t`-th step of the first pass converts the `t`-th object message,
      whichever non-objects surround it. */
  lemma {:induction false} FirstPassConverts(msgs: seq<LegacyEntry>, t: nat)
    requires t < |MessageIndices(msgs)|
    ensures var r := FirstPass(msgs); var ix := MessageIndices(msgs);
      t < |r.steps| && r.steps[t] == ConvertMessage(msgs[ix[t]].m, StepName(t + 1))
    decreases |msgs|
  {
    var init := msgs[..|msgs| - 1];
    if Last(msgs).Message? && t == |MessageIndices(init)| {
    } else {
      FirstPassConverts(init, t);
      assert init[MessageIndices(init)[t]] == msgs[MessageIndices(init)[t]];
    }
  }

  lemma DeltasAppend(steps: seq<Step>, s: Step)
    requires Dfs.DeltasInRange(steps)
    requires forall j :: 0 <= j < |s.choices| ==> DeltaInRange(s.choices[j].pressureDelta)
    ensures Dfs.DeltasInRange(steps + [s])
  {
  }

  lemma {:induction false} TotalChoicesAppend(steps: seq<Step>, s: Step)
    ensures TotalChoices(steps + [s]) == TotalChoices(steps) + |s.choices|
    decreases |steps|
  {
    if steps == [] {
      assert [s][1..] == [];
    } else {
      assert (steps + [s])[1..] == steps[1..] + [s];
      TotalChoicesAppend(steps[1..], s);
    }
  }

  /** `stepIdMap.get(x) || x`. */
  function Resolve(idMap: map<string, StepId>, x: string): (r: string)
    ensures x in idMap && idMap[x] != "" ==> r == idMap[x]
    ensures !(x in idMap && idMap[x] != "") ==> r == x
  {
    if x in idMap && idMap[x] != "" then idMap[x] else x
  }

  function ResolveChoice(idMap: map<string, StepId>, c: Choice): Choice {
    c.(nextStepId := Resolve(idMap, c.nextStepId))
  }

  /** The second pass on one step: `next` and every choice target are
      rewritten through the id map; nothing else changes. */
  function SecondPassStep(idMap: map<string, StepId>, s: Step): (r: Step)
    ensures r.id == s.id && r.terminal == s.terminal && |r.choices| == |s.choices|
    ensures forall j :: 0 <= j < |s.choices| ==>
              r.choices[j] == s.choices[j].(nextStepId := Resolve(idMap, s.choices[j].nextStepId))
    ensures HasNext(s) ==> r.next == Some(Resolve(idMap, s.next.value))
    ensures !HasNext(s) ==> r.next == s.next
    ensures HasChoices(r) == HasChoices(s) && HasNext(r) == HasNext(s)
  {
    s.(next := if HasNext(s) then Some(Resolve(idMap, s.next.value)) else s.next,
       choices := seq(|s.choices|, j requires 0 <= j < |s.choices| => ResolveChoice(idMap, s.choices[j])))
  }

  function SecondPass(idMap: map<string, StepId>, steps: seq<Step>): (r: seq<Step>)
    ensures |r| == |steps|
    ensures forall k :: 0 <= k < |steps| ==> r[k] == SecondPassStep(idMap, steps[k])
  {
    seq(|steps|, k requires 0 <= k < |steps| => SecondPassStep(idMap, steps[k]))
  }

  /** The second pass keeps ids, shapes, deltas and choice counts. */
  lemma SecondPassKeeps(idMap: map<string, StepId>, steps: seq<Step>)
    requires Numbered(steps) && Shaped(steps) && Dfs.DeltasInRange(steps)
    ensures Numbered(SecondPass(idMap, steps))
    ensures Shaped(SecondPass(idMap, steps))
    ensures Dfs.DeltasInRange(SecondPass(idMap, steps))
    ensures TotalChoices(SecondPass(idMap, steps)) == TotalChoices(steps)
  {
    var r := SecondPass(idMap, steps);
    forall k | 0 <= k < |r|
      ensures WellShaped(r[k]) && (r[k].terminal <==> IsLeaf(r[k]))
    {
      assert r[k] == SecondPassStep(idMap, steps[k]);
    }
    forall i, j | 0 <= i < |r| && 0 <= j < |r[i].choices|
      ensures DeltaInRange(r[i].choices[j].pressureDelta)
    {
      assert r[i].choices[j].pressureDelta == steps[i].choices[j].pressureDelta;
    }
    TotalChoicesSecondPass(idMap, steps);
  }

  lemma {:induction false} TotalChoicesSecondPass(idMap: map<string, StepId>, steps: seq<Step>)
    ensures TotalChoices(SecondPass(idMap, steps)) == TotalChoices(steps)
    decreases |steps|
  {
    if steps != [] {
      assert SecondPass(idMap, steps)[1..] == SecondPass(idMap, steps[1..]);
      TotalChoicesSecondPass(idMap, steps[1..]);
    }
  }

  /** Every id some step refers to through `next` or a choice. */
  function Referenced(steps: seq<Step>): set<StepId> {
    (set k, j | 0 <= k < |steps| && 0 <= j < |steps[k].choices| :: steps[k].choices[j].nextStepId)
    + (set k | 0 <= k < |steps| && HasNext(steps[k]) :: steps[k].next.value)
  }

  /** The third pass: a step without choices or `next` that nothing refers to is terminal. */
  function ThirdPass(steps: seq<Step>): (r: seq<Step>)
    ensures |r| == |steps|
    ensures forall k :: 0 <= k < |steps| ==>
              r[k] == (if IsLeaf(steps[k]) && steps[k].id !in Referenced(steps)
                       then steps[k].(terminal := true) else steps[k])
  {
    var refs := Referenced(steps);
    seq(|steps|, k requires 0 <= k < |steps| =>
      if IsLeaf(steps[k]) && steps[k].id !in refs then steps[k].(terminal := true) else steps[k])
  }

  /** The third pass changes nothing once every leaf is terminal, which the
      first pass already guarantees. */
  lemma ThirdPassKeepsShaped(steps: seq<Step>)
    requires Shaped(steps)
    ensures ThirdPass(steps) == steps
  {
    var r := ThirdPass(steps);
    forall k | 0 <= k < |steps|
      ensures r[k] == steps[k]
    {
    }
  }

  // ---------------------------------------------------------------------
  // The whole conversion

  const DefaultRedFlag := "Urgency tactics and requests for personal information"
  const DefaultTeachingPoint := "This scenario demonstrates common manipulation tactics"
  const VerifyPoint := "Always verify requests through official channels"
  const DeadlinePoint := "Be suspicious of urgent deadlines and pressure tactics"
  const TargetTrustLow := 40
  const TargetTrustHigh := 60

  /** The debrief of a converted scenario. */
  function DefaultDebrief(l: LegacyScenario): (d: Debrief)
    ensures WellFormedDebrief(d)
    ensures l.redFlags.Some? && |l.redFlags.value| > 0 && l.redFlags.value[0] != "" ==>
              d.redFlagPrimary == l.redFlags.value[0]
    ensures (l.redFlags.None? || |l.redFlags.value| == 0 || l.redFlags.value[0] == "") && l.explanation != "" ==>
              d.redFlagPrimary == l.explanation
    ensures d.teachingPoints == Some([OrElse(l.explanation, DefaultTeachingPoint), VerifyPoint, DeadlinePoint])
    ensures d.targetTrustRange == Some([TargetTrustLow, TargetTrustHigh])
  {
    var first := if l.redFlags.Some? && |l.redFlags.value| > 0 then l.redFlags.value[0] else "";
    Debrief(
      OrElse(first, OrElse(l.explanation, DefaultRedFlag)),
      if l.redFlags.Some? && |l.redFlags.value| > 0 then l.redFlags.value[1..] else [],
      Some([OrElse(l.explanation, DefaultTeachingPoint), VerifyPoint, DeadlinePoint]),
      Some([TargetTrustLow, TargetTrustHigh]))
  }

  const DefaultScenarioId := "converted_scenario"
  const DefaultTitle := "Converted Scenario"
  const DefaultLocale := "en-US"

  /** The steps of the converted scenario, after all three passes. */
  function ConvertSteps(msgs: seq<LegacyEntry>): (steps: seq<Step>)
    ensures var first := FirstPass(msgs);
      && steps == SecondPass(first.idMap, first.steps)
      && Numbered(steps) && Shaped(steps) && Dfs.DeltasInRange(steps)
      && TotalChoices(steps) == first.totalChoices
  {
    var first := FirstPass(msgs);
    var second := SecondPass(first.idMap, first.steps);
    SecondPassKeeps(first.idMap, first.steps);
    ThirdPassKeepsShaped(second);
    ThirdPass(second)
  }

  /** `convertLegacyScenario`. */
  function ConvertLegacyScenario(l: LegacyScenario): (sc: Scenario)
    ensures sc.entryStepId == StepName(1)
    ensures UniqueIds(sc.steps)
    ensures |sc.steps| == |MessageIndices(MessagesOf(l))|
    ensures forall k :: 0 <= k < |sc.steps| ==> sc.steps[k].id == StepName(k + 1) && WellShaped(sc.steps[k])
    ensures Dfs.ValidatePressureDeltas(sc).None?
    ensures WellFormedDebrief(sc.debrief)
    ensures sc.difficulty == InferDifficulty(|MessagesOf(l)|, TotalChoices(sc.steps))
  {
    var msgs := MessagesOf(l);
    var steps := ConvertSteps(msgs);
    NumberedUnique(steps);
    Scenario(
      OrElse(l.id, DefaultScenarioId),
      OrElse(l.title, DefaultTitle),
      InferDifficulty(|msgs|, FirstPass(msgs).totalChoices),
      Meta(MapScamType(l.description, l.context), DefaultLocale, if l.redFlags.Some? then l.redFlags.value else []),
      steps,
      if |steps| > 0 && steps[0].id != "" then steps[0].id else StepName(1),
      DefaultDebrief(l))
  }

  /** Numbered steps have distinct ids. */
  lemma NumberedUnique(steps: seq<Step>)
    requires Numbered(steps)
    ensures UniqueIds(steps)
  {
    forall i, j | 0 <= i < j < |steps|
      ensures steps[i].id != steps[j].id
    {
      StepNameInjective(i + 1, j + 1);
    }
  }

  /** Every `next` and choice target of the first pass is some message's legacy id. */
  predicate KnownReferences(st: FirstPassState) {
    && (forall k, j :: 0 <= k < |st.steps| && 0 <= j < |st.steps[k].choices| ==>
          st.steps[k].choices[j].nextStepId in st.idMap)
    && (forall k :: 0 <= k < |st.steps| && HasNext(st.steps[k]) ==> st.steps[k].next.value in st.idMap)
  }

  /** The second pass sends every reference the id map knows to a step id. */
  lemma SecondPassResolvesKnown(st: FirstPassState)
    requires FirstPassInvariant(st) && KnownReferences(st)
    ensures Dfs.TargetsResolve(SecondPass(st.idMap, st.steps))
  {
    var idMap, steps := st.idMap, st.steps;
    var r := SecondPass(idMap, steps);
    forall x | x in idMap
      ensures Resolve(idMap, x) in StepIds(r)
    {
      var v := idMap[x];
      var ids := StepIdList(steps);
      var k :| 0 <= k < |ids| && ids[k] == v;
      assert r[k].id == v && r[k] in r;
      assert v != "" by {
        assert v == StepName(k + 1);
      }
    }
    forall i, j | 0 <= i < |r| && 0 <= j < |r[i].choices|
      ensures r[i].choices[j].nextStepId in StepIds(r)
    {
      assert r[i].choices[j].nextStepId == Resolve(idMap, steps[i].choices[j].nextStepId);
    }
    forall i | 0 <= i < |r| && HasNext(r[i])
      ensures r[i].next.value in StepIds(r)
    {
      assert r[i] == SecondPassStep(idMap, steps[i]);
    }
  }

  /** Every choice target and `next` of a step is among `ids`. */
  predicate TargetsAmong(s: Step, ids: seq<string>) {
    && (forall j :: 0 <= j < |s.choices| ==> s.choices[j].nextStepId in ids)
    && (HasNext(s) ==> s.next.value in ids)
  }

  /** Every reference a legacy message carries (its `nextMessageId` and its
      choices' targets, each read as the converter reads it) is the legacy id
      of some object message. */
  predicate ReferencesNamed(msgs: seq<LegacyEntry>) {
    var ix := MessageIndices(msgs);
    forall t :: 0 <= t < |ix| ==> TargetsAmong(ConvertMessage(msgs[ix[t]].m, StepName(t + 1)), LegacyIds(msgs))
  }

  /** When every legacy reference names some message, the converted scenario
      has no dangling reference. */
  lemma KnownReferencesResolve(l: LegacyScenario)
    requires ReferencesNamed(MessagesOf(l))
    ensures Dfs.ValidateChoiceTargets(ConvertLegacyScenario(l)).None?
  {
    var msgs := MessagesOf(l);
    var st := FirstPass(msgs);
    FirstPassIdMap(msgs);
    forall k | 0 <= k < |st.steps|
      ensures TargetsAmong(st.steps[k], LegacyIds(msgs))
    {
      FirstPassConverts(msgs, k);
    }
    SecondPassResolvesKnown(st);
  }
}

=== FILE: dfs.dfy ===
/** The structural validator: three linear checks over every step and
    choice, and a depth-bounded depth-first walk from the entry step that
    collects reachable, terminal and orphaned steps. Thrown errors are
    modelled as values: a check either passes or fails with its list of
    messages, and a walk frame either returns or raises. */
module Dfs {
  import opened Common
  import opened UnifiedTypes

  // ---------------------------------------------------------------------
  // Choice targets

  datatype TargetError =
    | DanglingChoice(choiceId: string, stepId: StepId, target: StepId)
    | DanglingNext(stepId: StepId, target: StepId)

  /** The dangling references of one step: each choice whose target is not a
      step id, then a truthy `next` that is not a step id. */
  function StepTargetErrors(s: Step, ids: set<StepId>): (r: seq<TargetError>)
    ensures forall j :: 0 <= j < |s.choices| && s.choices[j].nextStepId !in ids ==>
              DanglingChoice(s.choices[j].id, s.id, s.choices[j].nextStepId) in r
    ensures HasNext(s) && s.next.value !in ids ==> DanglingNext(s.id, s.next.value) in r
    ensures forall e :: e in r ==> e.target !in ids && e.stepId == s.id
    ensures forall e :: e in r && e.DanglingNext? ==> HasNext(s) && e.target == s.next.value
    ensures forall e :: e in r && e.DanglingChoice? ==>
              exists j :: 0 <= j < |s.choices| && s.choices[j].nextStepId == e.target
                          && s.choices[j].id == e.choiceId
  {
    ChoiceTargetErrors(s.choices, s.id, ids)
      + (if HasNext(s) && s.next.value !in ids then [DanglingNext(s.id, s.next.value)] else [])
  }

  function ChoiceTargetErrors(cs: seq<Choice>, stepId: StepId, ids: set<StepId>): (r: seq<TargetError>)
    ensures forall j :: 0 <= j < |cs| && cs[j].nextStepId !in ids ==>
              DanglingChoice(cs[j].id, stepId, cs[j].nextStepId) in r
    ensures forall e :: e in r ==> e.DanglingChoice? && e.target !in ids && e.stepId == stepId
                                   && exists j :: 0 <= j < |cs| && cs[j].nextStepId == e.target
                                                  && cs[j].id == e.choiceId
  {
    if cs == [] then []
    else
      var rest := ChoiceTargetErrors(cs[1..], stepId, ids);
      assert forall e :: e in rest ==> exists j :: 1 <= j < |cs| && cs[j].nextStepId == e.target
                                                   && cs[j].id == e.choiceId by {
        forall e | e in rest
          ensures exists j :: 1 <= j < |cs| && cs[j].nextStepId == e.target && cs[j].id == e.choiceId
        {
          var j :| 0 <= j < |cs[1..]| && cs[1..][j].nextStepId == e.target && cs[1..][j].id == e.choiceId;
          assert cs[j + 1] == cs[1..][j];
        }
      }
      (if cs[0].nextStepId !in ids then [DanglingChoice(cs[0].id, stepId, cs[0].nextStepId)] else [])
        + rest
  }

  /** The dangling references of every step, in step order. */
  function TargetErrorsOf(steps: seq<Step>, ids: set<StepId>): (r: seq<TargetError>)
    ensures forall e :: e in r ==> e.target !in ids
  {
    if steps == [] then [] else StepTargetErrors(steps[0], ids) + TargetErrorsOf(steps[1..], ids)
  }

  /** Every dangling choice target and every dangling `next` is reported. */
  lemma {:induction false} TargetErrorsComplete(steps: seq<Step>, ids: set<StepId>)
    ensures forall i, j | 0 <= i < |steps| && 0 <= j < |steps[i].choices|
              && steps[i].choices[j].nextStepId !in ids ::
              DanglingChoice(steps[i].choices[j].id, steps[i].id, steps[i].choices[j].nextStepId) in TargetErrorsOf(steps, ids)
    ensures forall i :: 0 <= i < |steps| && HasNext(steps[i]) && steps[i].next.value !in ids ==>
              DanglingNext(steps[i].id, steps[i].next.value) in TargetErrorsOf(steps, ids)
  {
    if steps != [] {
      TargetErrorsComplete(steps[1..], ids);
      var head, rest := StepTargetErrors(steps[0], ids), TargetErrorsOf(steps[1..], ids);
      assert TargetErrorsOf(steps, ids) == head + rest;
      assert forall e :: e in head || e in rest ==> e in head + rest;
      assert forall i :: 1 <= i < |steps| ==> steps[i] == steps[1..][i - 1];
    }
  }

  /** Every reported error names a reference of some step that names no step. */
  lemma {:induction false} TargetErrorsSound(steps: seq<Step>, ids: set<StepId>)
    ensures forall e :: e in TargetErrorsOf(steps, ids) ==> exists i :: 0 <= i < |steps| && Witnesses(steps[i], e, ids)
  {
    if steps != [] {
      TargetErrorsSound(steps[1..], ids);
      var head, rest := StepTargetErrors(steps[0], ids), TargetErrorsOf(steps[1..], ids);
      assert TargetErrorsOf(steps, ids) == head + rest;
      forall e | e in head + rest
        ensures exists i :: 0 <= i < |steps| && Witnesses(steps[i], e, ids)
      {
        if e in head {
          assert Witnesses(steps[0], e, ids);
        } else {
          var i :| 0 <= i < |steps[1..]| && Witnesses(steps[1..][i], e, ids);
          assert steps[i + 1] == steps[1..][i];
        }
      }
    }
  }

  /** `e` reports a reference of step `s` that names no step. */
  predicate Witnesses(s: Step, e: TargetError, ids: set<StepId>) {
    && e.stepId == s.id
    && e.target !in ids
    && (e.DanglingNext? ==> HasNext(s) && s.next.value == e.target)
    && (e.DanglingChoice? ==> exists j :: 0 <= j < |s.choices| && s.choices[j].nextStepId == e.target
                                          && s.choices[j].id == e.choiceId)
  }

  /** Every choice target and every truthy `next` names a step. */
  predicate TargetsResolve(steps: seq<Step>) {
    && (forall i, j :: 0 <= i < |steps| && 0 <= j < |steps[i].choices| ==>
          steps[i].choices[j].nextStepId in StepIds(steps))
    && (forall i :: 0 <= i < |steps| && HasNext(steps[i]) ==> steps[i].next.value in StepIds(steps))
  }

  /** `validateChoiceTargets`: one message per dangling reference, all
      reported together. */
  function ValidateChoiceTargets(sc: Scenario): (r: Option<seq<TargetError>>)
    ensures r.None? <==> TargetsResolve(sc.steps)
    ensures r.Some? ==> |r.value| > 0
    ensures r.Some? ==> forall i, j | 0 <= i < |sc.steps| && 0 <= j < |sc.steps[i].choices|
              && sc.steps[i].choices[j].nextStepId !in StepIds(sc.steps) ::
              DanglingChoice(sc.steps[i].choices[j].id, sc.steps[i].id, sc.steps[i].choices[j].nextStepId) in r.value
    ensures r.Some? ==> forall i | 0 <= i < |sc.steps| && HasNext(sc.steps[i])
              && sc.steps[i].next.value !in StepIds(sc.steps) ::
              DanglingNext(sc.steps[i].id, sc.steps[i].next.value) in r.value
    ensures r.Some? ==> forall e :: e in r.value ==> e.target !in StepIds(sc.steps)
  {
    var errors := TargetErrorsOf(sc.steps, StepIds(sc.steps));
    TargetErrorsComplete(sc.steps, StepIds(sc.steps));
    TargetErrorsSound(sc.steps, StepIds(sc.steps));
    if |errors| > 0 then
      assert errors[0] in errors;
      Some(errors)
    else None
  }

  // ---------------------------------------------------------------------
  // Difficulty limits

  datatype DifficultyError = TooManyChoices(stepId: StepId, count: nat, limit: nat)

  /** At most 3, 5 or 7 choices per step for easy, medium, hard. */
  function MaxChoices(d: Difficulty): nat {
    match d
    case Easy => 3
    case Medium => 5
    case Hard => 7
  }

  function DifficultyErrorsOf(steps: seq<Step>, limit: nat): (r: seq<DifficultyError>)
    ensures forall i :: 0 <= i < |steps| && |steps[i].choices| > limit ==>
              TooManyChoices(steps[i].id, |steps[i].choices|, limit) in r
    ensures forall e :: e in r ==> (e.count > limit && e.limit == limit
              && exists i :: 0 <= i < |steps| && steps[i].id == e.stepId && |steps[i].choices| == e.count)
  {
    if steps == [] then []
    else
      var rest := DifficultyErrorsOf(steps[1..], limit);
      assert forall e :: e in rest ==> exists i :: 1 <= i < |steps| && steps[i].id == e.stepId
                                                   && |steps[i].choices| == e.count by {
        forall e | e in rest
          ensures exists i :: 1 <= i < |steps| && steps[i].id == e.stepId && |steps[i].choices| == e.count
        {
          var i :| 0 <= i < |steps[1..]| && steps[1..][i].id == e.stepId && |steps[1..][i].choices| == e.count;
          assert steps[i + 1] == steps[1..][i];
        }
      }
      (if |steps[0].choices| > limit then [TooManyChoices(steps[0].id, |steps[0].choices|, limit)] else [])
        + rest
  }

  /** `validateDifficultyConstraints`: a step without choices counts as 0. */
  function ValidateDifficultyConstraints(sc: Scenario): (r: Option<seq<DifficultyError>>)
    ensures r.None? <==> forall i :: 0 <= i < |sc.steps| ==> |sc.steps[i].choices| <= MaxChoices(sc.difficulty)
    ensures r.Some? ==> forall i :: 0 <= i < |sc.steps| && |sc.steps[i].choices| > MaxChoices(sc.difficulty) ==>
              TooManyChoices(sc.steps[i].id, |sc.steps[i].choices|, MaxChoices(sc.difficulty)) in r.value
    ensures r.Some? ==> forall e :: e in r.value ==> e.count > MaxChoices(sc.difficulty)
  {
    var errors := DifficultyErrorsOf(sc.steps, MaxChoices(sc.difficulty));
    if |errors| > 0 then
      assert errors[0] in errors;
      Some(errors)
    else None
  }

  // ---------------------------------------------------------------------
  // Pressure deltas

  datatype DeltaError = DeltaOutOfRange(choiceId: string, stepId: StepId, delta: int)

  function ChoiceDeltaErrors(cs: seq<Choice>, stepId: StepId): (r: seq<DeltaError>)
    ensures forall j :: 0 <= j < |cs| && !DeltaInRange(cs[j].pressureDelta) ==>
              DeltaOutOfRange(cs[j].id, stepId, cs[j].pressureDelta) in r
    ensures forall e :: e in r ==> e.stepId == stepId && !DeltaInRange(e.delta)
    ensures r == [] <==> forall j :: 0 <= j < |cs| ==> DeltaInRange(cs[j].pressureDelta)
  {
    if cs == [] then []
    else
      (if !DeltaInRange(cs[0].pressureDelta) then [DeltaOutOfRange(cs[0].id, stepId, cs[0].pressureDelta)] else [])
        + ChoiceDeltaErrors(cs[1..], stepId)
  }

  /** Every authored delta lies in [-15, 15]. */
  predicate DeltasInRange(steps: seq<Step>) {
    forall i, j :: 0 <= i < |steps| && 0 <= j < |steps[i].choices| ==>
      DeltaInRange(steps[i].choices[j].pressureDelta)
  }

  function DeltaErrorsOf(steps: seq<Step>): (r: seq<DeltaError>)
    ensures forall i, j | 0 <= i < |steps| && 0 <= j < |steps[i].choices|
              && !DeltaInRange(steps[i].choices[j].pressureDelta) ::
              DeltaOutOfRange(steps[i].choices[j].id, steps[i].id, steps[i].choices[j].pressureDelta) in r
    ensures forall e :: e in r ==> !DeltaInRange(e.delta)
    ensures r == [] <==> DeltasInRange(steps)
  {
    if steps == [] then []
    else
      var rest := DeltaErrorsOf(steps[1..]);
      var r := ChoiceDeltaErrors(steps[0].choices, steps[0].id) + rest;
      assert DeltasInRange(steps) <==> 
        (forall j :: 0 <= j < |steps[0].choices| ==> DeltaInRange(steps[0].choices[j].pressureDelta))
        && DeltasInRange(steps[1..]) by {
        if DeltasInRange(steps[1..]) {
          forall i, j | 1 <= i < |steps| && 0 <= j < |steps[i].choices|
            ensures DeltaInRange(steps[i].choices[j].pressureDelta)
          {
            assert steps[1..][i - 1] == steps[i];
          }
        }
      }
      r
  }

  /** `validatePressureDeltas`. */
  function ValidatePressureDeltas(sc: Scenario): (r: Option<seq<DeltaError>>)
    ensures r.None? <==> DeltasInRange(sc.steps)
    ensures r.Some? ==> forall i, j | 0 <= i < |sc.steps| && 0 <= j < |sc.steps[i].choices|
              && !DeltaInRange(sc.steps[i].choices[j].pressureDelta) ::
              DeltaOutOfRange(sc.steps[i].choices[j].id, sc.steps[i].id, sc.steps[i].choices[j].pressureDelta) in r.value
    ensures r.Some? ==> forall e :: e in r.value ==> !DeltaInRange(e.delta)
  {
    var errors := DeltaErrorsOf(sc.steps);
    if |errors| > 0 then Some(errors) else None
  }

  // ---------------------------------------------------------------------
  // The depth-first walk

  /** A walk frame whose ancestor list is longer than this throws. */
  const MaxAncestors := 20

  /** What a frame throws. */
  datatype Thrown =
    | MissingStep(id: StepId)
    | ChoiceWithoutTarget(choiceId: string, stepId: StepId)
    | PathTooDeep(ancestors: seq<StepId>, id: StepId)

  /** What the walk records. */
  datatype PathError =
    | CaughtAt(at: StepId, cause: Thrown)          // "Path validation error at ..."
    | UnmarkedDeadEnd(id: StepId)                  // a leaf not marked terminal
    | DfsFailedFromEntry(entry: StepId, cause: Thrown)
    | NoTerminalSteps

  /** The walk's accumulated state: the reachable set, the terminal list
      (one entry per path), the visited path keys and the recorded errors. */
  datatype Walk = Walk(
    reachable: set<StepId>,
    terminals: seq<StepId>,
    visited: set<seq<StepId>>,
    errors: seq<PathError>)

  /** A frame either returns normally or throws. */
  datatype Outcome = Returned(walk: Walk) | Raised(walk: Walk, thrown: Thrown)

  const EmptyWalk := Walk({}, [], {}, [])

  /** Everything the walk accumulates only grows. */
  predicate Grows(w: Walk, w': Walk) {
    && w.reachable <= w'.reachable
    && w.terminals <= w'.terminals
    && w.visited <= w'.visited
    && w.errors <= w'.errors
  }

  /** Only existing steps are reachable, and every recorded terminal entry is
      a reachable leaf that is marked terminal or has been reported. */
  predicate Consistent(steps: seq<Step>, w: Walk) {
    && w.reachable <= StepIds(steps)
    && forall k :: 0 <= k < |w.terminals| ==> TerminalRecorded(steps, w, w.terminals[k])
  }

  predicate TerminalRecorded(steps: seq<Step>, w: Walk, id: StepId) {
    && id in w.reachable
    && Lookup(steps, id).Some?
    && IsLeaf(Lookup(steps, id).value)
    && (Lookup(steps, id).value.terminal || UnmarkedDeadEnd(id) in w.errors)
  }

  lemma ConsistentGrows(steps: seq<Step>, w: Walk, w': Walk)
    requires Consistent(steps, w)
    requires Grows(w, w') && w'.reachable <= StepIds(steps) && w'.terminals == w.terminals
    ensures Consistent(steps, w')
  {
    forall k | 0 <= k < |w'.terminals|
      ensures TerminalRecorded(steps, w', w'.terminals[k])
    {
      assert TerminalRecorded(steps, w, w.terminals[k]);
      var x := w.terminals[k];
      if !Lookup(steps, x).value.terminal {
        assert UnmarkedDeadEnd(x) in w.errors;
        var i :| 0 <= i < |w.errors| && w.errors[i] == UnmarkedDeadEnd(x);
        assert w'.errors[i] == UnmarkedDeadEnd(x);
      }
    }
  }

  function MeasureOf(path: seq<StepId>): nat {
    if |path| > MaxAncestors then 0 else MaxAncestors + 1 - |path|
  }

  /** `walkPath(stepId, path)`: skip a path key seen before, throw past the
      depth limit (outside the frame's try, so the PARENT frame catches it),
      otherwise visit the step and record whatever the visit throws. */
  function WalkPath(steps: seq<Step>, stepId: StepId, path: seq<StepId>, w: Walk): (r: Outcome)
    ensures Grows(w, r.walk)
    ensures Consistent(steps, w) ==> Consistent(steps, r.walk)
    ensures |path| <= MaxAncestors ==> r.Returned?
    ensures r.Raised? ==> r.thrown == PathTooDeep(path, stepId) && r.walk == w.(visited := w.visited + {path + [stepId]})
    decreases MeasureOf(path), 1
  {
    var key := path + [stepId];
    if key in w.visited then Returned(w)
    else
      var w1 := w.(visited := w.visited + {key});
      if |path| > MaxAncestors then Raised(w1, PathTooDeep(path, stepId))
      else
        match Visit(steps, stepId, path, w1)
        case Returned(w2) => Returned(w2)
        case Raised(w2, e) =>
          var w3 := w2.(errors := w2.errors + [CaughtAt(stepId, e)]);
          assert Consistent(steps, w1) ==> Consistent(steps, w3) by {
            if Consistent(steps, w1) { ConsistentGrows(steps, w2, w3); }
          }
          Returned(w3)
  }

  /** The body of the frame's try block. */
  function Visit(steps: seq<Step>, stepId: StepId, path: seq<StepId>, w: Walk): (r: Outcome)
    requires |path| <= MaxAncestors
    ensures Grows(w, r.walk)
    ensures Consistent(steps, w) ==> Consistent(steps, r.walk)
    decreases MeasureOf(path), 0
  {
    if stepId !in StepIds(steps) then Raised(w, MissingStep(stepId))
    else
      var step := Lookup(steps, stepId).value;
      var w1 := w.(reachable := w.reachable + {stepId});
      assert Consistent(steps, w) ==> Consistent(steps, w1) by {
        if Consistent(steps, w) { ConsistentGrows(steps, w, w1); }
      }
      var newPath := path + [stepId];
      if HasChoices(step) then WalkChoices(steps, step.choices, 0, stepId, newPath, w1)
      else if HasNext(step) then WalkPath(steps, step.next.value, newPath, w1)
      else
        var w2 := if step.terminal then w1 else w1.(errors := w1.errors + [UnmarkedDeadEnd(stepId)]);
        assert Consistent(steps, w) ==> Consistent(steps, w2) by {
          if Consistent(steps, w) { ConsistentGrows(steps, w1, w2); }
        }
        var w3 := w2.(terminals := w2.terminals + [stepId]);
        assert Consistent(steps, w) ==> Consistent(steps, w3) by {
          if Consistent(steps, w) {
            assert TerminalRecorded(steps, w3, stepId);
            forall k | 0 <= k < |w3.terminals|
              ensures TerminalRecorded(steps, w3, w3.terminals[k])
            {
              if k < |w2.terminals| {
                assert TerminalRecorded(steps, w2, w2.terminals[k]);
              }
            }
          }
        }
        Returned(w3)
  }

  /** The `for (const choice of step.choices)` loop of a frame; a throw
      abandons the remaining choices. */
  function WalkChoices(steps: seq<Step>, choices: seq<Choice>, i: nat, stepId: StepId,
                       newPath: seq<StepId>, w: Walk): (r: Outcome)
    requires i <= |choices|
    requires |newPath| <= MaxAncestors + 1
    ensures Grows(w, r.walk)
    ensures Consistent(steps, w) ==> Consistent(steps, r.walk)
    decreases MaxAncestors + 1 - |newPath|, 2, |choices| - i
  {
    if i == |choices| then Returned(w)
    else
      var c := choices[i];
      if c.nextStepId == "" then Raised(w, ChoiceWithoutTarget(c.id, stepId))
      else
        match WalkPath(steps, c.nextStepId, newPath, w)
        case Raised(w', e) => Raised(w', e)
        case Returned(w') => WalkChoices(steps, choices, i + 1, stepId, newPath, w')
  }

  /** The positions of the steps the walk never reached, ascending. */
  function UnreachedIndices(steps: seq<Step>, reachable: set<StepId>): (idx: seq<nat>)
    ensures forall m :: 0 <= m < |idx| ==> idx[m] < |steps| && steps[idx[m]].id !in reachable
    ensures forall m, m' :: 0 <= m < m' < |idx| ==> idx[m] < idx[m']
  {
    if steps == [] then []
    else
      var init := steps[..|steps| - 1];
      var prev := UnreachedIndices(init, reachable);
      assert forall m :: 0 <= m < |prev| ==> init[prev[m]] == steps[prev[m]];
      if Last(steps).id !in reachable then prev + [|steps| - 1] else prev
  }

  /** Every unreached step's position is listed. */
  lemma {:induction false} UnreachedIndicesCover(steps: seq<Step>, reachable: set<StepId>, k: nat)
    requires k < |steps| && steps[k].id !in reachable
    ensures k in UnreachedIndices(steps, reachable)
  {
    var init := steps[..|steps| - 1];
    if k < |init| {
      assert init[k] == steps[k];
      UnreachedIndicesCover(init, reachable, k);
    }
  }

  /** The ids of the steps the walk never reached, one per step, in
      scenario order. */
  function Orphans(steps: seq<Step>, reachable: set<StepId>): (r: seq<StepId>)
    ensures forall x :: x in r <==> x in StepIds(steps) && x !in reachable
    ensures |r| <= |steps|
  {
    if steps == [] then []
    else
      var init := steps[..|steps| - 1];
      var rest := Orphans(init, reachable);
      assert steps == init + [Last(steps)];
      assert StepIds(steps) == StepIds(init) + {Last(steps).id};
      rest + (if Last(steps).id !in reachable then [Last(steps).id] else [])
  }

  /** The orphans follow scenario order: the `m`-th orphan is the id of the
      `m`-th unreached step. */
  lemma {:induction false} OrphansInOrder(steps: seq<Step>, reachable: set<StepId>)
    ensures var r, idx := Orphans(steps, reachable), UnreachedIndices(steps, reachable);
      |r| == |idx| && forall m :: 0 <= m < |r| ==> r[m] == steps[idx[m]].id
  {
    if steps != [] {
      var init := steps[..|steps| - 1];
      OrphansInOrder(init, reachable);
      var r0, i0 := Orphans(init, reachable), UnreachedIndices(init, reachable);
      var r, idx := Orphans(steps, reachable), UnreachedIndices(steps, reachable);
      var tail := Last(steps).id !in reachable;
      assert r == r0 + (if tail then [Last(steps).id] else []);
      assert idx == i0 + (if tail then [|steps| - 1] else []);
      forall m | 0 <= m < |r|
        ensures r[m] == steps[idx[m]].id
      {
        if m < |r0| {
          assert r[m] == r0[m] && idx[m] == i0[m] && init[i0[m]] == steps[i0[m]];
        }
      }
    }
  }

  /** `dfsAllPathsToDebrief`: walk from the entry; any recorded error fails
      the whole call with every message, otherwise report the summary. */
  function DfsAllPathsToDebrief(sc: Scenario): (r: Result<PathValidation, seq<PathError>>)
    ensures r.Failure? ==> |r.error| > 0
    ensures r.Success? ==> r.value.hasDebrief && |r.value.terminalSteps| > 0
    ensures r.Success? ==> sc.entryStepId in r.value.reachableSteps
    ensures r.Success? ==> r.value.reachableSteps <= StepIds(sc.steps)
    ensures r.Success? ==> forall x :: x in r.value.orphanedSteps <==>
              x in StepIds(sc.steps) && x !in r.value.reachableSteps
    ensures r.Success? ==> r.value.orphanedSteps == Orphans(sc.steps, r.value.reachableSteps)
    ensures r.Success? ==> forall k :: 0 <= k < |r.value.terminalSteps| ==>
              var t := r.value.terminalSteps[k];
              t in r.value.reachableSteps && IsLeaf(Lookup(sc.steps, t).value) && Lookup(sc.steps, t).value.terminal
    ensures sc.entryStepId !in StepIds(sc.steps) ==>
              r.Failure? && CaughtAt(sc.entryStepId, MissingStep(sc.entryStepId)) in r.error
  {
    var w := FinalWalk(sc);
    var orphans := Orphans(sc.steps, w.reachable);
    var hasDebrief := |w.terminals| > 0;
    var errors := w.errors + (if hasDebrief then [] else [NoTerminalSteps]);
    if |errors| > 0 then Failure(errors)
    else
      forall k | 0 <= k < |w.terminals|
        ensures Lookup(sc.steps, w.terminals[k]).value.terminal
      {
        assert TerminalRecorded(sc.steps, w, w.terminals[k]);
      }
      Success(PathValidation(w.reachable, w.terminals, orphans, hasDebrief))
  }

  /** The walk state after `walkPath(scenario.entryStepId)` and its catch. */
  function FinalWalk(sc: Scenario): (w: Walk)
    ensures Consistent(sc.steps, w)
    ensures w.errors == [] ==> sc.entryStepId in w.reachable
    ensures sc.entryStepId !in StepIds(sc.steps) ==> CaughtAt(sc.entryStepId, MissingStep(sc.entryStepId)) in w.errors
  {
    match WalkPath(sc.steps, sc.entryStepId, [], EmptyWalk)
    case Returned(w) => EntryFrame(sc); w
    case Raised(w, e) => w.(errors := w.errors + [DfsFailedFromEntry(sc.entryStepId, e)])
  }

  /** The entry frame runs in full: it either reaches the entry or records why not. */
  lemma EntryFrame(sc: Scenario)
    ensures var r := WalkPath(sc.steps, sc.entryStepId, [], EmptyWalk);
      && r.Returned?
      && (r.walk.errors == [] ==> sc.entryStepId in r.walk.reachable)
      && (sc.entryStepId !in StepIds(sc.steps) ==>
            r.walk.errors == [CaughtAt(sc.entryStepId, MissingStep(sc.entryStepId))])
  {
    var w1 := EmptyWalk.(visited := {[sc.entryStepId]});
    assert [] + [sc.entryStepId] !in EmptyWalk.visited;
    var v := Visit(sc.steps, sc.entryStepId, [], w1);
    if sc.entryStepId in StepIds(sc.steps) {
      assert sc.entryStepId in v.walk.reachable;
    }
  }

  // ---------------------------------------------------------------------
  // The combined validator

  datatype ScenarioError =
    | ChoiceTargetsFailed(targetErrors: seq<TargetError>)
    | DifficultyFailed(difficultyErrors: seq<DifficultyError>)
    | DeltasFailed(deltaErrors: seq<DeltaError>)
    | PathsFailed(pathErrors: seq<PathError>)

  /** `validateScenario`: the three linear checks, then the walk; the first
      failing check ends the run. */
  function ValidateScenario(sc: Scenario): (r: Result<PathValidation, ScenarioError>)
    ensures r.Failure? && r.error.ChoiceTargetsFailed? <==> !TargetsResolve(sc.steps)
    ensures r.Failure? && r.error.DifficultyFailed? <==>
              TargetsResolve(sc.steps) && ValidateDifficultyConstraints(sc).Some?
    ensures r.Failure? && r.error.DeltasFailed? <==>
              TargetsResolve(sc.steps) && ValidateDifficultyConstraints(sc).None? && !DeltasInRange(sc.steps)
    ensures r.Failure? && r.error.PathsFailed? <==>
              TargetsResolve(sc.steps) && ValidateDifficultyConstraints(sc).None? && DeltasInRange(sc.steps)
              && DfsAllPathsToDebrief(sc).Failure?
    ensures r.Success? ==> DfsAllPathsToDebrief(sc) == Success(r.value)
  {
    match ValidateChoiceTargets(sc)
    case Some(e) => Failure(ChoiceTargetsFailed(e))
    case None =>
      match ValidateDifficultyConstraints(sc)
      case Some(e) => Failure(DifficultyFailed(e))
      case None =>
        match ValidatePressureDeltas(sc)
        case Some(e) => Failure(DeltasFailed(e))
        case None =>
          match DfsAllPathsToDebrief(sc)
          case Failure(e) => Failure(PathsFailed(e))
          case Success(v) => Success(v)
  }
}

=== FILE: dfs_examples.dfy ===
/** A worked example of the walk: a diamond-shaped scenario in which two
    branches rejoin at one terminal step. */
module DfsExamples {
  import opened Common
  import opened UnifiedTypes
  import opened Dfs

  function Go(id: string, target: StepId): Choice {
    Choice(id, "", 0, Appropriate, target, [])
  }
  const S1 := Step("s1", Scammer, "", [Go("c1", "s2"), Go("c2", "s3")], None, false)
  const S2 := Step("s2", Scammer, "", [], Some("s4"), false)
  const S3 := Step("s3", Scammer, "", [], Some("s4"), false)
  const S4 := Step("s4", System, "", [], None, true)
  const DiamondSteps := [S1, S2, S3, S4]
  const Diamond := Scenario("diamond", "", Easy, Meta("", "", []), DiamondSteps, "s1",
                            Debrief("urgency", [], None, None))

  lemma DiamondLookup1()
    ensures Lookup(DiamondSteps, "s1") == Some(S1)
  {
    assert DiamondSteps[..3] == [S1, S2, S3];
    assert [S1, S2, S3][..2] == [S1, S2];
    assert [S1, S2][..1] == [S1];
  }

  lemma DiamondLookup2()
    ensures Lookup(DiamondSteps, "s2") == Some(S2)
  {
    assert DiamondSteps[..3] == [S1, S2, S3];
    assert [S1, S2, S3][..2] == [S1, S2];
  }

  lemma DiamondLookup3()
    ensures Lookup(DiamondSteps, "s3") == Some(S3)
  {
    assert DiamondSteps[..3] == [S1, S2, S3];
  }

  lemma DiamondLookup4()
    ensures Lookup(DiamondSteps, "s4") == Some(S4)
  {
  }

  lemma LeafFrame(path: seq<StepId>, w: Walk)
    requires |path| < MaxAncestors && path + ["s4"] !in w.visited
    ensures WalkPath(DiamondSteps, "s4", path, w) ==
      Returned(w.(visited := w.visited + {path + ["s4"]}, reachable := w.reachable + {"s4"},
                  terminals := w.terminals + ["s4"]))
  {
    DiamondLookup4();
  }

  /** Visiting either middle step follows its `next` to the terminal step. */
  lemma MiddleVisit(x: StepId, w: Walk)
    requires x == "s2" || x == "s3"
    ensures Visit(DiamondSteps, x, ["s1"], w) ==
      WalkPath(DiamondSteps, "s4", ["s1", x], w.(reachable := w.reachable + {x}))
  {
    assert ["s1"] + [x] == ["s1", x];
    if x == "s2" {
      DiamondLookup2();
    } else {
      DiamondLookup3();
    }
  }

  lemma MiddleFrame(x: StepId, w: Walk)
    requires x == "s2" || x == "s3"
    requires ["s1", x] !in w.visited && ["s1", x, "s4"] !in w.visited
    ensures WalkPath(DiamondSteps, x, ["s1"], w) ==
      Returned(w.(visited := w.visited + {["s1", x], ["s1", x, "s4"]}, reachable := w.reachable + {x, "s4"},
                  terminals := w.terminals + ["s4"]))
  {
    var w1 := w.(visited := w.visited + {["s1", x]});
    var w2 := w1.(reachable := w1.reachable + {x});
    assert ["s1"] + [x] == ["s1", x];
    assert WalkPath(DiamondSteps, x, ["s1"], w) == Visit(DiamondSteps, x, ["s1"], w1);
    MiddleVisit(x, w1);
    assert ["s1", x] + ["s4"] == ["s1", x, "s4"];
    assert ["s1", x, "s4"] !in w2.visited;
    LeafFrame(["s1", x], w2);
    assert w2.visited + {["s1", x, "s4"]} == w.visited + {["s1", x], ["s1", x, "s4"]};
    assert w2.reachable + {"s4"} == w.reachable + {x, "s4"};
  }

  const W1 := Walk({"s1"}, [], {["s1"]}, [])
  const WA := Walk({"s1", "s2", "s4"}, ["s4"], {["s1"], ["s1", "s2"], ["s1", "s2", "s4"]}, [])
  const WB := Walk({"s1", "s2", "s3", "s4"}, ["s4", "s4"],
                   {["s1"], ["s1", "s2"], ["s1", "s2", "s4"], ["s1", "s3"], ["s1", "s3", "s4"]}, [])

  lemma FirstBranch()
    ensures WalkPath(DiamondSteps, "s2", ["s1"], W1) == Returned(WA)
  {
    assert ["s1", "s2"] != ["s1"] && ["s1", "s2", "s4"] != ["s1"];
    MiddleFrame("s2", W1);
    assert W1.visited + {["s1", "s2"], ["s1", "s2", "s4"]} == WA.visited;
    assert W1.reachable + {"s2", "s4"} == WA.reachable;
  }

  /** The second branch's path keys are new after the first branch. */
  lemma SecondBranchKeysNew()
    ensures ["s1", "s3"] !in WA.visited && ["s1", "s3", "s4"] !in WA.visited
  {
    assert "s3"[1] != "s2"[1];
    assert ["s1", "s3"][1] != ["s1", "s2"][1];
    assert ["s1", "s3", "s4"][1] != ["s1", "s2", "s4"][1];
  }

  lemma SecondBranch()
    ensures WalkPath(DiamondSteps, "s3", ["s1"], WA) == Returned(WB)
  {
    SecondBranchKeysNew();
    MiddleFrame("s3", WA);
    assert WA.visited + {["s1", "s3"], ["s1", "s3", "s4"]} == WB.visited;
    assert WA.reachable + {"s3", "s4"} == WB.reachable;
    assert WA.terminals + ["s4"] == WB.terminals;
  }

  lemma EntryChoices()
    ensures WalkChoices(DiamondSteps, S1.choices, 0, "s1", ["s1"], W1) == Returned(WB)
  {
    FirstBranch();
    SecondBranch();
    assert WalkChoices(DiamondSteps, S1.choices, 2, "s1", ["s1"], WB) == Returned(WB);
    assert WalkChoices(DiamondSteps, S1.choices, 1, "s1", ["s1"], WA) == Returned(WB);
  }

  /** Visiting the entry step walks its two choices. */
  lemma EntryVisitUnfolds()
    ensures Visit(DiamondSteps, "s1", [], EmptyWalk.(visited := {["s1"]})) ==
            WalkChoices(DiamondSteps, S1.choices, 0, "s1", ["s1"], W1)
  {
    DiamondLookup1();
    var w0 := EmptyWalk.(visited := {["s1"]});
    assert "s1" in StepIds(DiamondSteps);
    assert HasChoices(S1);
    assert [] + ["s1"] == ["s1"];
    assert w0.(reachable := w0.reachable + {"s1"}) == W1;
  }

  lemma EntryVisit()
    ensures Visit(DiamondSteps, "s1", [], EmptyWalk.(visited := {["s1"]})) == Returned(WB)
  {
    EntryVisitUnfolds();
    EntryChoices();
  }

  lemma EntryPathUnfolds()
    ensures WalkPath(DiamondSteps, "s1", [], EmptyWalk) ==
            Visit(DiamondSteps, "s1", [], EmptyWalk.(visited := {["s1"]}))
  {
    var key: seq<StepId> := [] + ["s1"];
    assert key == ["s1"];
    assert EmptyWalk.(visited := EmptyWalk.visited + {key}) == EmptyWalk.(visited := {["s1"]});
  }

  lemma DiamondWalk()
    ensures FinalWalk(Diamond) == WB
  {
    EntryPathUnfolds();
    EntryVisit();
  }

  lemma DiamondNoOrphans()
    ensures Orphans(DiamondSteps, WB.reachable) == []
  {
    assert DiamondSteps[..3] == [S1, S2, S3];
    assert [S1, S2, S3][..2] == [S1, S2];
    assert [S1, S2][..1] == [S1];
    assert Orphans([S1], WB.reachable) == [];
    assert Orphans([S1, S2], WB.reachable) == [];
    assert Orphans([S1, S2, S3], WB.reachable) == [];
  }

  /** Both branches reach the same terminal step along different paths, so
      it is listed once per path. */
  lemma DiamondListsLeafTwice()
    ensures DfsAllPathsToDebrief(Diamond) ==
            Success(PathValidation({"s1", "s2", "s3", "s4"}, ["s4", "s4"], [], true))
  {
    DiamondWalk();
    DiamondNoOrphans();
  }
}

=== FILE: dfs_proofs.dfy ===
/** What the depth-first walk computes, stated against an independent
    definition: a walk is a sequence of step ids that starts at the entry and
    follows, from each step, one of the edges the engine follows (the choice
    targets of a branching step, otherwise its `next`). When the validator
    succeeds, `reachableSteps` is exactly the set of walk ends, every walk has
    at most 21 steps, and every walk that ends on a leaf lists that leaf in
    `terminalSteps`; conversely a dangling walk, an unmarked dead end or an
    over-long walk makes it fail. */
module DfsProofs {
  import opened Common
  import opened UnifiedTypes
  import opened Dfs

  /** `b` is one of the edges the engine follows out of step `a`. */
  predicate Edge(steps: seq<Step>, a: StepId, b: StepId) {
    Lookup(steps, a).Some? && b in Successors(Lookup(steps, a).value)
  }

  /** `p` starts at `entry` and follows edges; its last id need not name a step. */
  predicate IsWalk(steps: seq<Step>, entry: StepId, p: seq<StepId>) {
    && |p| >= 1
    && p[0] == entry
    && forall i :: 0 <= i < |p| - 1 ==> Edge(steps, p[i], p[i + 1])
  }

  // ---------------------------------------------------------------------
  // Frames that finish without recording an error

  /** The frame keyed `k` has run to completion: its step exists and is
      reachable, its path is within the depth limit, a leaf has been listed
      as terminal, and every successor's key has been visited. */
  predicate Done(steps: seq<Step>, k: seq<StepId>, w: Walk) {
    && 1 <= |k| <= MaxAncestors + 1
    && Lookup(steps, Last(k)).Some?
    && Last(k) in w.reachable
    && (IsLeaf(Lookup(steps, Last(k)).value) ==> Last(k) in w.terminals)
    && forall t :: t in Successors(Lookup(steps, Last(k)).value) ==> k + [t] in w.visited
  }

  lemma DoneGrows(steps: seq<Step>, k: seq<StepId>, w: Walk, w': Walk)
    requires Done(steps, k, w) && Grows(w, w')
    ensures Done(steps, k, w')
  {
    if IsLeaf(Lookup(steps, Last(k)).value) {
      var i :| 0 <= i < |w.terminals| && w.terminals[i] == Last(k);
      assert w'.terminals[i] == Last(k);
    }
  }

  /** Every key a call added to `visited` belongs to a completed frame. */
  predicate NewKeysDone(steps: seq<Step>, w: Walk, w': Walk) {
    forall k :: k in w'.visited && k !in w.visited ==> Done(steps, k, w')
  }

  lemma NewKeysDoneChain(steps: seq<Step>, w0: Walk, w1: Walk, w2: Walk)
    requires Grows(w0, w1) && Grows(w1, w2)
    requires NewKeysDone(steps, w0, w1) && NewKeysDone(steps, w1, w2)
    ensures NewKeysDone(steps, w0, w2)
  {
    forall k | k in w2.visited && k !in w0.visited
      ensures Done(steps, k, w2)
    {
      if k in w1.visited {
        DoneGrows(steps, k, w1, w2);
      }
    }
  }

  /** When errors did not grow over two consecutive calls, neither call added one. */
  lemma NoNewErrorsSplit(w0: Walk, w1: Walk, w2: Walk)
    requires Grows(w0, w1) && Grows(w1, w2) && w2.errors == w0.errors
    ensures w1.errors == w0.errors
  {
  }

  lemma {:induction false} WalkPathClean(steps: seq<Step>, stepId: StepId, path: seq<StepId>, w: Walk)
    ensures var r := WalkPath(steps, stepId, path, w);
      r.Returned? && r.walk.errors == w.errors ==>
        && path + [stepId] in r.walk.visited
        && NewKeysDone(steps, w, r.walk)
    decreases MeasureOf(path), 1
  {
    var key := path + [stepId];
    var r := WalkPath(steps, stepId, path, w);
    if key !in w.visited && |path| <= MaxAncestors && r.walk.errors == w.errors {
      var w1 := w.(visited := w.visited + {key});
      var v := Visit(steps, stepId, path, w1);
      if v.Returned? {
        VisitClean(steps, stepId, path, w1);
        assert r.walk == v.walk;
        forall k | k in r.walk.visited && k !in w.visited
          ensures Done(steps, k, r.walk)
        {
          if k == key {
          } else {
            assert k !in w1.visited;
          }
        }
      }
    }
  }

  lemma {:induction false} VisitClean(steps: seq<Step>, stepId: StepId, path: seq<StepId>, w: Walk)
    requires |path| <= MaxAncestors
    requires path + [stepId] in w.visited
    ensures var r := Visit(steps, stepId, path, w);
      r.Returned? && r.walk.errors == w.errors ==>
        && Done(steps, path + [stepId], r.walk)
        && NewKeysDone(steps, w, r.walk)
    decreases MeasureOf(path), 0
  {
    var r := Visit(steps, stepId, path, w);
    if stepId in StepIds(steps) && r.Returned? && r.walk.errors == w.errors {
      var step := Lookup(steps, stepId).value;
      var w1 := w.(reachable := w.reachable + {stepId});
      var key := path + [stepId];
      if HasChoices(step) {
        WalkChoicesClean(steps, step.choices, 0, stepId, key, w1);
        forall t | t in Successors(step)
          ensures key + [t] in r.walk.visited
        {
          var j :| 0 <= j < |step.choices| && Successors(step)[j] == t;
        }
      } else if HasNext(step) {
        WalkPathClean(steps, step.next.value, key, w1);
      }
    }
  }

  lemma {:induction false} WalkChoicesClean(steps: seq<Step>, choices: seq<Choice>, i: nat, stepId: StepId,
                                            newPath: seq<StepId>, w: Walk)
    requires i <= |choices|
    requires |newPath| <= MaxAncestors + 1
    ensures var r := WalkChoices(steps, choices, i, stepId, newPath, w);
      r.Returned? && r.walk.errors == w.errors ==>
        && (forall j :: i <= j < |choices| ==> newPath + [choices[j].nextStepId] in r.walk.visited)
        && NewKeysDone(steps, w, r.walk)
    decreases MaxAncestors + 1 - |newPath|, 2, |choices| - i
  {
    var r := WalkChoices(steps, choices, i, stepId, newPath, w);
    if i < |choices| && choices[i].nextStepId != "" && r.Returned? && r.walk.errors == w.errors {
      var c := choices[i];
      var mid := WalkPath(steps, c.nextStepId, newPath, w);
      assert mid.Returned?;
      NoNewErrorsSplit(w, mid.walk, r.walk);
      WalkPathClean(steps, c.nextStepId, newPath, w);
      WalkChoicesClean(steps, choices, i + 1, stepId, newPath, mid.walk);
      NewKeysDoneChain(steps, w, mid.walk, r.walk);
    }
  }

  // ---------------------------------------------------------------------
  // Visited keys are walks, and every reachable step ends one

  function Lasts(keys: set<seq<StepId>>): set<StepId> {
    set k | k in keys && |k| > 0 :: k[|k| - 1]
  }

  /** Every visited key is a walk, and every reachable step ends a visited key. */
  predicate Sound(steps: seq<Step>, entry: StepId, w: Walk) {
    && (forall k :: k in w.visited ==> IsWalk(steps, entry, k))
    && w.reachable <= Lasts(w.visited)
  }

  lemma LastsGrow(v: set<seq<StepId>>, v': set<seq<StepId>>)
    requires v <= v'
    ensures Lasts(v) <= Lasts(v')
  {
  }

  lemma WalkExtends(steps: seq<Step>, entry: StepId, p: seq<StepId>, t: StepId)
    requires IsWalk(steps, entry, p) && Edge(steps, Last(p), t)
    ensures IsWalk(steps, entry, p + [t])
  {
    var q := p + [t];
    forall i | 0 <= i < |q| - 1
      ensures Edge(steps, q[i], q[i + 1])
    {
      if i < |p| - 1 {
        assert q[i] == p[i] && q[i + 1] == p[i + 1];
      }
    }
  }

  lemma {:induction false} WalkPathSound(steps: seq<Step>, entry: StepId, stepId: StepId, path: seq<StepId>, w: Walk)
    requires IsWalk(steps, entry, path + [stepId])
    requires Sound(steps, entry, w)
    ensures Sound(steps, entry, WalkPath(steps, stepId, path, w).walk)
    decreases MeasureOf(path), 1
  {
    var key := path + [stepId];
    if key !in w.visited {
      var w1 := w.(visited := w.visited + {key});
      LastsGrow(w.visited, w1.visited);
      if |path| <= MaxAncestors {
        VisitSound(steps, entry, stepId, path, w1);
      }
    }
  }

  lemma {:induction false} VisitSound(steps: seq<Step>, entry: StepId, stepId: StepId, path: seq<StepId>, w: Walk)
    requires |path| <= MaxAncestors
    requires path + [stepId] in w.visited
    requires Sound(steps, entry, w)
    ensures Sound(steps, entry, Visit(steps, stepId, path, w).walk)
    decreases MeasureOf(path), 0
  {
    if stepId in StepIds(steps) {
      var key := path + [stepId];
      var step := Lookup(steps, stepId).value;
      assert Last(key) == stepId;
      assert stepId in Lasts(w.visited);
      var w1 := w.(reachable := w.reachable + {stepId});
      assert IsWalk(steps, entry, key);
      if HasChoices(step) {
        WalkChoicesSound(steps, entry, step.choices, 0, stepId, key, w1);
      } else if HasNext(step) {
        assert Edge(steps, stepId, step.next.value);
        WalkExtends(steps, entry, key, step.next.value);
        WalkPathSound(steps, entry, step.next.value, key, w1);
      }
    }
  }

  lemma {:induction false} WalkChoicesSound(steps: seq<Step>, entry: StepId, choices: seq<Choice>, i: nat,
                                            stepId: StepId, newPath: seq<StepId>, w: Walk)
    requires i <= |choices|
    requires 1 <= |newPath| <= MaxAncestors + 1
    requires IsWalk(steps, entry, newPath) && Last(newPath) == stepId
    requires Lookup(steps, stepId).Some? && Lookup(steps, stepId).value.choices == choices && |choices| > 0
    requires Sound(steps, entry, w)
    ensures Sound(steps, entry, WalkChoices(steps, choices, i, stepId, newPath, w).walk)
    decreases MaxAncestors + 1 - |newPath|, 2, |choices| - i
  {
    if i < |choices| && choices[i].nextStepId != "" {
      var c := choices[i];
      assert Successors(Lookup(steps, stepId).value)[i] == c.nextStepId;
      assert Edge(steps, stepId, c.nextStepId);
      WalkExtends(steps, entry, newPath, c.nextStepId);
      WalkPathSound(steps, entry, c.nextStepId, newPath, w);
      var mid := WalkPath(steps, c.nextStepId, newPath, w);
      if mid.Returned? {
        WalkChoicesSound(steps, entry, choices, i + 1, stepId, newPath, mid.walk);
      }
    }
  }

  // ---------------------------------------------------------------------
  // The summary on success

  /** On success the final walk recorded no error, the entry key was visited,
      every visited key is a completed frame, and the walk is sound. */
  lemma SuccessfulWalk(sc: Scenario)
    requires DfsAllPathsToDebrief(sc).Success?
    ensures var w := FinalWalk(sc);
      && w.errors == []
      && [sc.entryStepId] in w.visited
      && (forall k :: k in w.visited ==> Done(sc.steps, k, w))
      && Sound(sc.steps, sc.entryStepId, w)
      && DfsAllPathsToDebrief(sc).value.reachableSteps == w.reachable
      && DfsAllPathsToDebrief(sc).value.terminalSteps == w.terminals
  {
    var r := WalkPath(sc.steps, sc.entryStepId, [], EmptyWalk);
    EntryFrame(sc);
    WalkPathClean(sc.steps, sc.entryStepId, [], EmptyWalk);
    assert [] + [sc.entryStepId] == [sc.entryStepId];
    WalkPathSound(sc.steps, sc.entryStepId, sc.entryStepId, [], EmptyWalk);
  }

  lemma WalkPrefix(steps: seq<Step>, entry: StepId, p: seq<StepId>)
    requires IsWalk(steps, entry, p) && |p| > 1
    ensures IsWalk(steps, entry, p[..|p| - 1])
    ensures Edge(steps, Last(p[..|p| - 1]), Last(p))
    ensures p[..|p| - 1] + [Last(p)] == p
  {
    var q := p[..|p| - 1];
    forall i | 0 <= i < |q| - 1
      ensures Edge(steps, q[i], q[i + 1])
    {
      assert q[i] == p[i] && q[i + 1] == p[i + 1];
    }
    assert Edge(steps, p[|p| - 2], p[|p| - 1]);
  }

  /** A walk state containing the entry key in which every key is a
      completed frame contains every walk. */
  lemma {:induction false} ClosedContainsWalks(steps: seq<Step>, entry: StepId, w: Walk, p: seq<StepId>)
    requires [entry] in w.visited
    requires forall k :: k in w.visited ==> Done(steps, k, w)
    requires IsWalk(steps, entry, p)
    ensures p in w.visited
    decreases |p|
  {
    if |p| == 1 {
      assert p == [entry];
    } else {
      var q := p[..|p| - 1];
      WalkPrefix(steps, entry, p);
      ClosedContainsWalks(steps, entry, w, q);
      assert Done(steps, q, w);
      assert Last(p) in Successors(Lookup(steps, Last(q)).value);
    }
  }

  /** On success every walk was explored as a frame of the walk. */
  lemma WalksVisited(sc: Scenario, p: seq<StepId>)
    requires DfsAllPathsToDebrief(sc).Success?
    requires IsWalk(sc.steps, sc.entryStepId, p)
    ensures p in FinalWalk(sc).visited
    ensures Done(sc.steps, p, FinalWalk(sc))
  {
    SuccessfulWalk(sc);
    ClosedContainsWalks(sc.steps, sc.entryStepId, FinalWalk(sc), p);
  }

  /** On success the reachable steps are exactly the ends of walks from the
      entry, and no walk exceeds 21 steps. */
  lemma ReachableAreWalkEnds(sc: Scenario)
    requires DfsAllPathsToDebrief(sc).Success?
    ensures var v := DfsAllPathsToDebrief(sc).value;
      && (forall p :: IsWalk(sc.steps, sc.entryStepId, p) ==>
            |p| <= MaxAncestors + 1 && Last(p) in v.reachableSteps)
      && (forall x :: x in v.reachableSteps ==>
            exists p :: IsWalk(sc.steps, sc.entryStepId, p) && Last(p) == x)
  {
    SuccessfulWalk(sc);
    var w := FinalWalk(sc);
    forall p | IsWalk(sc.steps, sc.entryStepId, p)
      ensures |p| <= MaxAncestors + 1 && Last(p) in w.reachable
    {
      WalksVisited(sc, p);
    }
    forall x | x in w.reachable
      ensures exists p :: IsWalk(sc.steps, sc.entryStepId, p) && Last(p) == x
    {
      assert x in Lasts(w.visited);
      var k :| k in w.visited && |k| > 0 && k[|k| - 1] == x;
      assert IsWalk(sc.steps, sc.entryStepId, k);
    }
  }

  /** On success `reachableSteps` is closed under the edges the engine
      follows: every choice target of a reachable branching step, and the
      `next` of a reachable linear step, is reachable; `next` is ignored on a
      step that has choices. */
  lemma ReachableClosed(sc: Scenario, x: StepId)
    requires DfsAllPathsToDebrief(sc).Success?
    requires x in DfsAllPathsToDebrief(sc).value.reachableSteps
    ensures Lookup(sc.steps, x).Some?
    ensures var s := Lookup(sc.steps, x).value;
      && (HasChoices(s) ==> forall j :: 0 <= j < |s.choices| ==>
            s.choices[j].nextStepId in DfsAllPathsToDebrief(sc).value.reachableSteps)
      && (!HasChoices(s) && HasNext(s) ==> s.next.value in DfsAllPathsToDebrief(sc).value.reachableSteps)
  {
    ReachableAreWalkEnds(sc);
    var p :| IsWalk(sc.steps, sc.entryStepId, p) && Last(p) == x;
    assert Lookup(sc.steps, x).Some?;
    WalkEndsClosed(sc.steps, sc.entryStepId, DfsAllPathsToDebrief(sc).value.reachableSteps, p);
  }

  /** A set holding the end of every walk holds the successors of the end of each. */
  lemma WalkEndsClosed(steps: seq<Step>, entry: StepId, ends: set<StepId>, p: seq<StepId>)
    requires forall q :: IsWalk(steps, entry, q) ==> Last(q) in ends
    requires IsWalk(steps, entry, p) && Lookup(steps, Last(p)).Some?
    ensures var s := Lookup(steps, Last(p)).value;
      && (HasChoices(s) ==> forall j :: 0 <= j < |s.choices| ==> s.choices[j].nextStepId in ends)
      && (!HasChoices(s) && HasNext(s) ==> s.next.value in ends)
  {
    var s := Lookup(steps, Last(p)).value;
    forall t | t in Successors(s)
      ensures t in ends
    {
      WalkExtends(steps, entry, p, t);
      assert Last(p + [t]) == t;
    }
    if HasChoices(s) {
      forall j | 0 <= j < |s.choices|
        ensures s.choices[j].nextStepId in ends
      {
        assert Successors(s)[j] == s.choices[j].nextStepId;
      }
    }
  }

  /** On success `terminalSteps` lists every leaf some walk ends on, and
      only reachable leaves that are marked terminal. */
  lemma TerminalsAreWalkLeaves(sc: Scenario)
    requires DfsAllPathsToDebrief(sc).Success?
    ensures var v := DfsAllPathsToDebrief(sc).value;
      && (forall p :: IsWalk(sc.steps, sc.entryStepId, p) && Lookup(sc.steps, Last(p)).Some?
                      && IsLeaf(Lookup(sc.steps, Last(p)).value) ==>
            Last(p) in v.terminalSteps)
      && (forall t :: t in v.terminalSteps ==>
            t in v.reachableSteps && IsLeaf(Lookup(sc.steps, t).value) && Lookup(sc.steps, t).value.terminal)
  {
    SuccessfulWalk(sc);
    var w := FinalWalk(sc);
    forall p | IsWalk(sc.steps, sc.entryStepId, p) && Lookup(sc.steps, Last(p)).Some?
               && IsLeaf(Lookup(sc.steps, Last(p)).value)
      ensures Last(p) in w.terminals
    {
      WalksVisited(sc, p);
    }
  }

  // ---------------------------------------------------------------------
  // What makes the validator fail

  /** A walk that reaches an id naming no step fails the validation. */
  lemma DanglingWalkFails(sc: Scenario, p: seq<StepId>)
    requires IsWalk(sc.steps, sc.entryStepId, p)
    requires Last(p) !in StepIds(sc.steps)
    ensures DfsAllPathsToDebrief(sc).Failure?
  {
    if DfsAllPathsToDebrief(sc).Success? {
      ReachableAreWalkEnds(sc);
    }
  }

  /** A walk that ends on a leaf not marked terminal fails the validation. */
  lemma UnmarkedLeafFails(sc: Scenario, p: seq<StepId>)
    requires IsWalk(sc.steps, sc.entryStepId, p)
    requires Lookup(sc.steps, Last(p)).Some?
    requires IsLeaf(Lookup(sc.steps, Last(p)).value) && !Lookup(sc.steps, Last(p)).value.terminal
    ensures DfsAllPathsToDebrief(sc).Failure?
  {
    if DfsAllPathsToDebrief(sc).Success? {
      TerminalsAreWalkLeaves(sc);
    }
  }

  /** A walk of more than 21 steps (more than 20 ancestors before its last
      step) fails the validation, so any cycle reachable from the entry does. */
  lemma DeepWalkFails(sc: Scenario, p: seq<StepId>)
    requires IsWalk(sc.steps, sc.entryStepId, p)
    requires |p| > MaxAncestors + 1
    ensures DfsAllPathsToDebrief(sc).Failure?
  {
    if DfsAllPathsToDebrief(sc).Success? {
      ReachableAreWalkEnds(sc);
    }
  }

  /** On success the reachable and orphaned steps partition the step ids. */
  lemma ReachableOrphansPartition(sc: Scenario)
    requires DfsAllPathsToDebrief(sc).Success?
    ensures var v := DfsAllPathsToDebrief(sc).value;
      && v.reachableSteps + (set x | x in v.orphanedSteps) == StepIds(sc.steps)
      && v.reachableSteps !! (set x | x in v.orphanedSteps)
  {
  }
}

=== FILE: game_master.dfy ===
/** The game-master simulator: it enumerates the playable paths of a
    scenario (bounded in length and number), replays each path choice by
    choice through the trust/pressure engine, and summarises how many paths
    reach a terminal step. */
module GameMaster {
  import opened Common
  import opened UnifiedTypes
  import opened TrustPressure

  /** Frames deeper than this return without recording anything. */
  const MaxStepsPerPath := 20
  /** Only this many enumerated paths are replayed. */
  const MaxPathsToTest := 50

  const StartTrust := 50
  const StartPressure := 0

  // ---------------------------------------------------------------------
  // Path enumeration

  /** Which continuation the enumerator follows. `AsWritten` is the
      simulator's own rule: a step without choices ends the path, so a
      `next` continuation is never followed. `FollowingNext` also follows
      `next`, ending a path only at a terminal step or a leaf. */
  datatype Mode = AsWritten | FollowingNext

  /** Where the enumeration records a path and stops. */
  predicate EndsPath(mode: Mode, s: Step) {
    match mode
    case AsWritten => s.terminal || !HasChoices(s)
    case FollowingNext => s.terminal || IsLeaf(s)
  }

  /** Where the enumeration goes from a step that does not end the path. */
  function NextIds(mode: Mode, s: Step): (r: seq<StepId>)
    ensures !EndsPath(mode, s) ==> r == Successors(s)
  {
    match mode
    case AsWritten => ChoiceTargets(s.choices)
    case FollowingNext => Successors(s)
  }

  /** The enumeration so far: completed paths in discovery order and the
      path keys seen. */
  datatype Enumeration = Enumeration(paths: seq<seq<StepId>>, visited: set<seq<StepId>>)

  /** Every path recorded from index `from` on is distinct from the others. */
  predicate DistinctFrom(ps: seq<seq<StepId>>, from: nat) {
    forall a, b :: from <= a < b < |ps| ==> ps[a] != ps[b]
  }

  function ExploreMeasure(path: seq<StepId>): nat {
    if |path| > MaxStepsPerPath then 0 else MaxStepsPerPath + 1 - |path|
  }

  /** `explorePath(stepId, currentPath, depth)`, with `depth == |currentPath|`:
      skip past the depth limit and on a key seen before, stop silently on a
      missing step, record the path at a step that ends it, otherwise explore
      each target in order. */
  function Explore(steps: seq<Step>, mode: Mode, stepId: StepId, path: seq<StepId>, e: Enumeration): (r: Enumeration)
    ensures e.visited <= r.visited && e.paths <= r.paths
    ensures forall k :: |e.paths| <= k < |r.paths| ==>
              && path + [stepId] <= r.paths[k]
              && |r.paths[k]| <= MaxStepsPerPath + 1
              && r.paths[k] in r.visited && r.paths[k] !in e.visited
    ensures DistinctFrom(r.paths, |e.paths|)
    decreases ExploreMeasure(path), 1
  {
    var key := path + [stepId];
    if |path| > MaxStepsPerPath || key in e.visited then e
    else
      var e1 := e.(visited := e.visited + {key});
      match Lookup(steps, stepId)
      case None => e1
      case Some(s) =>
        if EndsPath(mode, s) then e1.(paths := e1.paths + [key])
        else ExploreTargets(steps, mode, NextIds(mode, s), 0, key, e1)
  }

  /** The loop over a frame's targets. */
  function ExploreTargets(steps: seq<Step>, mode: Mode, targets: seq<StepId>, i: nat, newPath: seq<StepId>,
                          e: Enumeration): (r: Enumeration)
    requires i <= |targets|
    requires 1 <= |newPath| <= MaxStepsPerPath + 1
    ensures e.visited <= r.visited && e.paths <= r.paths
    ensures forall k :: |e.paths| <= k < |r.paths| ==>
              && newPath < r.paths[k]
              && |r.paths[k]| <= MaxStepsPerPath + 1
              && r.paths[k] in r.visited && r.paths[k] !in e.visited
    ensures DistinctFrom(r.paths, |e.paths|)
    decreases MaxStepsPerPath + 2 - |newPath|, 0, |targets| - i
  {
    if i == |targets| then e
    else
      var mid := Explore(steps, mode, targets[i], newPath, e);
      var r := ExploreTargets(steps, mode, targets, i + 1, newPath, mid);
      assert forall k :: |e.paths| <= k < |mid.paths| ==> r.paths[k] == mid.paths[k];
      r
  }

  /** `generatePaths`: every completed path from the entry, in depth-first order. */
  function GeneratePaths(sc: Scenario, mode: Mode): (r: seq<seq<StepId>>)
    ensures forall k :: 0 <= k < |r| ==> 1 <= |r[k]| <= MaxStepsPerPath + 1 && r[k][0] == sc.entryStepId
    ensures DistinctFrom(r, 0)
  {
    var paths := Explore(sc.steps, mode, sc.entryStepId, [], Enumeration([], {})).paths;
    assert forall k :: 0 <= k < |paths| ==> [] + [sc.entryStepId] <= paths[k];
    paths
  }

  // ---------------------------------------------------------------------
  // Replaying one path

  datatype ReplayError =
    | StepNotFound(id: StepId)
    | NoChoiceLeadsTo(from: StepId, to: StepId)
    | CannotTransition(from: StepId, to: StepId)

  /** What the replay loop accumulates: the conversation state, the ids of
      the choices taken, the trust/pressure traces and the error that ended
      the loop early, if any. */
  datatype Replay = Replay(
    state: ConversationState,
    choiceIds: seq<string>,
    traces: seq<TrustPressureTrace>,
    error: Option<ReplayError>)

  function InitialState(sc: Scenario): ConversationState {
    ConversationState(sc.id, sc.entryStepId, [], StartTrust, StartPressure, [], false, false)
  }

  /** `choices.find(c => c.nextStepId === target)`, as an index. */
  function FindChoice(cs: seq<Choice>, target: StepId): (r: Option<nat>)
    ensures r.None? <==> target !in ChoiceTargets(cs)
    ensures r.Some? ==> r.value < |cs| && cs[r.value].nextStepId == target
    ensures r.Some? ==> forall j :: 0 <= j < r.value ==> cs[j].nextStepId != target
  {
    if cs == [] then None
    else if cs[0].nextStepId == target then Some(0)
    else match FindChoice(cs[1..], target)
      case None => None
      case Some(j) => Some(j + 1)
  }

  /** The replay can move from step `a` to step `b`: `a` exists and either
      has a choice leading to `b` or has no choices and continues to `b`. */
  predicate Connects(steps: seq<Step>, a: StepId, b: StepId) {
    && Lookup(steps, a).Some?
    && var s := Lookup(steps, a).value;
       if HasChoices(s) then b in ChoiceTargets(s.choices) else s.next == Some(b)
  }

  /** Every consecutive pair of `ids` from index `i` on connects. */
  predicate ConnectedFrom(steps: seq<Step>, ids: seq<StepId>, i: nat) {
    forall k :: i <= k < |ids| - 1 ==> Connects(steps, ids[k], ids[k + 1])
  }

  /** 1 when `id` names a branching step, whose move takes one choice. */
  function Branches(steps: seq<Step>, id: StepId): nat {
    if Lookup(steps, id).Some? && HasChoices(Lookup(steps, id).value) then 1 else 0
  }

  /** The number of branching steps among `ids[i..j]`, each of which takes one choice. */
  function BranchCount(steps: seq<Step>, ids: seq<StepId>, i: nat, j: nat): nat
    requires i <= j <= |ids|
    decreases j - i
  {
    if i == j then 0 else Branches(steps, ids[i]) + BranchCount(steps, ids, i + 1, j)
  }

  /** One iteration of the replay loop: move from `cur` to `nxt` through the
      choice that leads there when `cur` branches, or through `next`, and
      otherwise stop with the error that names the failed move. */
  function Advance(steps: seq<Step>, cur: StepId, nxt: StepId, rp: Replay): (r: Replay)
    requires rp.error.None? && ValidState(rp.state)
    ensures ValidState(r.state)
    ensures r.error.None? <==> Connects(steps, cur, nxt)
    ensures r.error.Some? ==> r == rp.(error := r.error)
    ensures r.error.None? ==> |r.choiceIds| == |rp.choiceIds| + Branches(steps, cur)
    ensures |rp.choiceIds| <= |r.choiceIds| && |r.traces| - |rp.traces| == |r.choiceIds| - |rp.choiceIds|
  {
    var st := rp.state;
    match Lookup(steps, cur)
    case None => rp.(error := Some(StepNotFound(cur)))
    case Some(s) =>
      if HasChoices(s) then
        match FindChoice(s.choices, nxt)
        case None => rp.(error := Some(NoChoiceLeadsTo(cur, nxt)))
        case Some(j) =>
          var c := s.choices[j];
          var before := Gauges(st.trust, st.pressure);
          var u := ApplyChoice(before, EffectOf(c));
          var trace := CreateTrace(cur, c.id, before, Gauges(u.trust, u.pressure));
          var st' := st.(currentStepId := nxt, visitedSteps := st.visitedSteps + [cur],
                         trust := u.trust, pressure := u.pressure,
                         choices := st.choices + [ChoiceRecord(cur, c.id)]);
          Replay(st', rp.choiceIds + [c.id], rp.traces + [trace], None)
      else if s.next == Some(nxt) then
        rp.(state := st.(currentStepId := nxt, visitedSteps := st.visitedSteps + [cur]))
      else rp.(error := Some(CannotTransition(cur, nxt)))
  }

  /** The replay loop, from index `i` to the end of the path or the first
      move that fails. */
  function ReplayFrom(steps: seq<Step>, ids: seq<StepId>, i: nat, rp: Replay): (r: Replay)
    requires i <= |ids| && rp.error.None?
    requires ValidState(rp.state)
    ensures ValidState(r.state)
    ensures r.error.None? <==> ConnectedFrom(steps, ids, i)
    ensures r.error.None? ==> |r.choiceIds| == |rp.choiceIds| + BranchCount(steps, ids, i, Max(i, |ids| - 1))
    ensures |rp.choiceIds| <= |r.choiceIds| && |r.traces| - |rp.traces| == |r.choiceIds| - |rp.choiceIds|
    decreases |ids| - i
  {
    if i + 1 >= |ids| then rp
    else
      var nx := Advance(steps, ids[i], ids[i + 1], rp);
      assert ConnectedFrom(steps, ids, i) <==>
             Connects(steps, ids[i], ids[i + 1]) && ConnectedFrom(steps, ids, i + 1);
      if nx.error.Some? then nx else ReplayFrom(steps, ids, i + 1, nx)
  }

  function ReplayPath(sc: Scenario, ids: seq<StepId>): (r: Replay)
    ensures ValidState(r.state)
    ensures r.error.None? <==> ConnectedFrom(sc.steps, ids, 0)
  {
    ReplayFrom(sc.steps, ids, 0, Replay(InitialState(sc), [], [], None))
  }

  datatype PathResult = PathResult(
    steps: seq<StepId>,
    choices: seq<string>,
    finalTrust: int,
    finalPressure: int,
    completedSuccessfully: bool,
    error: Option<ReplayError>)

  /** The last id of `ids` names a step marked terminal. */
  predicate EndsAtTerminal(steps: seq<Step>, ids: seq<StepId>) {
    |ids| > 0 && Lookup(steps, Last(ids)).Some? && Lookup(steps, Last(ids)).value.terminal
  }

  /** `simulatePath`: replay the path; it completes when every transition
      is possible and the final step is terminal. */
  function SimulatePath(sc: Scenario, ids: seq<StepId>): (r: PathResult)
    ensures r.steps == ids
    ensures r.error.None? <==> ConnectedFrom(sc.steps, ids, 0)
    ensures r.completedSuccessfully <==> ConnectedFrom(sc.steps, ids, 0) && EndsAtTerminal(sc.steps, ids)
    ensures InGauge(r.finalTrust) && InGauge(r.finalPressure)
    ensures r.error.None? ==> |r.choices| == BranchCount(sc.steps, ids, 0, Max(0, |ids| - 1))
  {
    var rp := ReplayPath(sc, ids);
    var completed := rp.error.None? && EndsAtTerminal(sc.steps, ids);
    PathResult(ids, rp.choiceIds, rp.state.trust, rp.state.pressure, completed, rp.error)
  }

  // ---------------------------------------------------------------------
  // The scenario summary

  datatype SimulationResult = SimulationResult(
    scenarioId: string,
    success: bool,
    paths: seq<PathResult>,
    totalPaths: nat,
    completedPaths: nat,
    averageSteps: real)

  function SimulateAll(sc: Scenario, ps: seq<seq<StepId>>): (r: seq<PathResult>)
    ensures |r| == |ps|
    ensures forall k :: 0 <= k < |ps| ==> r[k] == SimulatePath(sc, ps[k])
  {
    if ps == [] then [] else [SimulatePath(sc, ps[0])] + SimulateAll(sc, ps[1..])
  }

  /** The positions of the replays that completed. */
  function CompletedIndices(rs: seq<PathResult>): set<nat> {
    set k: nat | k < |rs| && rs[k].completedSuccessfully
  }

  lemma CompletedIndicesSnoc(rs: seq<PathResult>)
    requires rs != []
    ensures var init := rs[..|rs| - 1];
      && CompletedIndices(rs) == CompletedIndices(init) + (if Last(rs).completedSuccessfully then {|rs| - 1} else {})
      && |rs| - 1 !in CompletedIndices(init)
  {
    var init := rs[..|rs| - 1];
    assert forall k :: 0 <= k < |init| ==> init[k] == rs[k];
  }

  /** `paths.filter(p => p.completedSuccessfully).length`. */
  function CountCompleted(rs: seq<PathResult>): (n: nat)
    ensures n == |CompletedIndices(rs)|
    ensures n <= |rs|
    ensures n == 0 <==> forall k :: 0 <= k < |rs| ==> !rs[k].completedSuccessfully
  {
    if rs == [] then 0
    else
      var init := rs[..|rs| - 1];
      var rest := CountCompleted(init);
      assert forall k :: 0 <= k < |init| ==> init[k] == rs[k];
      CompletedIndicesSnoc(rs);
      rest + (if Last(rs).completedSuccessfully then 1 else 0)
  }

  /** The steps of all replays together. */
  function TotalSteps(rs: seq<PathResult>): nat {
    if rs == [] then 0 else |rs[0].steps| + TotalSteps(rs[1..])
  }

  /** When every replay has between `lo` and `hi` steps, so does their mean. */
  lemma {:induction false} TotalStepsBounds(rs: seq<PathResult>, lo: nat, hi: nat)
    requires forall k :: 0 <= k < |rs| ==> lo <= |rs[k].steps| <= hi
    ensures |rs| * lo <= TotalSteps(rs) <= |rs| * hi
  {
    if rs != [] {
      TotalStepsBounds(rs[1..], lo, hi);
    }
  }

  /** `simulateScenario`: replay the first 50 enumerated paths; the scenario
      succeeds when at least one of them completes. */
  function SimulateScenario(sc: Scenario, mode: Mode): (r: SimulationResult)
    ensures r.totalPaths == |GeneratePaths(sc, mode)|
    ensures |r.paths| == Min(r.totalPaths, MaxPathsToTest)
    ensures forall k :: 0 <= k < |r.paths| ==> r.paths[k] == SimulatePath(sc, GeneratePaths(sc, mode)[k])
    ensures r.completedPaths == |CompletedIndices(r.paths)| && r.completedPaths <= |r.paths|
    ensures r.success <==> r.completedPaths > 0
    ensures r.success <==> exists k :: 0 <= k < |r.paths| && r.paths[k].completedSuccessfully
    ensures r.paths == [] ==> r.averageSteps == 0.0
    ensures r.averageSteps == Mean(TotalSteps(r.paths), |r.paths|)
  {
    var all := GeneratePaths(sc, mode);
    var tested := all[..Min(|all|, MaxPathsToTest)];
    var results := SimulateAll(sc, tested);
    var completed := CountCompleted(results);
    var average := Mean(TotalSteps(results), |results|);
    SimulationResult(sc.id, completed > 0, results, |all|, completed, average)
  }
}

=== FILE: game_master_examples.dfy ===
/** The enumerator stops at every step without choices, so it never follows
    a `next` continuation. A two-step linear scenario shows the effect; the
    `FollowingNext` enumeration is proved to reach every terminal step that
    a walk of the scenario graph reaches. */
module GameMasterExamples {
  import opened Common
  import opened UnifiedTypes
  import opened GameMaster
  import opened GameMasterProofs
  import DfsProofs

  const Opening := Step("s1", Scammer, "", [], Some("s2"), false)
  const Closing := Step("s2", System, "", [], None, true)
  const Linear := Scenario("linear", "", Easy, Meta("", "", []), [Opening, Closing], "s1",
                           Debrief("urgency", [], None, None))

  lemma LinearLookups()
    ensures Lookup(Linear.steps, "s1") == Some(Opening)
    ensures Lookup(Linear.steps, "s2") == Some(Closing)
  {
    assert Linear.steps[..1] == [Opening];
  }

  /** As written, the only enumerated path stops at the linear opening step,
      so no path completes although the step it continues to is terminal. */
  lemma AsWrittenMissesLinearRoute()
    ensures GeneratePaths(Linear, AsWritten) == [["s1"]]
    ensures !SimulateScenario(Linear, AsWritten).success
    ensures DfsProofs.IsWalk(Linear.steps, "s1", ["s1", "s2"]) && Closing.terminal
  {
    LinearLookups();
    assert [] + ["s1"] == ["s1"];
    assert Explore(Linear.steps, AsWritten, "s1", [], Enumeration([], {})).paths == [["s1"]];
    assert SimulatePath(Linear, ["s1"]).completedSuccessfully == false;
    assert DfsProofs.Edge(Linear.steps, "s1", "s2");
  }

  /** Following `next`, the linear route is enumerated and completes. */
  lemma FollowingNextCompletesLinearRoute()
    ensures GeneratePaths(Linear, FollowingNext) == [["s1", "s2"]]
    ensures SimulateScenario(Linear, FollowingNext).success
  {
    LinearLookups();
    var e1 := Enumeration([], {["s1"]});
    assert [] + ["s1"] == ["s1"];
    assert ["s1"] + ["s2"] == ["s1", "s2"];
    assert Explore(Linear.steps, FollowingNext, "s2", ["s1"], e1).paths == [["s1", "s2"]];
    assert ExploreTargets(Linear.steps, FollowingNext, ["s2"], 0, ["s1"], e1).paths == [["s1", "s2"]];
    assert Explore(Linear.steps, FollowingNext, "s1", [], Enumeration([], {})).paths == [["s1", "s2"]];
    GeneratedPathsReplay(Linear, FollowingNext, 0);
  }

  /** Following `next`, every walk of the scenario graph of at most 21 steps
      that reaches a terminal step without passing another terminal step is
      enumerated and completes when replayed. */
  lemma TerminalWalksComplete(sc: Scenario, p: seq<StepId>)
    requires DfsProofs.IsWalk(sc.steps, sc.entryStepId, p) && |p| <= MaxStepsPerPath + 1
    requires EndsAtTerminal(sc.steps, p)
    requires forall i :: 0 <= i < |p| - 1 ==>
               Lookup(sc.steps, p[i]).Some? && !Lookup(sc.steps, p[i]).value.terminal
    ensures p in GeneratePaths(sc, FollowingNext)
    ensures SimulatePath(sc, p).completedSuccessfully
  {
    forall i | 0 <= i < |p| - 1
      ensures Lookup(sc.steps, p[i]).Some? && !EndsPath(FollowingNext, Lookup(sc.steps, p[i]).value)
              && p[i + 1] in NextIds(FollowingNext, Lookup(sc.steps, p[i]).value)
    {
      assert DfsProofs.Edge(sc.steps, p[i], p[i + 1]);
    }
    assert IsPlay(sc.steps, FollowingNext, sc.entryStepId, p);
    GeneratedArePlays(sc, FollowingNext);
    PlayConnects(sc.steps, FollowingNext, sc.entryStepId, p);
  }
}

=== FILE: game_master_proofs.dfy ===
/** What the path enumerator produces, stated against an independent
    definition of a play, and how enumerated paths replay. */
module GameMasterProofs {
  import opened Common
  import opened UnifiedTypes
  import opened TrustPressure
  import opened GameMaster

  /** `k` starts at the entry and each of its steps but the last exists,
      does not end a path and leads to the following id. */
  predicate IsPrefixPlay(steps: seq<Step>, mode: Mode, entry: StepId, k: seq<StepId>) {
    && |k| >= 1
    && k[0] == entry
    && forall i :: 0 <= i < |k| - 1 ==>
         && Lookup(steps, k[i]).Some?
         && !EndsPath(mode, Lookup(steps, k[i]).value)
         && k[i + 1] in NextIds(mode, Lookup(steps, k[i]).value)
  }

  /** A complete play: a prefix play whose last step exists and ends the path. */
  predicate IsPlay(steps: seq<Step>, mode: Mode, entry: StepId, q: seq<StepId>) {
    && IsPrefixPlay(steps, mode, entry, q)
    && Lookup(steps, Last(q)).Some?
    && EndsPath(mode, Lookup(steps, Last(q)).value)
  }

  lemma PrefixPlayExtends(steps: seq<Step>, mode: Mode, entry: StepId, k: seq<StepId>, t: StepId)
    requires IsPrefixPlay(steps, mode, entry, k)
    requires Lookup(steps, Last(k)).Some? && !EndsPath(mode, Lookup(steps, Last(k)).value)
    requires t in NextIds(mode, Lookup(steps, Last(k)).value)
    ensures IsPrefixPlay(steps, mode, entry, k + [t])
  {
    var q := k + [t];
    forall i | 0 <= i < |q| - 1
      ensures Lookup(steps, q[i]).Some? && !EndsPath(mode, Lookup(steps, q[i]).value)
              && q[i + 1] in NextIds(mode, Lookup(steps, q[i]).value)
    {
      assert q[i] == k[i];
    }
  }

  // ---------------------------------------------------------------------
  // Soundness: every recorded path is a play

  /** Every path recorded from index `from` on is a play. */
  predicate PlaysFrom(steps: seq<Step>, mode: Mode, entry: StepId, ps: seq<seq<StepId>>, from: nat) {
    forall k :: from <= k < |ps| ==> IsPlay(steps, mode, entry, ps[k])
  }

  lemma {:induction false} ExploreSound(steps: seq<Step>, mode: Mode, entry: StepId, stepId: StepId,
                                        path: seq<StepId>, e: Enumeration)
    requires IsPrefixPlay(steps, mode, entry, path + [stepId])
    ensures PlaysFrom(steps, mode, entry, Explore(steps, mode, stepId, path, e).paths, |e.paths|)
    decreases ExploreMeasure(path), 1
  {
    var key := path + [stepId];
    if |path| <= MaxStepsPerPath && key !in e.visited {
      var e1 := e.(visited := e.visited + {key});
      if Lookup(steps, stepId).Some? {
        var s := Lookup(steps, stepId).value;
        if !EndsPath(mode, s) {
          ExploreTargetsSound(steps, mode, entry, NextIds(mode, s), 0, key, e1);
        }
      }
    }
  }

  lemma {:induction false} ExploreTargetsSound(steps: seq<Step>, mode: Mode, entry: StepId, targets: seq<StepId>,
                                               i: nat, newPath: seq<StepId>, e: Enumeration)
    requires i <= |targets|
    requires 1 <= |newPath| <= MaxStepsPerPath + 1
    requires IsPrefixPlay(steps, mode, entry, newPath)
    requires Lookup(steps, Last(newPath)).Some? && !EndsPath(mode, Lookup(steps, Last(newPath)).value)
    requires targets == NextIds(mode, Lookup(steps, Last(newPath)).value)
    ensures PlaysFrom(steps, mode, entry, ExploreTargets(steps, mode, targets, i, newPath, e).paths, |e.paths|)
    decreases MaxStepsPerPath + 2 - |newPath|, 0, |targets| - i
  {
    if i < |targets| {
      PrefixPlayExtends(steps, mode, entry, newPath, targets[i]);
      ExploreSound(steps, mode, entry, targets[i], newPath, e);
      var mid := Explore(steps, mode, targets[i], newPath, e);
      ExploreTargetsSound(steps, mode, entry, targets, i + 1, newPath, mid);
      var r := ExploreTargets(steps, mode, targets, i + 1, newPath, mid);
      forall k | |e.paths| <= k < |r.paths|
        ensures IsPlay(steps, mode, entry, r.paths[k])
      {
        if k < |mid.paths| {
          assert r.paths[k] == mid.paths[k];
        }
      }
    }
  }

  // ---------------------------------------------------------------------
  // Completeness: every play within the length bound is recorded

  /** The frame keyed `k` has run to completion: a missing step records
      nothing, a path-ending step has recorded `k`, and otherwise every
      target's key has been visited (unless the depth limit stops them). */
  predicate Explored(steps: seq<Step>, mode: Mode, k: seq<StepId>, e: Enumeration) {
    && |k| >= 1
    && (Lookup(steps, Last(k)).Some? ==>
          var s := Lookup(steps, Last(k)).value;
          && (EndsPath(mode, s) ==> k in e.paths)
          && (!EndsPath(mode, s) && |k| <= MaxStepsPerPath ==>
                forall t :: t in NextIds(mode, s) ==> k + [t] in e.visited))
  }

  /** Every key a call added to `visited` has been explored. */
  predicate NewKeysExplored(steps: seq<Step>, mode: Mode, e: Enumeration, e': Enumeration) {
    forall k :: k in e'.visited && k !in e.visited ==> Explored(steps, mode, k, e')
  }

  lemma ExploredGrows(steps: seq<Step>, mode: Mode, k: seq<StepId>, e: Enumeration, e': Enumeration)
    requires Explored(steps, mode, k, e)
    requires e.visited <= e'.visited && e.paths <= e'.paths
    ensures Explored(steps, mode, k, e')
  {
    if Lookup(steps, Last(k)).Some? && EndsPath(mode, Lookup(steps, Last(k)).value) {
      var i :| 0 <= i < |e.paths| && e.paths[i] == k;
      assert e'.paths[i] == k;
    }
  }

  lemma NewKeysExploredChain(steps: seq<Step>, mode: Mode, e0: Enumeration, e1: Enumeration, e2: Enumeration)
    requires e0.visited <= e1.visited && e1.visited <= e2.visited && e1.paths <= e2.paths
    requires NewKeysExplored(steps, mode, e0, e1) && NewKeysExplored(steps, mode, e1, e2)
    ensures NewKeysExplored(steps, mode, e0, e2)
  {
    forall k | k in e2.visited && k !in e0.visited
      ensures Explored(steps, mode, k, e2)
    {
      if k in e1.visited {
        ExploredGrows(steps, mode, k, e1, e2);
      }
    }
  }

  lemma {:induction false} ExploreComplete(steps: seq<Step>, mode: Mode, stepId: StepId, path: seq<StepId>,
                                           e: Enumeration)
    ensures var r := Explore(steps, mode, stepId, path, e);
      && NewKeysExplored(steps, mode, e, r)
      && (|path| <= MaxStepsPerPath ==> path + [stepId] in r.visited)
    decreases ExploreMeasure(path), 1
  {
    var key := path + [stepId];
    var r := Explore(steps, mode, stepId, path, e);
    if |path| <= MaxStepsPerPath && key !in e.visited {
      var e1 := e.(visited := e.visited + {key});
      if Lookup(steps, stepId).Some? {
        var s := Lookup(steps, stepId).value;
        if !EndsPath(mode, s) {
          ExploreTargetsComplete(steps, mode, NextIds(mode, s), 0, key, e1);
          forall k | k in r.visited && k !in e.visited
            ensures Explored(steps, mode, k, r)
          {
            if k != key {
              assert k !in e1.visited;
            } else if |key| <= MaxStepsPerPath {
              forall t | t in NextIds(mode, s)
                ensures k + [t] in r.visited
              {
                var j :| 0 <= j < |NextIds(mode, s)| && NextIds(mode, s)[j] == t;
              }
            }
          }
        } else {
          assert r.paths[|r.paths| - 1] == key;
        }
      }
    }
  }

  lemma {:induction false} ExploreTargetsComplete(steps: seq<Step>, mode: Mode, targets: seq<StepId>, i: nat,
                                                  newPath: seq<StepId>, e: Enumeration)
    requires i <= |targets|
    requires 1 <= |newPath| <= MaxStepsPerPath + 1
    ensures var r := ExploreTargets(steps, mode, targets, i, newPath, e);
      && NewKeysExplored(steps, mode, e, r)
      && (|newPath| <= MaxStepsPerPath ==> forall j :: i <= j < |targets| ==> newPath + [targets[j]] in r.visited)
    decreases MaxStepsPerPath + 2 - |newPath|, 0, |targets| - i
  {
    if i < |targets| {
      ExploreComplete(steps, mode, targets[i], newPath, e);
      var mid := Explore(steps, mode, targets[i], newPath, e);
      ExploreTargetsComplete(steps, mode, targets, i + 1, newPath, mid);
      var r := ExploreTargets(steps, mode, targets, i + 1, newPath, mid);
      NewKeysExploredChain(steps, mode, e, mid, r);
    }
  }

  /** The final enumeration: the entry key is visited and every visited key explored. */
  lemma FinalEnumeration(sc: Scenario, mode: Mode)
    ensures var r := Explore(sc.steps, mode, sc.entryStepId, [], Enumeration([], {}));
      && [sc.entryStepId] in r.visited
      && (forall k :: k in r.visited ==> Explored(sc.steps, mode, k, r))
  {
    ExploreComplete(sc.steps, mode, sc.entryStepId, [], Enumeration([], {}));
    assert [] + [sc.entryStepId] == [sc.entryStepId];
  }

  lemma PrefixPlayPrefix(steps: seq<Step>, mode: Mode, entry: StepId, k: seq<StepId>)
    requires IsPrefixPlay(steps, mode, entry, k) && |k| > 1
    ensures IsPrefixPlay(steps, mode, entry, k[..|k| - 1])
    ensures var p := k[..|k| - 1];
      && Lookup(steps, Last(p)).Some? && !EndsPath(mode, Lookup(steps, Last(p)).value)
      && Last(k) in NextIds(mode, Lookup(steps, Last(p)).value)
      && p + [Last(k)] == k
  {
    var p := k[..|k| - 1];
    forall i | 0 <= i < |p| - 1
      ensures Lookup(steps, p[i]).Some? && !EndsPath(mode, Lookup(steps, p[i]).value)
              && p[i + 1] in NextIds(mode, Lookup(steps, p[i]).value)
    {
      assert p[i] == k[i] && p[i + 1] == k[i + 1];
    }
    assert Last(p) == k[|k| - 2];
  }

  /** An enumeration holding the entry key, in which every key is explored,
      holds every prefix play within the length bound. */
  lemma {:induction false} ClosedHoldsPrefixPlays(steps: seq<Step>, mode: Mode, entry: StepId, e: Enumeration,
                                                  k: seq<StepId>)
    requires [entry] in e.visited
    requires forall x :: x in e.visited ==> Explored(steps, mode, x, e)
    requires IsPrefixPlay(steps, mode, entry, k) && |k| <= MaxStepsPerPath + 1
    ensures k in e.visited
    decreases |k|
  {
    if |k| == 1 {
      assert k == [entry];
    } else {
      var p := k[..|k| - 1];
      PrefixPlayPrefix(steps, mode, entry, k);
      ClosedHoldsPrefixPlays(steps, mode, entry, e, p);
      assert Explored(steps, mode, p, e);
    }
  }

  /** The enumerated paths are exactly the plays of at most 21 steps, each
      listed once. */
  lemma GeneratedArePlays(sc: Scenario, mode: Mode)
    ensures var ps := GeneratePaths(sc, mode);
      && (forall q :: q in ps <==> IsPlay(sc.steps, mode, sc.entryStepId, q) && |q| <= MaxStepsPerPath + 1)
      && DistinctFrom(ps, 0)
  {
    var e0 := Enumeration([], {});
    var r := Explore(sc.steps, mode, sc.entryStepId, [], e0);
    assert [] + [sc.entryStepId] == [sc.entryStepId];
    ExploreSound(sc.steps, mode, sc.entryStepId, sc.entryStepId, [], e0);
    FinalEnumeration(sc, mode);
    forall q | IsPlay(sc.steps, mode, sc.entryStepId, q) && |q| <= MaxStepsPerPath + 1
      ensures q in r.paths
    {
      ClosedHoldsPrefixPlays(sc.steps, mode, sc.entryStepId, r, q);
      assert Explored(sc.steps, mode, q, r);
    }
  }

  // ---------------------------------------------------------------------
  // Replaying enumerated paths

  /** A play never breaks the replay: each step it leaves is connected to
      the next one. */
  lemma PlayConnects(steps: seq<Step>, mode: Mode, entry: StepId, q: seq<StepId>)
    requires IsPrefixPlay(steps, mode, entry, q)
    ensures ConnectedFrom(steps, q, 0)
  {
    forall k | 0 <= k < |q| - 1
      ensures Connects(steps, q[k], q[k + 1])
    {
      var s := Lookup(steps, q[k]).value;
      assert q[k + 1] in Successors(s);
    }
  }

  lemma GeneratedPathIsPlay(sc: Scenario, mode: Mode, k: nat)
    requires k < |GeneratePaths(sc, mode)|
    ensures IsPlay(sc.steps, mode, sc.entryStepId, GeneratePaths(sc, mode)[k])
  {
    GeneratedArePlays(sc, mode);
    assert GeneratePaths(sc, mode)[k] in GeneratePaths(sc, mode);
  }

  /** Every enumerated path replays without error, and completes exactly
      when its final step is marked terminal. */
  lemma GeneratedPathsReplay(sc: Scenario, mode: Mode, k: nat)
    requires k < |GeneratePaths(sc, mode)|
    ensures var q := GeneratePaths(sc, mode)[k];
      && SimulatePath(sc, q).error.None?
      && (SimulatePath(sc, q).completedSuccessfully <==> EndsAtTerminal(sc.steps, q))
  {
    var q := GeneratePaths(sc, mode)[k];
    GeneratedPathIsPlay(sc, mode, k);
    PlayConnects(sc.steps, mode, sc.entryStepId, q);
  }

  /** The simulation succeeds exactly when one of the first 50 enumerated
      paths ends on a step marked terminal. */
  lemma SimulationSucceedsIff(sc: Scenario, mode: Mode)
    ensures var ps := GeneratePaths(sc, mode);
      SimulateScenario(sc, mode).success <==>
        exists k :: 0 <= k < Min(|ps|, MaxPathsToTest) && EndsAtTerminal(sc.steps, ps[k])
  {
    var ps := GeneratePaths(sc, mode);
    var r := SimulateScenario(sc, mode);
    forall k | 0 <= k < |r.paths|
      ensures r.paths[k].completedSuccessfully <==> EndsAtTerminal(sc.steps, ps[k])
    {
      GeneratedPathsReplay(sc, mode, k);
    }
  }

  /** Every replayed path has between 1 and 21 steps, so the average number
      of steps of a non-empty run lies in that range too. */
  lemma AverageStepsInRange(sc: Scenario, mode: Mode)
    ensures var r := SimulateScenario(sc, mode);
      r.paths != [] ==> 1.0 <= r.averageSteps <= (MaxStepsPerPath + 1) as real
  {
    var r := SimulateScenario(sc, mode);
    if r.paths != [] {
      var ps := GeneratePaths(sc, mode);
      var hi := MaxStepsPerPath + 1;
      forall k | 0 <= k < |r.paths|
        ensures 1 <= |r.paths[k].steps| <= hi
      {
        assert r.paths[k] == SimulatePath(sc, ps[k]);
        assert 1 <= |ps[k]| <= hi;
      }
      TotalStepsBounds(r.paths, 1, hi);
      MeanBetween(TotalSteps(r.paths), |r.paths|, 1, hi);
    }
  }

  // ---------------------------------------------------------------------
  // Traces

  /** Each trace starts from the gauges the previous one ended with; the
      first starts at `start` and the last ends at `end`. */
  predicate Chained(traces: seq<TrustPressureTrace>, start: Gauges, end: Gauges) {
    if traces == [] then start == end
    else
      && Gauges(traces[0].trustBefore, traces[0].pressureBefore) == start
      && Gauges(Last(traces).trustAfter, Last(traces).pressureAfter) == end
      && forall k :: 0 < k < |traces| ==>
           traces[k].trustBefore == traces[k - 1].trustAfter && traces[k].pressureBefore == traces[k - 1].pressureAfter
  }

  /** A trace that starts where a chain ends extends it. */
  lemma ChainedAppend(traces: seq<TrustPressureTrace>, start: Gauges, mid: Gauges, t: TrustPressureTrace)
    requires Chained(traces, start, mid)
    requires Gauges(t.trustBefore, t.pressureBefore) == mid
    ensures Chained(traces + [t], start, Gauges(t.trustAfter, t.pressureAfter))
  {
    var ts := traces + [t];
    assert Last(ts) == t;
    if traces != [] {
      assert ts[0] == traces[0];
      forall k | 0 < k < |ts|
        ensures ts[k].trustBefore == ts[k - 1].trustAfter && ts[k].pressureBefore == ts[k - 1].pressureAfter
      {
        if k < |traces| {
          assert ts[k] == traces[k] && ts[k - 1] == traces[k - 1];
        }
      }
    }
  }

  /** One move of the replay extends the chain of traces to the new gauges. */
  lemma AdvanceChains(steps: seq<Step>, cur: StepId, nxt: StepId, rp: Replay, start: Gauges)
    requires rp.error.None? && ValidState(rp.state)
    requires Chained(rp.traces, start, Gauges(rp.state.trust, rp.state.pressure))
    ensures var r := Advance(steps, cur, nxt, rp);
      Chained(r.traces, start, Gauges(r.state.trust, r.state.pressure))
  {
    if Lookup(steps, cur).Some? {
      var s := Lookup(steps, cur).value;
      var st := rp.state;
      if HasChoices(s) {
        var f := FindChoice(s.choices, nxt);
        if f.Some? {
          var c := s.choices[f.value];
          var before := Gauges(st.trust, st.pressure);
          var u := ApplyChoice(before, EffectOf(c));
          ChainedAppend(rp.traces, start, before, CreateTrace(cur, c.id, before, Gauges(u.trust, u.pressure)));
        }
      }
    }
  }

  lemma {:induction false} ReplayFromChains(steps: seq<Step>, ids: seq<StepId>, i: nat, rp: Replay, start: Gauges)
    requires i <= |ids| && rp.error.None? && ValidState(rp.state)
    requires Chained(rp.traces, start, Gauges(rp.state.trust, rp.state.pressure))
    ensures var r := ReplayFrom(steps, ids, i, rp);
      Chained(r.traces, start, Gauges(r.state.trust, r.state.pressure))
    decreases |ids| - i
  {
    if i + 1 < |ids| {
      var nx := Advance(steps, ids[i], ids[i + 1], rp);
      AdvanceChains(steps, ids[i], ids[i + 1], rp, start);
      if nx.error.None? {
        ReplayFromChains(steps, ids, i + 1, nx, start);
      }
    }
  }

  /** A replay's traces chain from the starting gauges (trust 50, pressure
      0) to the gauges the path result reports. */
  lemma SimulatedTracesChain(sc: Scenario, ids: seq<StepId>)
    ensures var rp := ReplayPath(sc, ids);
      && Chained(rp.traces, Gauges(StartTrust, StartPressure), Gauges(rp.state.trust, rp.state.pressure))
      && rp.state.trust == SimulatePath(sc, ids).finalTrust
      && rp.state.pressure == SimulatePath(sc, ids).finalPressure
  {
    ReplayFromChains(sc.steps, ids, 0, Replay(InitialState(sc), [], [], None), Gauges(StartTrust, StartPressure));
  }
}

=== FILE: text.dfy ===
/** String helpers the legacy converter relies on: ASCII lower-casing,
    substring search (`String.prototype.includes`) and the decimal rendering
    of natural numbers used in template literals such as `s${n}`. */
module Text {

  /** Lower-cases the ASCII letters of `s` and leaves every other character alone. */
  function LowerAscii(s: string): (r: string)
    ensures |r| == |s|
    ensures forall i :: 0 <= i < |s| ==> r[i] == LowerChar(s[i])
  {
    if s == [] then [] else [LowerChar(s[0])] + LowerAscii(s[1..])
  }

  function LowerChar(c: char): char {
    if 'A' <= c <= 'Z' then (c as int + 32) as char else c
  }

  /** `pat` occurs in `text` starting at index `i`. */
  predicate OccursAt(text: string, pat: string, i: nat) {
    i + |pat| <= |text| && text[i..i + |pat|] == pat
  }

  /** `text.includes(pat)`. */
  predicate Contains(text: string, pat: string)
    decreases |text|
  {
    if |pat| > |text| then false
    else if text[..|pat|] == pat then true
    else text != [] && Contains(text[1..], pat)
  }

  /** `Contains` holds exactly when `pat` occurs at some position of `text`. */
  lemma {:induction false} ContainsIffOccurs(text: string, pat: string)
    ensures Contains(text, pat) <==> exists i: nat :: OccursAt(text, pat, i)
    decreases |text|
  {
    if |pat| > |text| {
    } else if text[..|pat|] == pat {
      assert OccursAt(text, pat, 0);
    } else {
      ContainsIffOccurs(text[1..], pat);
      if Contains(text[1..], pat) {
        var i: nat :| OccursAt(text[1..], pat, i);
        assert text[i + 1..i + 1 + |pat|] == text[1..][i..i + |pat|];
        assert OccursAt(text, pat, i + 1);
      } else {
        forall i: nat | OccursAt(text, pat, i)
          ensures false
        {
          if i == 0 {
            assert false;
          } else {
            assert text[1..][i - 1..i - 1 + |pat|] == text[i..i + |pat|];
            assert OccursAt(text[1..], pat, i - 1);
          }
        }
      }
    }
  }

  function DigitChar(d: nat): char
    requires d < 10
  {
    ('0' as int + d) as char
  }

  function DigitValue(c: char): int {
    c as int - '0' as int
  }

  /** The decimal rendering of `n`, as JavaScript prints a non-negative integer. */
  function NatToString(n: nat): (r: string)
    ensures |r| >= 1
    ensures forall i :: 0 <= i < |r| ==> '0' <= r[i] <= '9'
    ensures |r| > 1 ==> r[0] != '0'
  {
    if n < 10 then [DigitChar(n)] else NatToString(n / 10) + [DigitChar(n % 10)]
  }

  /** Reads a string of decimal digits back as a number. */
  function ParseDecimal(s: string): int {
    if s == [] then 0 else ParseDecimal(s[..|s| - 1]) * 10 + DigitValue(s[|s| - 1])
  }

  /** Reading back the rendering of `n` yields `n`. */
  lemma {:induction false} ParseNatToString(n: nat)
    ensures ParseDecimal(NatToString(n)) == n
  {
    if n >= 10 {
      var s := NatToString(n);
      assert s[..|s| - 1] == NatToString(n / 10);
      ParseNatToString(n / 10);
    }
  }

  /** Distinct numbers render to distinct strings. */
  lemma NatToStringInjective(m: nat, n: nat)
    requires m != n
    ensures NatToString(m) != NatToString(n)
  {
    ParseNatToString(m);
    ParseNatToString(n);
  }
}

=== FILE: trust_pressure.dfy ===
/** The trust/pressure transition function: how one choice moves the two
    gauges, how the new values are classified into zones, which feedback
    bucket is selected and whether a haptic pulse fires; plus the two debrief
    analyses over a finished playthrough. */
module TrustPressure {
  import opened Common
  import opened UnifiedTypes

  /** `TARGET_RANGE`: the trust band a well-calibrated learner stays in. */
  const TargetMin := 40
  const TargetMax := 60

  /** Fixed, deliberately asymmetric trust adjustments. */
  const TrustingStep := 12
  const SkepticalStep := 8
  const NudgeStep := 3

  /** Upper bounds of the safe, caution and danger pressure zones. */
  const SafeMax := 30
  const CautionMax := 60
  const DangerMax := 80

  /** A rise of at least this much fires the haptic pulse; a raw delta of
      this magnitude selects the spike/reduced feedback. */
  const HapticRise := 5

  datatype TrustZone = TooLow | Optimal | TooHigh
  datatype PressureZone = Safe | Caution | Danger | Critical

  /** Which trust feedback message is shown; the wording is presentation. */
  datatype TrustFeedback =
    | TrustingTooEasily   // too high, and the hint was too_trusting
    | TrustLevelHigh      // too high, other hint
    | HealthySkepticism   // too low, and the hint was too_skeptical
    | TrustLevelLow       // too low, other hint
    | GoodJudgment        // optimal, and the hint was appropriate
    | OnTarget            // optimal, other hint

  /** Which pressure feedback message is shown. */
  datatype PressureFeedback = Spike | Reduced | HighPressure | Building | Moderate | LowPressure

  /** The gauges a transition starts from. */
  datatype Gauges = Gauges(trust: int, pressure: int)

  /** The part of a choice the transition reads. */
  datatype Effect = Effect(pressureDelta: int, trustHint: TrustHint)

  /** `TrustPressureUpdate`. */
  datatype Update = Update(
    trust: int,
    pressure: int,
    trustZone: TrustZone,
    pressureZone: PressureZone,
    trustFeedback: TrustFeedback,
    pressureFeedback: PressureFeedback,
    shouldTriggerHaptic: bool)

  function EffectOf(c: Choice): Effect {
    Effect(c.pressureDelta, c.trustHint)
  }

  /** Defensive clamp of a pressure delta to the authored range. */
  function ClampPressure(delta: int): (r: int)
    ensures DeltaInRange(r)
    ensures DeltaInRange(delta) ==> r == delta
    ensures delta > MaxPressureDelta ==> r == MaxPressureDelta
    ensures delta < -MaxPressureDelta ==> r == -MaxPressureDelta
  {
    Clamp(delta, -MaxPressureDelta, MaxPressureDelta)
  }

  /** The pressure after applying a (clamped) delta, kept within the gauge. */
  function NextPressure(pressure: int, delta: int): (r: int)
    ensures InGauge(r)
    ensures InGauge(pressure + ClampPressure(delta)) ==> r == pressure + ClampPressure(delta)
  {
    Clamp(pressure + ClampPressure(delta), GaugeMin, GaugeMax)
  }

  /** The trust after a choice; it depends on the hint only. */
  function NextTrust(trust: int, hint: TrustHint): int {
    match hint
    case TooTrusting => Min(GaugeMax, trust + TrustingStep)
    case TooSkeptical => Max(GaugeMin, trust - SkepticalStep)
    case Appropriate =>
      if trust < TargetMin then Min(TargetMax, trust + NudgeStep)
      else if trust > TargetMax then Max(TargetMin, trust - NudgeStep)
      else trust
  }

  function ClassifyTrust(trust: int): TrustZone {
    if trust < TargetMin then TooLow
    else if trust > TargetMax then TooHigh
    else Optimal
  }

  function ClassifyPressure(pressure: int): PressureZone {
    if pressure <= SafeMax then Safe
    else if pressure <= CautionMax then Caution
    else if pressure <= DangerMax then Danger
    else Critical
  }

  /** The hint that agrees with a zone: trusting for too high, skeptical
      for too low, appropriate for optimal. */
  function HintOfZone(zone: TrustZone): TrustHint {
    match zone
    case TooHigh => TooTrusting
    case TooLow => TooSkeptical
    case Optimal => Appropriate
  }

  function ZoneOfTrustFeedback(f: TrustFeedback): TrustZone {
    match f
    case TrustingTooEasily | TrustLevelHigh => TooHigh
    case HealthySkepticism | TrustLevelLow => TooLow
    case GoodJudgment | OnTarget => Optimal
  }

  /** The buckets that comment on the hint rather than print the level. */
  predicate NamesTheHint(f: TrustFeedback) {
    f.TrustingTooEasily? || f.HealthySkepticism? || f.GoodJudgment?
  }

  /** `generateTrustFeedback`, bucket selection only: the zone picks a pair
      of messages, and the hint picks within the pair. */
  function SelectTrustFeedback(zone: TrustZone, hint: TrustHint): (r: TrustFeedback)
    ensures ZoneOfTrustFeedback(r) == zone
    ensures NamesTheHint(r) <==> hint == HintOfZone(zone)
  {
    match zone
    case TooHigh => if hint == TooTrusting then TrustingTooEasily else TrustLevelHigh
    case TooLow => if hint == TooSkeptical then HealthySkepticism else TrustLevelLow
    case Optimal => if hint == Appropriate then GoodJudgment else OnTarget
  }

  function ZoneFeedback(zone: PressureZone): PressureFeedback {
    match zone
    case Critical => HighPressure
    case Danger => Building
    case Caution => Moderate
    case Safe => LowPressure
  }

  /** `generatePressureFeedback`, bucket selection only: the RAW delta is
      looked at first, the zone only when the delta is small. */
  function SelectPressureFeedback(zone: PressureZone, delta: int): (r: PressureFeedback)
    ensures r == Spike <==> delta >= HapticRise
    ensures r == Reduced <==> delta <= -HapticRise
    ensures -HapticRise < delta < HapticRise ==> r == ZoneFeedback(zone)
  {
    if delta >= HapticRise then Spike
    else if delta <= -HapticRise then Reduced
    else ZoneFeedback(zone)
  }

  /** `applyChoice`: total over all integers; callers keep the gauges in range. */
  function ApplyChoice(state: Gauges, choice: Effect): (r: Update)
    ensures InGauge(r.pressure)
    ensures r.pressure == NextPressure(state.pressure, choice.pressureDelta)
    ensures r.trust == NextTrust(state.trust, choice.trustHint)
    ensures InGauge(state.trust) ==> InGauge(r.trust)
    ensures r.trustZone == ClassifyTrust(r.trust)
    ensures r.pressureZone == ClassifyPressure(r.pressure)
    ensures r.trustFeedback == SelectTrustFeedback(r.trustZone, choice.trustHint)
    ensures r.pressureFeedback == SelectPressureFeedback(r.pressureZone, choice.pressureDelta)
    ensures r.shouldTriggerHaptic <==> r.pressure - state.pressure >= HapticRise
  {
    var newPressure := NextPressure(state.pressure, choice.pressureDelta);
    var newTrust := NextTrust(state.trust, choice.trustHint);
    var trustZone := ClassifyTrust(newTrust);
    var pressureZone := ClassifyPressure(newPressure);
    Update(
      newTrust,
      newPressure,
      trustZone,
      pressureZone,
      SelectTrustFeedback(trustZone, choice.trustHint),
      SelectPressureFeedback(pressureZone, choice.pressureDelta),
      newPressure - state.pressure >= HapticRise)
  }

  // ---------------------------------------------------------------------
  // Properties of the transition

  /** How far `t` lies outside the target band (0 inside it). */
  function DistanceToTarget(t: int): nat {
    if t < TargetMin then TargetMin - t
    else if t > TargetMax then t - TargetMax
    else 0
  }

  /** too_trusting never lowers trust and never exceeds 100; too_skeptical
      never raises trust and never drops below 0. */
  lemma TrustMovesWithHint(t: int)
    ensures NextTrust(t, TooTrusting) <= GaugeMax
    ensures t <= GaugeMax ==> t <= NextTrust(t, TooTrusting)
    ensures t <= GaugeMax - TrustingStep ==> NextTrust(t, TooTrusting) == t + TrustingStep
    ensures NextTrust(t, TooSkeptical) >= GaugeMin
    ensures t >= GaugeMin ==> NextTrust(t, TooSkeptical) <= t
    ensures t >= GaugeMin + SkepticalStep ==> NextTrust(t, TooSkeptical) == t - SkepticalStep
  {
  }

  /** appropriate moves trust 3 points toward the target band, never past
      its far edge, and leaves trust inside the band untouched. The caps at
      60 and 40 in the source never bind: from below 40 a 3-point rise stays
      below 43. */
  lemma AppropriateNudgesTowardTarget(t: int)
    ensures var r := NextTrust(t, Appropriate);
      && DistanceToTarget(r) == Max(0, DistanceToTarget(t) - NudgeStep)
      && (TargetMin <= t <= TargetMax ==> r == t)
      && (t < TargetMin ==> t < r <= t + NudgeStep && r <= TargetMax)
      && (t > TargetMax ==> t - NudgeStep <= r < t && r >= TargetMin)
  {
  }

  /** Zones partition the gauge and are ordered the way the values are. */
  function PressureRank(z: PressureZone): nat {
    match z
    case Safe => 0
    case Caution => 1
    case Danger => 2
    case Critical => 3
  }

  lemma PressureZoneMonotone(p: int, q: int)
    requires p <= q
    ensures PressureRank(ClassifyPressure(p)) <= PressureRank(ClassifyPressure(q))
  {
  }

  /** The haptic flag reflects the pressure actually gained, not the raw
      delta: from an in-range pressure it fires exactly when the delta is at
      least 5 and the gauge has at least 5 points of headroom. */
  lemma HapticIffRealRise(state: Gauges, choice: Effect)
    requires InGauge(state.pressure)
    ensures ApplyChoice(state, choice).shouldTriggerHaptic
            <==> choice.pressureDelta >= HapticRise && state.pressure <= GaugeMax - HapticRise
  {
  }

  /** A delta of 15 at pressure 98 is clamped to a rise of 2: no pulse, yet
      the feedback still reports a spike because it reads the raw delta. */
  lemma ClampedRiseExample()
    ensures var u := ApplyChoice(Gauges(50, 98), Effect(15, Appropriate));
      u.pressure == 100 && !u.shouldTriggerHaptic && u.pressureFeedback == Spike
  {
  }

  /** The worked example: from the initial state, a too_trusting choice
      with delta 5 gives trust 62 and pressure 5, in the safe zone, with a
      haptic pulse. */
  lemma FirstChoiceExample()
    ensures var u := ApplyChoice(Gauges(50, 0), Effect(5, TooTrusting));
      && u.trust == 62 && u.pressure == 5
      && u.trustZone == TooHigh && u.pressureZone == Safe
      && u.shouldTriggerHaptic
      && u.trustFeedback == TrustingTooEasily && u.pressureFeedback == Spike
  {
  }

  // ---------------------------------------------------------------------
  // Traces and debrief analyses

  /** `createTrustPressureTrace` without the timestamp. */
  function CreateTrace(stepId: StepId, choiceId: string, before: Gauges, after: Gauges): TrustPressureTrace {
    TrustPressureTrace(stepId, choiceId, before.trust, after.trust, before.pressure, after.pressure)
  }

  datatype TrustCategory = TrustedTooEasily | TooCautious | WellCalibrated

  /** `analyzeTrustPerformance`, category only. */
  function AnalyzeTrustPerformance(finalTrust: int): (r: TrustCategory)
    ensures r == TrustedTooEasily <==> ClassifyTrust(finalTrust) == TooHigh
    ensures r == TooCautious <==> ClassifyTrust(finalTrust) == TooLow
    ensures r == WellCalibrated <==> ClassifyTrust(finalTrust) == Optimal
  {
    if finalTrust > TargetMax then TrustedTooEasily
    else if finalTrust < TargetMin then TooCautious
    else WellCalibrated
  }

  datatype Action = Escalated | Resisted

  datatype TimelineEntry = TimelineEntry(step: StepId, action: Action, delta: int)

  datatype ResistanceMessage = ExcellentResistance | GoodAwareness | FellForPressure

  datatype Resistance = Resistance(resistanceScore: real, message: ResistanceMessage, timeline: seq<TimelineEntry>)

  const ExcellentThreshold: real := 70.0
  const GoodThreshold: real := 40.0
  const NeutralScore: real := 50.0

  function TimelineOf(t: TrustPressureTrace): TimelineEntry {
    TimelineEntry(
      t.stepId,
      if t.pressureAfter > t.pressureBefore then Escalated else Resisted,
      t.pressureAfter - t.pressureBefore)
  }

  function Timeline(traces: seq<TrustPressureTrace>): (r: seq<TimelineEntry>)
    ensures |r| == |traces|
    ensures forall i :: 0 <= i < |traces| ==> r[i] == TimelineOf(traces[i])
  {
    if traces == [] then [] else [TimelineOf(traces[0])] + Timeline(traces[1..])
  }

  function CountAction(tl: seq<TimelineEntry>, a: Action): (r: nat)
    ensures r <= |tl|
  {
    if tl == [] then 0
    else (if tl[0].action == a then 1 else 0) + CountAction(tl[1..], a)
  }

  /** Traces whose pressure rose. */
  function CountRises(traces: seq<TrustPressureTrace>): nat {
    if traces == [] then 0
    else (if traces[0].pressureAfter > traces[0].pressureBefore then 1 else 0) + CountRises(traces[1..])
  }

  /** Every timeline entry is exactly one of escalated or resisted. */
  lemma {:induction false} ActionsPartition(tl: seq<TimelineEntry>)
    ensures CountAction(tl, Escalated) + CountAction(tl, Resisted) == |tl|
  {
    if tl != [] {
      ActionsPartition(tl[1..]);
    }
  }

  /** Escalations are exactly the traces where pressure rose; a trace with
      unchanged pressure counts as resisted. */
  lemma {:induction false} EscalationsAreRises(traces: seq<TrustPressureTrace>)
    ensures CountAction(Timeline(traces), Escalated) == CountRises(traces)
  {
    if traces != [] {
      assert Timeline(traces)[1..] == Timeline(traces[1..]);
      EscalationsAreRises(traces[1..]);
    }
  }

  function ScoreMessage(score: real): ResistanceMessage {
    if score >= ExcellentThreshold then ExcellentResistance
    else if score >= GoodThreshold then GoodAwareness
    else FellForPressure
  }

  /** `analyzePressureResistance`: the share of resisted steps, in percent,
      or 50 for an empty playthrough. */
  function AnalyzePressureResistance(traces: seq<TrustPressureTrace>): (r: Resistance)
    ensures |r.timeline| == |traces|
    ensures forall i :: 0 <= i < |traces| ==>
      && r.timeline[i].step == traces[i].stepId
      && (r.timeline[i].action == Escalated <==> traces[i].pressureAfter > traces[i].pressureBefore)
      && r.timeline[i].delta == traces[i].pressureAfter - traces[i].pressureBefore
    ensures 0.0 <= r.resistanceScore <= 100.0
    ensures traces == [] ==> r.resistanceScore == NeutralScore
    ensures traces != [] ==>
      r.resistanceScore * (|traces| as real) == (|traces| - CountRises(traces)) as real * 100.0
    ensures r.message == ExcellentResistance <==> r.resistanceScore >= ExcellentThreshold
    ensures r.message == FellForPressure <==> r.resistanceScore < GoodThreshold
  {
    var timeline := Timeline(traces);
    var escalations := CountAction(timeline, Escalated);
    var resistances := CountAction(timeline, Resisted);
    var total := escalations + resistances;
    ActionsPartition(timeline);
    EscalationsAreRises(traces);
    var score := if total > 0 then Percent(resistances, total) else NeutralScore;
    Resistance(score, ScoreMessage(score), timeline)
  }
}

=== FILE: unified_types.dfy ===
/** The unified conversation schema: scenarios, steps, choices, the runtime
    conversation state, trust/pressure traces and the path-validation summary,
    together with the numeric ranges the schema documents. */
module UnifiedTypes {
  import opened Common

  type StepId = string

  /** The direction a choice pushes the learner's trust. */
  datatype TrustHint = TooTrusting | Appropriate | TooSkeptical

  datatype Actor = Scammer | Ally | System

  datatype Difficulty = Easy | Medium | Hard

  /** One edge out of a branching step. */
  datatype Choice = Choice(
    id: string,
    caption: string,      // the source's `label` (a Dafny keyword)
    pressureDelta: int,
    trustHint: TrustHint,
    nextStepId: StepId,
    flags: seq<string>)

  /** One node of the scenario graph. An absent `choices` array and an empty
      one behave identically everywhere in the engine, so both are `[]`. */
  datatype Step = Step(
    id: StepId,
    actor: Actor,
    text: string,
    choices: seq<Choice>,
    next: Option<StepId>,
    terminal: bool)

  datatype Meta = Meta(scamType: string, locale: string, a11yHints: seq<string>)

  /** The debrief shown after a terminal step. An empty `redFlagPrimary`
      stands for a missing one (both are falsy); the two list fields may be
      absent in content that has not been validated yet. */
  datatype Debrief = Debrief(
    redFlagPrimary: string,
    redFlagSecondary: seq<string>,
    teachingPoints: Option<seq<string>>,
    targetTrustRange: Option<seq<int>>)

  datatype Scenario = Scenario(
    id: string,
    title: string,
    difficulty: Difficulty,
    meta: Meta,
    steps: seq<Step>,
    entryStepId: StepId,
    debrief: Debrief)

  datatype ChoiceRecord = ChoiceRecord(stepId: StepId, choiceId: string)

  /** The state of one playthrough. */
  datatype ConversationState = ConversationState(
    scenarioId: string,
    currentStepId: StepId,
    visitedSteps: seq<StepId>,
    trust: int,
    pressure: int,
    choices: seq<ChoiceRecord>,
    isCompleted: bool,
    debriefReady: bool)

  /** Before/after gauges for one applied choice (the wall-clock timestamp is not modelled). */
  datatype TrustPressureTrace = TrustPressureTrace(
    stepId: StepId,
    choiceId: string,
    trustBefore: int,
    trustAfter: int,
    pressureBefore: int,
    pressureAfter: int)

  /** What the path validator reports for a structurally sound scenario. */
  datatype PathValidation = PathValidation(
    reachableSteps: set<StepId>,
    terminalSteps: seq<StepId>,
    orphanedSteps: seq<StepId>,
    hasDebrief: bool)

  // ---------------------------------------------------------------------
  // Documented ranges

  const GaugeMin := 0
  const GaugeMax := 100
  const MaxPressureDelta := 15

  /** Trust and pressure are percentages. */
  predicate InGauge(x: int) {
    GaugeMin <= x <= GaugeMax
  }

  /** The authored bound on a choice's pressure delta. */
  predicate DeltaInRange(d: int) {
    -MaxPressureDelta <= d <= MaxPressureDelta
  }

  predicate ValidState(s: ConversationState) {
    InGauge(s.trust) && InGauge(s.pressure)
  }

  /** The debrief carries 2 to 4 teaching points and a `[min, max]` pair. */
  predicate WellFormedDebrief(d: Debrief) {
    && d.redFlagPrimary != ""
    && d.teachingPoints.Some? && 2 <= |d.teachingPoints.value| <= 4
    && d.targetTrustRange.Some? && |d.targetTrustRange.value| == 2
  }

  // ---------------------------------------------------------------------
  // Step shapes

  /** `step.choices && step.choices.length > 0`. */
  predicate HasChoices(s: Step) {
    |s.choices| > 0
  }

  /** `step.next` is truthy: present and not the empty string. */
  predicate HasNext(s: Step) {
    s.next.Some? && s.next.value != ""
  }

  /** Neither choices nor a continuation. */
  predicate IsLeaf(s: Step) {
    !HasChoices(s) && !HasNext(s)
  }

  /** One of the three documented shapes: branching, linear, terminal leaf.
      A branching step may still carry a `next`; the engine ignores it. */
  predicate WellShaped(s: Step) {
    || (HasChoices(s) && !s.terminal)
    || (!HasChoices(s) && HasNext(s) && !s.terminal)
    || (IsLeaf(s) && s.terminal)
  }

  /** Where a step's outgoing edges lead, in the order the engine follows
      them: the choice targets when there are choices, otherwise `next`. */
  function Successors(s: Step): (r: seq<StepId>)
    ensures HasChoices(s) ==> |r| == |s.choices|
    ensures HasChoices(s) ==> forall j :: 0 <= j < |r| ==> r[j] == s.choices[j].nextStepId
    ensures !HasChoices(s) && HasNext(s) ==> r == [s.next.value]
    ensures IsLeaf(s) <==> r == []
  {
    if HasChoices(s) then ChoiceTargets(s.choices)
    else if HasNext(s) then [s.next.value]
    else []
  }

  /** The total number of choices over all steps. */
  function TotalChoices(steps: seq<Step>): (n: nat)
    ensures steps == [] ==> n == 0
    ensures n == 0 <==> forall i :: 0 <= i < |steps| ==> !HasChoices(steps[i])
  {
    if steps == [] then 0 else |steps[0].choices| + TotalChoices(steps[1..])
  }

  function ChoiceTargets(cs: seq<Choice>): (r: seq<StepId>)
    ensures |r| == |cs|
    ensures forall j :: 0 <= j < |cs| ==> r[j] == cs[j].nextStepId
  {
    if cs == [] then [] else [cs[0].nextStepId] + ChoiceTargets(cs[1..])
  }

  // ---------------------------------------------------------------------
  // Step lookup

  function StepIdList(steps: seq<Step>): (r: seq<StepId>)
    ensures |r| == |steps|
    ensures forall i :: 0 <= i < |steps| ==> r[i] == steps[i].id
  {
    if steps == [] then [] else [steps[0].id] + StepIdList(steps[1..])
  }

  /** `new Set(scenario.steps.map(step => step.id))`. */
  function StepIds(steps: seq<Step>): set<StepId> {
    set s | s in steps :: s.id
  }

  /** `stepMap.get(id)` for a map filled by `stepMap.set(step.id, step)` in
      scenario order: when ids repeat, the last such step wins. */
  function Lookup(steps: seq<Step>, id: StepId): (r: Option<Step>)
    ensures r.Some? <==> id in StepIds(steps)
    ensures r.Some? ==> r.value in steps && r.value.id == id
    ensures r.Some? ==> exists i :: 0 <= i < |steps| && steps[i] == r.value
                          && forall j :: i < j < |steps| ==> steps[j].id != id
  {
    if steps == [] then None
    else
      var last := steps[|steps| - 1];
      var rest := steps[..|steps| - 1];
      assert steps == rest + [last];
      if last.id == id then Some(last)
      else
        var r := Lookup(rest, id);
        if r.Some? then
          var i :| 0 <= i < |rest| && rest[i] == r.value
                   && forall j :: i < j < |rest| ==> rest[j].id != id;
          assert steps[i] == r.value;
          r
        else r
  }

  /** Step ids are pairwise distinct. */
  predicate UniqueIds(steps: seq<Step>) {
    forall i, j :: 0 <= i < j < |steps| ==> steps[i].id != steps[j].id
  }

  /** With distinct ids, lookup finds the one step carrying the id. */
  lemma LookupUnique(steps: seq<Step>, i: int)
    requires UniqueIds(steps)
    requires 0 <= i < |steps|
    ensures Lookup(steps, steps[i].id) == Some(steps[i])
  {
    var r := Lookup(steps, steps[i].id);
    assert steps[i].id in StepIds(steps);
    var k :| 0 <= k < |steps| && steps[k] == r.value
             && forall j :: k < j < |steps| ==> steps[j].id != steps[i].id;
  }
}

=== FILE: validate_scenarios.dfy ===
/** The per-file checks the scenario validator runs once a file has parsed
    and passed the JSON schema, and the reliability score over a directory
    of files. */
module ScenarioValidator {
  import opened Common
  import opened UnifiedTypes
  import opened Dfs

  datatype FileError =
    | MissingRedFlagPrimary
    | TooFewTeachingPoints
    | BadTargetTrustRange
    | NoTerminalStepsFound
    | PathValidationFailed(cause: ScenarioError)
    | EntryStepNotFound(entry: StepId)

  datatype FileWarning =
    | OrphanedSteps(ids: seq<StepId>)
    | EasyTooManyChoices(total: nat)

  /** The sizes reported for a scenario whose path validation returned. */
  datatype PathInfo = PathInfo(reachableSteps: nat, terminalSteps: nat, orphanedSteps: nat, hasDebrief: bool)

  datatype FileResult = FileResult(
    valid: bool,
    errors: seq<FileError>,
    warnings: seq<FileWarning>,
    pathInfo: Option<PathInfo>)

  /** An easy scenario with more choices than this may exceed the 30-second demo. */
  const EasyChoiceBudget := 6

  predicate TeachingPointsPresent(d: Debrief) {
    d.teachingPoints.Some? && |d.teachingPoints.value| >= 2
  }

  predicate TrustRangeIsPair(d: Debrief) {
    d.targetTrustRange.Some? && |d.targetTrustRange.value| == 2
  }

  /** The three debrief checks, in order. */
  function DebriefErrors(d: Debrief): (r: seq<FileError>)
    ensures MissingRedFlagPrimary in r <==> d.redFlagPrimary == ""
    ensures TooFewTeachingPoints in r <==> !TeachingPointsPresent(d)
    ensures BadTargetTrustRange in r <==> !TrustRangeIsPair(d)
    ensures r == [] <==> d.redFlagPrimary != "" && TeachingPointsPresent(d) && TrustRangeIsPair(d)
    ensures forall e :: e in r ==> e.MissingRedFlagPrimary? || e.TooFewTeachingPoints? || e.BadTargetTrustRange?
    ensures NoTerminalStepsFound !in r
  {
    (if d.redFlagPrimary == "" then [MissingRedFlagPrimary] else [])
    + (if !TeachingPointsPresent(d) then [TooFewTeachingPoints] else [])
    + (if !TrustRangeIsPair(d) then [BadTargetTrustRange] else [])
  }

  /** What the combined validation contributes to a file's result. */
  datatype PathReport = PathReport(errors: seq<FileError>, warnings: seq<FileWarning>, info: Option<PathInfo>)

  /** The outcome of `validateScenario` may only return a validation that has a debrief. */
  predicate ReturnsWithDebrief(v: Result<PathValidation, ScenarioError>) {
    v.Success? ==> v.value.hasDebrief
  }

  /** The try block around `validateScenario`, given its outcome `v`: a
      throw becomes one error; a returned validation gives the path sizes,
      an error when it has no debrief and a warning listing orphaned steps. */
  function PathChecks(v: Result<PathValidation, ScenarioError>): (r: PathReport)
    requires ReturnsWithDebrief(v)
    ensures r.info.Some? <==> v.Success?
    ensures v.Failure? ==> r.errors == [PathValidationFailed(v.error)] && r.warnings == []
    ensures v.Success? ==> r.errors == []
    ensures v.Success? ==> forall w :: w in r.warnings ==> w == OrphanedSteps(v.value.orphanedSteps)
    ensures v.Success? ==> (r.warnings == [] <==> v.value.orphanedSteps == [])
  {
    match v
    case Failure(cause) => PathReport([PathValidationFailed(cause)], [], None)
    case Success(pv) =>
      PathReport(
        if !pv.hasDebrief then [NoTerminalStepsFound] else [],
        if |pv.orphanedSteps| > 0 then [OrphanedSteps(pv.orphanedSteps)] else [],
        Some(PathInfo(|pv.reachableSteps|, |pv.terminalSteps|, |pv.orphanedSteps|, pv.hasDebrief)))
  }

  /** `scenario.steps.some(step => step.id === scenario.entryStepId)`, as an error. */
  function EntryErrors(sc: Scenario): (r: seq<FileError>)
    ensures EntryStepNotFound(sc.entryStepId) in r <==> sc.entryStepId !in StepIds(sc.steps)
    ensures r == [] <==> sc.entryStepId in StepIds(sc.steps)
    ensures forall e :: e in r ==> e.EntryStepNotFound?
  {
    if sc.entryStepId !in StepIds(sc.steps) then [EntryStepNotFound(sc.entryStepId)] else []
  }

  function BudgetWarnings(sc: Scenario): (r: seq<FileWarning>)
    ensures EasyTooManyChoices(TotalChoices(sc.steps)) in r <==>
              sc.difficulty == Easy && TotalChoices(sc.steps) > EasyChoiceBudget
    ensures forall w :: w in r ==> w.EasyTooManyChoices?
  {
    var total := TotalChoices(sc.steps);
    if sc.difficulty == Easy && total > EasyChoiceBudget then [EasyTooManyChoices(total)] else []
  }

  /** The checks of `validateFile` after the schema step, given the outcome
      `v` of the combined scenario validation: three debrief checks, the
      path checks, the entry check and the easy-scenario choice budget; the
      file is valid when no error was recorded. */
  function FileReport(sc: Scenario, v: Result<PathValidation, ScenarioError>): (r: FileResult)
    requires ReturnsWithDebrief(v)
    ensures r.valid <==> r.errors == []
    ensures r.pathInfo.Some? <==> v.Success?
  {
    var path := PathChecks(v);
    var errors := DebriefErrors(sc.debrief) + path.errors + EntryErrors(sc);
    FileResult(errors == [], errors, path.warnings + BudgetWarnings(sc), path.info)
  }

  /** Each error is recorded exactly when its check fails; the
      no-terminal-steps error is never recorded. */
  lemma FileReportErrors(sc: Scenario, v: Result<PathValidation, ScenarioError>)
    requires ReturnsWithDebrief(v)
    ensures var r := FileReport(sc, v);
      && (MissingRedFlagPrimary in r.errors <==> sc.debrief.redFlagPrimary == "")
      && (TooFewTeachingPoints in r.errors <==> !TeachingPointsPresent(sc.debrief))
      && (BadTargetTrustRange in r.errors <==> !TrustRangeIsPair(sc.debrief))
      && NoTerminalStepsFound !in r.errors
      && (v.Failure? ==> PathValidationFailed(v.error) in r.errors)
      && (v.Success? ==> forall e :: e in r.errors ==> !e.PathValidationFailed?)
      && (EntryStepNotFound(sc.entryStepId) in r.errors <==> sc.entryStepId !in StepIds(sc.steps))
  {
    var d, p, n := DebriefErrors(sc.debrief), PathChecks(v).errors, EntryErrors(sc);
    var r := FileReport(sc, v);
    assert r.errors == d + p + n;
    DebriefErrorsIn(sc.debrief, p, n);
    PathErrorsIn(v, d, n);
    EntryErrorsIn(sc, d + p);
  }

  lemma DebriefErrorsIn(d: Debrief, mid: seq<FileError>, after: seq<FileError>)
    requires forall e :: e in mid ==> e.PathValidationFailed? || e.NoTerminalStepsFound?
    requires forall e :: e in after ==> e.EntryStepNotFound?
    ensures var es := DebriefErrors(d) + mid + after;
      && (MissingRedFlagPrimary in es <==> d.redFlagPrimary == "")
      && (TooFewTeachingPoints in es <==> !TeachingPointsPresent(d))
      && (BadTargetTrustRange in es <==> !TrustRangeIsPair(d))
  {
    var es := DebriefErrors(d) + mid + after;
    assert forall e :: e in es <==> e in DebriefErrors(d) || e in mid || e in after;
  }

  lemma PathErrorsIn(v: Result<PathValidation, ScenarioError>, before: seq<FileError>, after: seq<FileError>)
    requires ReturnsWithDebrief(v)
    requires forall e :: e in before ==> !e.PathValidationFailed? && !e.NoTerminalStepsFound?
    requires forall e :: e in after ==> !e.PathValidationFailed? && !e.NoTerminalStepsFound?
    ensures var es := before + PathChecks(v).errors + after;
      && NoTerminalStepsFound !in es
      && (v.Failure? ==> PathValidationFailed(v.error) in es)
      && (v.Success? ==> forall e :: e in es ==> !e.PathValidationFailed?)
  {
    var p := PathChecks(v).errors;
    var es := before + p + after;
    assert forall e :: e in es <==> e in before || e in p || e in after;
    if v.Failure? {
      assert p == [PathValidationFailed(v.error)];
      assert es[|before|] == PathValidationFailed(v.error);
    } else {
      assert p == [];
    }
  }

  lemma EntryErrorsIn(sc: Scenario, before: seq<FileError>)
    requires forall e :: e in before ==> !e.EntryStepNotFound?
    ensures EntryStepNotFound(sc.entryStepId) in before + EntryErrors(sc) <==> sc.entryStepId !in StepIds(sc.steps)
  {
  }

  /** A file is valid exactly when its debrief passes the three checks, the
      combined validation succeeded and the entry step exists. */
  lemma FileReportValid(sc: Scenario, v: Result<PathValidation, ScenarioError>)
    requires ReturnsWithDebrief(v)
    ensures FileReport(sc, v).valid <==>
              && sc.debrief.redFlagPrimary != ""
              && TeachingPointsPresent(sc.debrief)
              && TrustRangeIsPair(sc.debrief)
              && v.Success?
              && sc.entryStepId in StepIds(sc.steps)
  {
    var path := PathChecks(v);
    var errors := DebriefErrors(sc.debrief) + path.errors + EntryErrors(sc);
    assert errors == [] <==> DebriefErrors(sc.debrief) == [] && path.errors == [] && EntryErrors(sc) == [];
  }

  /** The orphan warning lists the orphaned steps of a successful validation
      and appears only when there are some; the choice-budget warning
      appears exactly for easy scenarios with more than six choices. */
  lemma FileReportWarnings(sc: Scenario, v: Result<PathValidation, ScenarioError>)
    requires ReturnsWithDebrief(v)
    ensures var r := FileReport(sc, v);
      && (v.Success? ==> (OrphanedSteps(v.value.orphanedSteps) in r.warnings <==> v.value.orphanedSteps != []))
      && (v.Failure? ==> forall w :: w in r.warnings ==> !w.OrphanedSteps?)
      && (EasyTooManyChoices(TotalChoices(sc.steps)) in r.warnings <==>
            sc.difficulty == Easy && TotalChoices(sc.steps) > EasyChoiceBudget)
  {
    var path := PathChecks(v);
    var warnings := path.warnings + BudgetWarnings(sc);
    assert forall w :: w in warnings <==> w in path.warnings || w in BudgetWarnings(sc);
  }

  /** `validateFile` for a scenario that parsed and passed the schema. */
  function ValidateFile(sc: Scenario): (r: FileResult)
    ensures r.valid <==>
              && sc.debrief.redFlagPrimary != ""
              && TeachingPointsPresent(sc.debrief)
              && TrustRangeIsPair(sc.debrief)
              && ValidateScenario(sc).Success?
              && sc.entryStepId in StepIds(sc.steps)
  {
    var v := ValidateScenario(sc);
    assert ReturnsWithDebrief(v);
    FileReportValid(sc, v);
    FileReport(sc, v)
  }

  /** A missing entry step is reported twice: once by the path validation
      and once by the entry check. */
  lemma MissingEntryReportedTwice(sc: Scenario)
    requires sc.entryStepId !in StepIds(sc.steps)
    ensures var r := ValidateFile(sc);
      && EntryStepNotFound(sc.entryStepId) in r.errors
      && ValidateScenario(sc).Failure?
      && PathValidationFailed(ValidateScenario(sc).error) in r.errors
      && !r.valid
  {
    var v := ValidateScenario(sc);
    FileReportErrors(sc, v);
  }

  /** A debrief meeting the documented shape passes the three debrief checks. */
  lemma WellFormedDebriefPasses(sc: Scenario)
    requires WellFormedDebrief(sc.debrief)
    ensures var r := ValidateFile(sc);
      MissingRedFlagPrimary !in r.errors && TooFewTeachingPoints !in r.errors && BadTargetTrustRange !in r.errors
  {
    FileReportErrors(sc, ValidateScenario(sc));
  }

  // ---------------------------------------------------------------------
  // Directory summary

  /** The positions of the valid results. */
  function PassingIndices(rs: seq<FileResult>): set<nat> {
    set k: nat | k < |rs| && rs[k].valid
  }

  lemma PassingIndicesSnoc(rs: seq<FileResult>)
    requires rs != []
    ensures var init := rs[..|rs| - 1];
      && PassingIndices(rs) == PassingIndices(init) + (if Last(rs).valid then {|rs| - 1} else {})
      && |rs| - 1 !in PassingIndices(init)
  {
    var init := rs[..|rs| - 1];
    assert forall k :: 0 <= k < |init| ==> init[k] == rs[k];
  }

  /** The number of valid results. */
  function CountValid(rs: seq<FileResult>): (n: nat)
    ensures n == |PassingIndices(rs)|
    ensures n <= |rs|
    ensures n == |rs| <==> forall k :: 0 <= k < |rs| ==> rs[k].valid
    ensures n == 0 <==> forall k :: 0 <= k < |rs| ==> !rs[k].valid
  {
    if rs == [] then 0
    else
      var init := rs[..|rs| - 1];
      var rest := CountValid(init);
      assert forall k :: 0 <= k < |init| ==> init[k] == rs[k];
      PassingIndicesSnoc(rs);
      rest + (if Last(rs).valid then 1 else 0)
  }

  /** The percentage of files that passed, or 0 when there are none. */
  function ReliabilityScore(rs: seq<FileResult>): (score: real)
    ensures 0.0 <= score <= 100.0
    ensures score == 100.0 <==> |rs| > 0 && forall k :: 0 <= k < |rs| ==> rs[k].valid
    ensures score == 0.0 <==> forall k :: 0 <= k < |rs| ==> !rs[k].valid
    ensures |rs| > 0 ==> score == Percent(CountValid(rs), |rs|)
  {
    var passed := CountValid(rs);
    if |rs| > 0 then Percent(passed, |rs|) else 0.0
  }

  datatype DirectorySummary = DirectorySummary(total: nat, passed: nat, results: seq<FileResult>, reliabilityScore: real)

  /** The totals of `validateDirectory` over the per-file results. */
  function Summarize(results: seq<FileResult>): (r: DirectorySummary)
    ensures r.results == results && r.total == |results|
    ensures r.passed == |PassingIndices(results)| && r.passed <= r.total
    ensures r.total > 0 ==> r.reliabilityScore == Percent(r.passed, r.total)
    ensures r.total == 0 ==> r.reliabilityScore == 0.0
    ensures r.reliabilityScore == 100.0 <==> |results| > 0 && forall k :: 0 <= k < |results| ==> results[k].valid
  {
    DirectorySummary(|results|, CountValid(results), results, ReliabilityScore(results))
  }

  /** `validateDirectory` over scenarios already read from disk, in file order. */
  function ValidateDirectory(scenarios: seq<Scenario>): (r: DirectorySummary)
    ensures r.total == |scenarios| == |r.results|
    ensures forall k :: 0 <= k < |scenarios| ==> r.results[k] == ValidateFile(scenarios[k])
    ensures r.passed == |PassingIndices(r.results)| && r.passed <= r.total
    ensures r.total > 0 ==> r.reliabilityScore == Percent(r.passed, r.total)
    ensures r.total == 0 ==> r.reliabilityScore == 0.0
    ensures r.reliabilityScore == 100.0 <==> |scenarios| > 0 && forall k :: 0 <= k < |r.results| ==> r.results[k].valid
  {
    Summarize(ValidateAll(scenarios))
  }

  function ValidateAll(scenarios: seq<Scenario>): (r: seq<FileResult>)
    ensures |r| == |scenarios|
    ensures forall k :: 0 <= k < |scenarios| ==> r[k] == ValidateFile(scenarios[k])
  {
    seq(|scenarios|, k requires 0 <= k < |scenarios| => ValidateFile(scenarios[k]))
  }
}
